=== FILE: README.md ===
# Space Engineers in-game scripts: hangar, elevator, laser link and door/vent controllers

This project models the control logic of five Space Engineers programmable-block
scripts and proves properties of it:

- **Hangar2** (`Hangar2.cs`) is the ticket scheduler of a hangar controller.
  A run argument naming a group adds a `toggle` ticket. Once per second, the
  ticket list is scanned from the last ticket to the first. Immediate tickets
  run their action: open, close, lock doors, check pressure and the open
  delays. Timed tickets count down and are then replaced by their follow-on
  tickets.
- **OldHangar** (`Old/Hangar.cs`) is the earlier hangar controller on the
  EasyAPI scheduler. Delayed requests count down in seconds. A close waits
  in a FIFO queue for the pressure event of the group's air vent.
- **EasyApi** and **Elevator** (`Old/Class1.cs`):
  - the EasyAPI scheduler: its tick throttle, event list, repeating
    intervals and one-shot schedule, the block-list `Plus`/`Minus`, and
    `EasyCompare`;
  - the piston elevator controller built on it: a floor-request FIFO, the
    `ready` hand-off and the door timing.
- **LaserComm** (`LaserComm.cs`) is the laser-antenna docking script:
  - the GPS waypoint text format (`NavWire`);
  - the `BaconArgs` argument parser (`Bacon`);
  - the `communicate()` iterator as a resumable state machine (`Comm`);
  - the `autopilot()` iterator as a resumable state machine (`Autopilot`);
  - the `Main` dispatch with the rescan, the STOP/START switch and the
    spinner (`LaserComm`).
- **AutoDoorVent** (`AutoDoor_and_Vent.cs`) is the automatic door and
  air-vent controller: the vent power rule, the door rule over sensor
  detections, the 80 ms gate of `Main`, and the setup failures.

Shared pieces:

- `Text` holds substring search, ASCII lower-casing, split and join, with
  their round-trip lemmas.
- `CsInt` holds C# `int` wrap-around and the truncating remainder.

The model never reads a clock or a device. Device readings, elapsed time and
received text are parameters. The device actions the scripts take are
returned as sequences of commands, in the order the source issues them.

The C# `IEnumerable<bool>` iterators of `LaserComm.cs` become explicit
program counters:

- `Autopilot.Flight.pc` and `Comm.Comm.pc` are the program counters.
- `Drive` runs one `MoveNext`: it continues until the next `yield return`,
  the end of the iterator, or an exception.
- After an exception the iterator is finished. Its next run reports the end
  and no value.

The model follows the code as written; these behaviours of it are worth
stating:

- A malformed navigation record (fewer than four `|` fields) makes
  `communicate()` yield `false`. `Main` then drops the communication
  iterator with the rest of the response unread; the record is not just
  skipped (`LaserComm.cs:969-973`, `Comm.RecordsAbsorbed`).
- One run of an iterator passes through every state whose wait condition
  already holds. For example, a docking ship already connected rotates and
  locks in the same run (`Autopilot.SettleWhenConnected`).
- A waypoint that is not a `GPS:` string makes `convertToVector` index past
  the split and throw. The autopilot run ends in an exception, and the
  iterator is then finished (`Autopilot.BadWaypointCrashes`,
  `Autopilot.CrashedThenEnds`).
- A destination without approach waypoints makes `autopilot()` yield
  `false`. `Main` then drops the whole flight; the next run starts a new
  flight from the first destination. The code does not skip to the next
  destination (`LaserComm.cs:507-511`, `Autopilot.NoApproachGivesUp`,
  `LaserComm.FlightDropped`).
- A ship that becomes connected while settling still calls `rotate` once
  per axis before it locks, because the rotation is tested before the
  connection (`LaserComm.cs:774-804`, `Autopilot.SettleConnected`).
- Exceptions do leave a run: the bad waypoint above, a failed first setup
  in `AutoDoor_and_Vent.cs` (see Findings), and an out-of-range floor in
  the elevator. The model reports them as `Crashed`, `threw` or `ok == false`.

`Every(1, processRequests)` in the elevator registers an interval of one
EasyAPI tick unit, not one second (`Old/Class1.cs:169`). The model keeps the
interval of 1.

## Model

| member | source | states |
|---|---|---|
| Text.Contains | SpaceEngineersIngameScripts/LaserComm.cs:942 | `string.Contains`: the result holds exactly when the pattern occurs at some position of the text |
| Text.Lower | SpaceEngineersIngameScripts/LaserComm.cs:100 | `ToLower` keeps the length and lower-cases each ASCII capital `A` to `Z`; only ASCII is lowered here (see Left out) |
| Text.SplitJoin | SpaceEngineersIngameScripts/LaserComm.cs:967 | `Split` undoes joining fields that do not contain the separator |
| Text.JoinSplit | SpaceEngineersIngameScripts/LaserComm.cs:1071 | joining the pieces of `Split` gives back the text |
| Text.Split | SpaceEngineersIngameScripts/LaserComm.cs:967 | `string.Split(c)` gives at least one piece, and no piece contains the separator |
| Text.Join | SpaceEngineersIngameScripts/LaserComm.cs:1029-1035 | the text the reply loop builds by putting a separator between pieces; `Text.SplitJoin` and `Text.JoinSplit` make it the inverse of `Split` |
| Text.SplitNonEmpty | SpaceEngineersIngameScripts/LaserComm.cs:963 | `Split` with `RemoveEmptyEntries` gives only non-empty pieces without the separator; `Text.NonEmptyKeepsAll` and `Text.NonEmptyAppend` show none is lost and the order is kept |
| Text.NonEmptyKeepsAll | SpaceEngineersIngameScripts/LaserComm.cs:963 | `RemoveEmptyEntries` keeps every non-empty piece as often as it occurs and drops only the empty ones |
| Text.NonEmptyAppend | SpaceEngineersIngameScripts/LaserComm.cs:963 | dropping empty pieces works piece by piece, so the kept pieces stay in their order |
| Text.IndexOf | Hangar2.cs:40-42 | `IndexOf` gives the first position of the element, or -1 exactly when it is absent |
| Text.RemoveFirst | SpaceEngineersIngameScripts/Old/Hangar.cs:172 | `List.Remove(x)`: what it leaves is stated by `Text.RemoveFirstSpec` and `Text.RemoveFirstMultiset` |
| Text.RemoveFirstSpec | SpaceEngineersIngameScripts/Old/Hangar.cs:174 | `List.Remove` of a present element: the list is `a + [x] + b` with no `x` in `a`, and the result is `a + b`, one shorter; a list without `x` is left unchanged |
| Text.RemoveFirstMultiset | SpaceEngineersIngameScripts/Old/Hangar.cs:174 | `List.Remove` takes away exactly one copy of the element, when there is one |
| Hangar2.Resolve | Hangar2.cs:238-243 | `toggle` resolves to `close` when the group is open and to `open` when it is closed; any other action is left as it is |
| Hangar2.Apply | Hangar2.cs:228-433 | one ticket's effect keeps every ticket below the scan position in place; a faulting ticket leaves list and flags untouched |
| Hangar2.StepAt | Hangar2.cs:233-430 | processing the ticket at `i` keeps the tickets below `i` and the number of open flags |
| Hangar2.Scan | Hangar2.cs:228-232 | the backwards scan keeps one open flag per group; `Hangar2.ScanStep` and `Hangar2.VisitsEachOnce` state its order |
| Hangar2.Tick | Hangar2.cs:218-433 | one whole `mainLoop` pass; `Hangar2.TickVisitsEachOnce` and the procedure lemmas state what it does |
| Hangar2.ScanStep | Hangar2.cs:228-232 | one iteration of the backwards `for` loop: process ticket `i-1`, stop the pass at a fault, otherwise continue below it on the updated list |
| Hangar2.VisitsEachOnce | Hangar2.cs:228-232 | a pass without a fault visits exactly the tickets present at its start, last to first, each once, although tickets are removed and appended during the pass |
| Hangar2.TickVisitsEachOnce | Hangar2.cs:218-433 | a whole `mainLoop` pass without a fault visits the reversed ticket list, one visit per ticket |
| Hangar2.TimedCountdown | Hangar2.cs:391-397 | a timed ticket with time left is replaced in place by the same ticket with one second less, with no command and no flag change |
| Hangar2.ToggleDispatch | Hangar2.cs:238-285 | `toggle` on a found group removes the ticket and appends `close_delay` (5 s) when open, `lockInterior_delay` (9 s) when closed |
| Hangar2.DelayExpiry | Hangar2.cs:399-427 | an expired `close_delay` becomes `checkPressurize` followed by `lockExteriorDoors`; an expired `lockInterior_delay` becomes `lockInterior` |
| Hangar2.LockUntilClosed | Hangar2.cs:303-351 | a lock ticket issues one command per door and stays queued while any door is open; once all are closed it is removed, and the interior lock also queues `open_delay` |
| Hangar2.OpenFlagStages | Hangar2.cs:287-301 | `open_delay` queues `open_delay2`, which marks the group open; `checkPressurize` marks it closed and is removed only once the first vent is above 0.99, otherwise it stays |
| Hangar2.OpenFlagWriters | Hangar2.cs:228-433 | only `open_delay2` and `checkPressurize` change an open flag |
| Hangar2.OpenSteps | Hangar2.cs:238-384 | the five single-ticket steps of opening a closed, found group with closed interior doors |
| Hangar2.OpenProcedure | Hangar2.cs:238-384 | opening alone takes 14 passes: after 13 only `open_delay2` is left, and after 14 the list is empty and the group is open |
| Hangar2.CloseSteps | Hangar2.cs:265-285 | the first steps of closing an open, found group: `toggle` queues `close_delay` (5 s), which at zero queues the pressure check and the exterior lock |
| Hangar2.CloseProcedure | Hangar2.cs:265-301 | with closed exterior doors and a pressurized vent, closing takes 8 passes and ends with an empty list and the group closed |
| Hangar2.TickPair | Hangar2.cs:287-325 | the pressure check and the exterior lock queued together both complete in one pass |
| Hangar2.Next | Hangar2.cs:218-433 | one timer-driven pass keeps one open flag per group |
| Hangar2.Run | Hangar2.cs:218-433 | any number of passes keeps one open flag per group |
| Hangar2.RunSingle | Hangar2.cs:228-433 | with a single ticket, a pass is exactly that ticket's step |
| Hangar2.Countdown | Hangar2.cs:391-397 | a lone timed ticket with `k` seconds left counts down one second per pass |
| Hangar2.RunLast | Hangar2.cs:218-433 | `n + 1` passes are `n` passes followed by one more |
| Hangar2.InitialTicketsCount | Hangar2.cs:100-212 | the constructor queues one `lockExteriorDoors` ticket for group `g` per grid group named `groups[g]` |
| Hangar2.InitialTicketsKind | Hangar2.cs:205-211 | every ticket the constructor queues is an immediate `lockExteriorDoors` |
| Hangar2.EnqueueArgument | Hangar2.cs:35-46 | an argument naming a configured group appends a `toggle` ticket for that group; any other argument changes nothing |
| Hangar2.HangarController.constructor | Hangar2.cs:80-214 | all groups start closed, a group counts as found exactly when its name is on the grid, and the start-up tickets are queued |
| Hangar2.HangarController.HandleArgument | Hangar2.cs:35-46 | `Main`: the argument's ticket is enqueued, then one pass runs; the new tickets, flags and commands are those of the functional pass |
| Hangar2.HangarController.MainLoop | Hangar2.cs:218-433 | the backwards loop over the in-place list gives exactly the tickets, flags, commands and fault of the functional pass |
| Hangar2.HangarController.ProcessImmediate | Hangar2.cs:233-387 | an immediate ticket's action on the list and the open-flag array equals its functional step |
| Hangar2.HangarController.ProcessTimed | Hangar2.cs:389-430 | a timed ticket's countdown or expiry equals its functional step and leaves the flags alone |
| OldHangar.Fire | SpaceEngineersIngameScripts/Old/Hangar.cs:177-215 | firing `open` marks the group open; firing `close` enqueues the group for the pressure event; `lock` changes neither |
| OldHangar.WrittenStep | SpaceEngineersIngameScripts/Old/Hangar.cs:165-220 | one iteration of the forward loop as written: remove the request by value, re-append it decremented if time is left, otherwise fire it; the index moves on either way |
| OldHangar.Due | SpaceEngineersIngameScripts/Old/Hangar.cs:172-215 | the requests a pass fires have run out of time, and every input request that has run out of time is among them |
| OldHangar.PassStep | SpaceEngineersIngameScripts/Old/Hangar.cs:170-218 | the corrected pass splits each request into "waits one second less" or "fires now" |
| OldHangar.CorrectedFromIsPass | SpaceEngineersIngameScripts/Old/Hangar.cs:163-222 | the corrected index loop leaves the waiting requests decremented in their order and fires the due ones in their order |
| OldHangar.PendingDueSize | SpaceEngineersIngameScripts/Old/Hangar.cs:163-222 | every request present at the start is either kept or fired, never both and never lost: the waiting and the fired requests make up the input as a multiset |
| OldHangar.PendingIsWaiting | SpaceEngineersIngameScripts/Old/Hangar.cs:165-174 | what a pass keeps is exactly the requests that had time left, in their order, each one second less |
| OldHangar.Waiting | SpaceEngineersIngameScripts/Old/Hangar.cs:172-176 | the requests a pass keeps waiting all have time left and are no more than the input; with the fired ones they make up the input (`OldHangar.PendingDueSize`) |
| OldHangar.PendingFromInput | SpaceEngineersIngameScripts/Old/Hangar.cs:172-176 | every kept request is a waiting input request with one second less |
| OldHangar.PendingAllWaiting | SpaceEngineersIngameScripts/Old/Hangar.cs:172-176 | when no request is due, the pass decrements each one in place and fires nothing |
| OldHangar.DueAllFire | SpaceEngineersIngameScripts/Old/Hangar.cs:177-218 | when every request is due, the pass fires them all and keeps none |
| OldHangar.WaitingPass | SpaceEngineersIngameScripts/Old/Hangar.cs:126-133 | the lock/open pair of an opening loses one second each per pass, with nothing fired |
| OldHangar.PassesCountdown | SpaceEngineersIngameScripts/Old/Hangar.cs:163-176 | `n` corrected passes take `n` seconds off both requests of an opening |
| OldHangar.ScheduleSteps | SpaceEngineersIngameScripts/Old/Hangar.cs:177-192 | the last three passes of an opening: lock fires, open waits one more second, then open fires |
| OldHangar.CorrectedOpenSchedule | SpaceEngineersIngameScripts/Old/Hangar.cs:111-133 | with the corrected pass, the interior lock fires on pass 11 and the hangar opens on pass 13, as the 10 s and 12 s delays intend |
| OldHangar.AsWrittenUnevenCountdown | SpaceEngineersIngameScripts/Old/Hangar.cs:165-174 | as written, one pass over lock(10), open(12) gives open(12), lock(8): the open request is skipped and the lock request is decremented twice |
| OldHangar.AsWrittenSkipsAfterFiring | SpaceEngineersIngameScripts/Old/Hangar.cs:177-218 | as written, when lock and open are both due, firing lock skips open, so the hangar stays closed that pass |
| OldHangar.CompleteOldest | SpaceEngineersIngameScripts/Old/Hangar.cs:152-161 | as written, completion dequeues the oldest waiting group and marks it closed, whichever vent fired; an empty queue throws |
| OldHangar.CompleteFor | SpaceEngineersIngameScripts/Old/Hangar.cs:152-161 | intended completion: it succeeds exactly when the vent's group waits, marks that group closed, and removes one occurrence of it from the queue |
| OldHangar.AsWrittenCompletesWrongGroup | SpaceEngineersIngameScripts/Old/Hangar.cs:152-161 | groups 0 and 1 wait and group 1's vent fires: as written group 0 is marked closed and its interior doors are powered; intended, group 1 is closed and 0 keeps waiting |
| OldHangar.HangarController.constructor | SpaceEngineersIngameScripts/Old/Hangar.cs:55-101 | every group starts closed, with no delayed request and no group waiting for pressure |
| OldHangar.HangarController.ProcessRequest | SpaceEngineersIngameScripts/Old/Hangar.cs:111-149 | an unknown group fails; a closed group gets lock at 10 s and open at 12 s; an open group gets close at 5 s |
| OldHangar.HangarController.ProcessDelayedRequestsAsWritten | SpaceEngineersIngameScripts/Old/Hangar.cs:163-222 | the forward loop that removes from the list it walks equals the as-written pass function |
| OldHangar.HangarController.VisitAsWritten | SpaceEngineersIngameScripts/Old/Hangar.cs:167-219 | one loop body, with its `Remove` by value and `Add` at the end, equals one step of the as-written pass |
| OldHangar.HangarController.ProcessDelayedRequests | SpaceEngineersIngameScripts/Old/Hangar.cs:163-222 | the corrected loop equals the corrected pass: each request present at entry is decremented or fired exactly once |
| OldHangar.HangarController.FireRequest | SpaceEngineersIngameScripts/Old/Hangar.cs:177-215 | firing one request updates the flags, the queue and the commands as `Fire` says, and leaves the request list alone |
| OldHangar.HangarController.PressurizationComplete | SpaceEngineersIngameScripts/Old/Hangar.cs:152-161 | the event handler as written: it dequeues the oldest group and fails on an empty queue |
| OldHangar.HangarController.PressurizationCompleteFor | SpaceEngineersIngameScripts/Old/Hangar.cs:152-161 | the corrected handler: it closes the group whose vent fired and fails when that group is not waiting |
| OldHangar.HangarController.HandleArgument | SpaceEngineersIngameScripts/Old/Hangar.cs:241-244 | the argument part of `Main`: an empty argument queues nothing; a non-empty one succeeds exactly when it names a group, and then queues `lock` in 10 s and `open` in 12 s for a closed hangar or `close` in 5 s for an open one; otherwise nothing is queued and no command issued; the scheduler tick that ends `Main` is left out |
| EasyApi.FilterMembers | SpaceEngineersIngameScripts/Old/Class1.cs:329-338 | the reference for removal from a list: an element stays exactly when it was present and passes the test |
| EasyApi.SweepAsWritten | SpaceEngineersIngameScripts/Old/Class1.cs:329-338 | a forward index loop with `Remove` never keeps more elements than it started with |
| EasyApi.AsWrittenKeepsPassing | SpaceEngineersIngameScripts/Old/Class1.cs:329-338 | the as-written sweep never drops an element that should stay |
| EasyApi.AsWrittenWithoutRemoval | SpaceEngineersIngameScripts/Old/Class1.cs:329-338 | when nothing from the index on is removed, the as-written sweep visits everything and keeps everything |
| EasyApi.HandledEvents | SpaceEngineersIngameScripts/Old/Class1.cs:329-338 | after event handling, an event stays exactly when it did not fire or its handler asked to keep it; the notified events are exactly those whose condition held |
| EasyApi.Reschedule | SpaceEngineersIngameScripts/Old/Class1.cs:442-451 | a due interval moves one period later, keeping its period and action; one not yet due is unchanged |
| EasyApi.Rescheduled | SpaceEngineersIngameScripts/Old/Class1.cs:442-451 | the interval pass keeps every interval, none added or removed |
| EasyApi.EveryKeepsPhase | SpaceEngineersIngameScripts/Old/Class1.cs:442-451 | over any run of ticks, an `Every` interval stays on its phase: its next time is the first time plus a whole number of periods, one per firing |
| EasyApi.EasyAPI.constructor | SpaceEngineersIngameScripts/Old/Class1.cs:310-327 | start and clock are the current time and all event lists are empty |
| EasyApi.EasyAPI.AddEvent | SpaceEngineersIngameScripts/Old/Class1.cs:340-343 | the event is appended and nothing else changes |
| EasyApi.EasyAPI.On | SpaceEngineersIngameScripts/Old/Class1.cs:470-478 | the callback is appended to the argument's action list, creating the list if needed |
| EasyApi.EasyAPI.At | SpaceEngineersIngameScripts/Old/Class1.cs:481-485 | a one-shot timer at `start + time` is appended to the schedule |
| EasyApi.EasyAPI.Every | SpaceEngineersIngameScripts/Old/Class1.cs:488-491 | a repeating interval first due at `clock + time` is appended |
| EasyApi.EasyAPI.In | SpaceEngineersIngameScripts/Old/Class1.cs:494-497 | a one-shot timer at `clock + time` is appended to the schedule |
| EasyApi.EasyAPI.HandleEvents | SpaceEngineersIngameScripts/Old/Class1.cs:329-338 | corrected event handling: the remaining list is exactly the reference removal, and every event whose condition held is notified |
| EasyApi.EasyAPI.HandleIntervals | SpaceEngineersIngameScripts/Old/Class1.cs:442-451 | due intervals fire in list order and are rescheduled one period later |
| EasyApi.EasyAPI.HandleSchedule | SpaceEngineersIngameScripts/Old/Class1.cs:454-461 | corrected schedule handling: every due one-shot timer fires and is removed; the others stay in order |
| EasyApi.EasyAPI.Tick | SpaceEngineersIngameScripts/Old/Class1.cs:397-464 | the argument's actions always run; a run is throttled when less than `interval` has passed since the last run, and throttled runs are counted; a run that proceeds sets the clock and delta, resets the count and handles events, intervals and the schedule, using the corrected event and timer sweeps (see Left out) |
| EasyApi.AsWrittenEventSkipped | SpaceEngineersIngameScripts/Old/Class1.cs:329-338 | two events fire together: as written the second one is skipped and stays, although both should be handled and removed |
| EasyApi.AsWrittenTimerDelayed | SpaceEngineersIngameScripts/Old/Class1.cs:454-461 | two timers due at the same time: as written the second one is skipped and only fires a tick later |
| EasyApi.UnionSpec | SpaceEngineersIngameScripts/Old/Class1.cs:810-824 | `Plus` keeps the list and appends the blocks of the other list not yet present, each once, so the result holds exactly the blocks of either list |
| EasyApi.SubtractSpec | SpaceEngineersIngameScripts/Old/Class1.cs:826-837 | `Minus` removes one occurrence per block of the other list, so its multiset is the difference |
| EasyApi.Union | SpaceEngineersIngameScripts/Old/Class1.cs:810-824 | the list `Plus` returns; what it holds (the receiver in front, then the new blocks once each) is proved in `EasyApi.UnionSpec`, and `EasyApi.Plus` is its loop |
| EasyApi.Subtract | SpaceEngineersIngameScripts/Old/Class1.cs:826-837 | the list `Minus` returns; that it is the multiset difference is proved in `EasyApi.SubtractSpec`, and `EasyApi.Minus` is its loop |
| EasyApi.Plus | SpaceEngineersIngameScripts/Old/Class1.cs:810-824 | the nested loop builds exactly the union list |
| EasyApi.Minus | SpaceEngineersIngameScripts/Old/Class1.cs:826-837 | the loop of `Remove` calls builds exactly the difference list |
| EasyApi.EasyCompareSpec | SpaceEngineersIngameScripts/Old/Class1.cs:1473-1496 | each negated operator is the negation of its positive form; `==` implies `~`; `~` is substring search; unknown operators are false |
| EasyApi.EasyCompare | SpaceEngineersIngameScripts/Old/Class1.cs:1473-1496 | the comparison operators; their laws (negated pairs, `~` as substring search, unknown operators false) are proved in `EasyApi.EasyCompareSpec` |
| Elevator.ArrivalEvent | SpaceEngineersIngameScripts/Old/Class1.cs:92-97 | a floor's arrival event is distinct from the start-up event |
| Elevator.ParseInt | SpaceEngineersIngameScripts/Old/Class1.cs:240-250 | `int.Parse` accepts only values in the 32-bit range |
| Elevator.ShowNat | SpaceEngineersIngameScripts/Old/Class1.cs:240-250 | a floor number written in decimal is a non-empty digit string |
| Elevator.DigitsOfShowNat | SpaceEngineersIngameScripts/Old/Class1.cs:240-250 | reading back the decimal digits of `n` gives `n` |
| Elevator.ParseShownFloor | SpaceEngineersIngameScripts/Old/Class1.cs:240-250 | a floor written in decimal, with or without a minus sign, parses back to that floor |
| Elevator.AdmitKeepsQueue | SpaceEngineersIngameScripts/Old/Class1.cs:253-257 | the admission rule keeps the request queue free of duplicates and of the floor being served; a rejected floor is already waiting or being served |
| Elevator.Admit | SpaceEngineersIngameScripts/Old/Class1.cs:253-257 | the admission rule of `Main`; `Elevator.AdmitKeepsQueue` proves what it keeps out of the queue |
| Elevator.ElevatorController.constructor | SpaceEngineersIngameScripts/Old/Class1.cs:133-179 | not ready, at no floor, empty queue; the request processor repeats every tick unit and the start-up event waits for the bottom floor |
| Elevator.ElevatorController.CallFloor | SpaceEngineersIngameScripts/Old/Class1.cs:67-99 | at the current floor (or for -1) the doors open and close 7 s later; floors 1 to 4 start the pistons and register the arrival event; any other floor fails |
| Elevator.ElevatorController.ArrivedAtFloor | SpaceEngineersIngameScripts/Old/Class1.cs:102-110 | on arrival the floor lights go off, the doors open, and their closing is scheduled 7 s later |
| Elevator.ElevatorController.CloseDoorsDelayed | SpaceEngineersIngameScripts/Old/Class1.cs:113-117 | the doors close and only then is the elevator ready again |
| Elevator.ElevatorController.MoveToBottomInit | SpaceEngineersIngameScripts/Old/Class1.cs:187-192 | the start-up event marks the cabin at floor 1 and ready |
| Elevator.ElevatorController.ProcessRequests | SpaceEngineersIngameScripts/Old/Class1.cs:120-130 | only when ready with a waiting request: the oldest request is dequeued, recorded as served and started; otherwise nothing changes |
| Elevator.ElevatorController.HandleArgument | SpaceEngineersIngameScripts/Old/Class1.cs:240-258 | a non-numeric argument fails; a number is queued exactly when the admission rule allows it, lighting its indicator unless it is -1 |
| Elevator.ElevatorController.Dispatch | SpaceEngineersIngameScripts/Old/Class1.cs:113-130 | the request-processor callback starts the oldest request only when ready; the close-doors callback closes the doors and makes the elevator ready; in both the new state is `Elevator.TimerStep`'s |
| Elevator.ElevatorController.Run | SpaceEngineersIngameScripts/Old/Class1.cs:233-264 | `Main`: a malformed argument fails and changes nothing; otherwise the argument is queued as `Elevator.Request` says, and then a throttled tick only counts the run while a tick that runs does exactly what `Elevator.RunningTick` says, its commands following the argument's; a settled controller stays settled |
| Elevator.ElevatorController.TickOnce | SpaceEngineersIngameScripts/Old/Class1.cs:263 | the scheduler tick at the end of `Main`: throttled, only the run count changes; otherwise the cabin, commands and outcome are `Elevator.RunningTick`'s and the intervals are rescheduled; the settled states are kept |
| Elevator.ElevatorController.DispatchEvents | SpaceEngineersIngameScripts/Old/Class1.cs:329-338 | running the callbacks of the events whose condition held, in order, gives the state and commands of `Elevator.OnEvents` |
| Elevator.ElevatorController.DispatchTimers | SpaceEngineersIngameScripts/Old/Class1.cs:442-461 | running the due timers' callbacks in order, stopping at a fault, gives the state, commands and outcome of `Elevator.OnTimers` |
| Elevator.OnTimersStopped | SpaceEngineersIngameScripts/Old/Class1.cs:442-461 | after a callback throws, the rest of the tick's timers change nothing |
| Elevator.ReadyTickServesOldest | SpaceEngineersIngameScripts/Old/Class1.cs:120-130 | a ready elevator whose request processor is due serves the oldest request: it leaves the queue and is recorded; the doors open at the current floor, or the cabin travels to floors 1 to 4 with an arrival event, or any other floor faults with only the doors closed |
| Elevator.ReadyTickWaits | SpaceEngineersIngameScripts/Old/Class1.cs:442-451 | a ready elevator before the processor is due changes nothing but the clock |
| Elevator.ArrivalOpensDoors | SpaceEngineersIngameScripts/Old/Class1.cs:102-110 | when the pistons reach the floor, the lights go off, the doors open and one close timer is set 7 s on, and the queue is untouched |
| Elevator.DoorsCloseWhenDue | SpaceEngineersIngameScripts/Old/Class1.cs:113-117 | when the close timer is due, the doors close, the elevator becomes ready and nothing else is pending |
| Elevator.TickKeepsSettled | SpaceEngineersIngameScripts/Old/Class1.cs:67-130 | every tick that runs keeps the controller settled: one request processor, at most one pending event or timer, and none while ready; the tick's timers are at most one |
| Elevator.SweepAgreesOnOne | SpaceEngineersIngameScripts/Old/Class1.cs:329-338 | with at most one entry, the forward `Remove` loop as written sweeps exactly like the corrected filter, so in the settled states the elevator sees no difference |
| Bacon.BumpAllCounts | SpaceEngineersIngameScripts/LaserComm.cs:1163 | a flag token adds one to a flag's count for each occurrence of its letter |
| Bacon.SplitAtFirst | SpaceEngineersIngameScripts/LaserComm.cs:1163 | an option splits at its first `=`: the key holds no `=` and key, `=` and value rebuild the token |
| Bacon.SplitAtFirstUnique | SpaceEngineersIngameScripts/LaserComm.cs:1163 | a key without `=` joined to any value splits back into that key and value |
| Bacon.PlainArgument | SpaceEngineersIngameScripts/LaserComm.cs:1163 | a token not starting with `-` is appended to the arguments |
| Bacon.FlagToken | SpaceEngineersIngameScripts/LaserComm.cs:1163 | `-abc` counts each letter as a flag and leaves the arguments and options alone |
| Bacon.OptionWithValue | SpaceEngineersIngameScripts/LaserComm.cs:1163 | `--key=value` appends the value to that key's option list only, and leaves the flags alone |
| Bacon.OptionWithoutValue | SpaceEngineersIngameScripts/LaserComm.cs:1163 | `--key` appends a null value to that key's option list |
| Bacon.LexFromAppend | SpaceEngineersIngameScripts/LaserComm.cs:1163 | the character loop of the tokenizer can be split at any point of the input |
| Bacon.WordsAreTokens | SpaceEngineersIngameScripts/LaserComm.cs:1163 | space-separated plain words tokenize to exactly those words |
| Bacon.QuotedIsOneToken | SpaceEngineersIngameScripts/LaserComm.cs:1163 | a double-quoted text without quotes or backslashes is one token, spaces included |
| Bacon.EscapeTakesNext | SpaceEngineersIngameScripts/LaserComm.cs:1163 | a backslash adds the next character to the token literally |
| Bacon.BaconArgs.constructor | SpaceEngineersIngameScripts/LaserComm.cs:1163 | a new result has no arguments, flags or options |
| Bacon.BaconArgs.Add | SpaceEngineersIngameScripts/LaserComm.cs:1163 | adding a token updates arguments, flags or options exactly as the token rule says |
| Bacon.ParseArgs | SpaceEngineersIngameScripts/LaserComm.cs:1163 | the character loop produces exactly the result of adding the tokenizer's tokens in order |
| Bacon.ConfigOf | SpaceEngineersIngameScripts/LaserComm.cs:160-175 | `-p` makes a planet and forces base mode, `-b` makes a base, `-l` docks left, and the location name comes from `--name` |
| Bacon.PlanetIsBase | SpaceEngineersIngameScripts/LaserComm.cs:166-170 | a planet pad is always a base |
| NavWire.GpsRoundTrip | SpaceEngineersIngameScripts/LaserComm.cs:1063-1074 | `convertToVector(convertToGPS(name, p))` gives back the name and the coordinates, when none contains `:` |
| NavWire.ConvertToGPS | SpaceEngineersIngameScripts/LaserComm.cs:1063-1067 | the `GPS:name:x:y:z:` text of a point; `NavWire.GpsRoundTrip` proves `ConvertToVector` reads it back |
| NavWire.ConvertToVector | SpaceEngineersIngameScripts/LaserComm.cs:1069-1074 | a GPS text with at least five `:`-fields gives its name and coordinates, anything shorter nothing; proved inverse of `ConvertToGPS` in `NavWire.GpsRoundTrip` |
| NavWire.MakeDestination | SpaceEngineersIngameScripts/LaserComm.cs:93-102 | a destination is a planet exactly when its lower-cased type contains `planet`; its other fields are kept |
| NavWire.SameDestination | SpaceEngineersIngameScripts/LaserComm.cs:104-116 | `Destination.Equals`: two destinations are the same exactly when their unique IDs are; `NavWire.AbsorbSpec` relies on it to keep IDs distinct |
| NavWire.ParseRecord | SpaceEngineersIngameScripts/LaserComm.cs:967-981 | a record with fewer than four `\|`-fields is refused, otherwise its fields make a destination; `NavWire.ReplyParsesBack` shows a base's reply parses back |
| NavWire.AbsorbSpec | SpaceEngineersIngameScripts/LaserComm.cs:963-988 | taking in records keeps the known destinations in front, keeps the unique IDs distinct, and succeeds exactly when every record has four fields; every record's destination is then known |
| NavWire.Absorb | SpaceEngineersIngameScripts/LaserComm.cs:963-988 | the records loop of `communicate()` as a function; its meaning is proved in `NavWire.AbsorbSpec` and `Comm.AddRecords` ties the loop to it |
| NavWire.GetWaypoints | SpaceEngineersIngameScripts/LaserComm.cs:1101-1146 | a space base sends 9 fields and a planet pad 7 |
| NavWire.ReplyBodyIsJoin | SpaceEngineersIngameScripts/LaserComm.cs:1029-1035 | the reply built by appending `\|` and each element is the `\|`-join of the tag and the elements |
| NavWire.Reply | SpaceEngineersIngameScripts/LaserComm.cs:1029-1035 | the reply a base sends: the `\|`-joined fields ended by `;` (`NavWire.ReplyBodyIsJoin`, `NavWire.ReplyParsesBack`) |
| NavWire.WaypointsPlain | SpaceEngineersIngameScripts/LaserComm.cs:1101-1146 | with a location name free of `\|` and `;`, and the id and coordinates free of `:`, `\|` and `;`, no reply field contains `\|` or `;` |
| NavWire.RecordFields | SpaceEngineersIngameScripts/LaserComm.cs:963-967 | splitting a reply at `\|` gives back the tag and the elements |
| NavWire.ReplyParsesBack | SpaceEngineersIngameScripts/LaserComm.cs:963-981 | a base's reply is one record that the ship parses into the base's destination, with 6 waypoints in space and 4 on a planet |
| NavWire.RoleOf | SpaceEngineersIngameScripts/LaserComm.cs:476-504 | a waypoint name is an approach only if it contains `approach`, the target only if it contains `destination`, and a departure only if it contains `departure` and neither of the others |
| NavWire.LastDestinationWins | SpaceEngineersIngameScripts/LaserComm.cs:648-683 | a later `destination` waypoint replaces an earlier one |
| NavWire.SpaceWaypointsClassify | SpaceEngineersIngameScripts/LaserComm.cs:648-683 | the ship classifies a space base's waypoints into two approach points, the target, one departure and both orientations |
| NavWire.PlanetWaypointsClassify | SpaceEngineersIngameScripts/LaserComm.cs:476-504 | the ship classifies a planet pad's waypoints into one approach, the target, one departure and the forward orientation |
| Comm.Exec | SpaceEngineersIngameScripts/LaserComm.cs:917-1048 | every internal step of `communicate()` that does not yield moves toward the next yield, so one run always ends |
| Comm.ShipRequests | SpaceEngineersIngameScripts/LaserComm.cs:924-933 | a ship clears its receiver and sends the request; when the send is refused it yields false |
| Comm.ShipWaits | SpaceEngineersIngameScripts/LaserComm.cs:942-955 | with no response yet, the ship yields true until its wait has passed and false after |
| Comm.ShipStops | SpaceEngineersIngameScripts/LaserComm.cs:938 | after the wait time the ship's loop ends and the iterator finishes |
| Comm.RecordsAbsorbed | SpaceEngineersIngameScripts/LaserComm.cs:963-990 | the records of one response are taken in, in order; a short record yields false at that point |
| Comm.ResponseTakenIn | SpaceEngineersIngameScripts/LaserComm.cs:958-990 | a response is read, the receiver is cleared and the `;`-separated records are taken in |
| Comm.DriveKeepsIds | SpaceEngineersIngameScripts/LaserComm.cs:983-986 | one run only appends destinations, and their unique IDs stay distinct |
| Comm.ShipLearnsBase | SpaceEngineersIngameScripts/LaserComm.cs:958-990 | a ship receiving a base's reply knows that base's destination afterwards |
| Comm.BaseWaits | SpaceEngineersIngameScripts/LaserComm.cs:1020-1023 | a base yields true while no request has arrived |
| Comm.BaseAnswers | SpaceEngineersIngameScripts/LaserComm.cs:1026-1041 | a base clears the receiver and sends its waypoint reply, yielding false only when the send is refused |
| Comm.AddRecords | SpaceEngineersIngameScripts/LaserComm.cs:965-988 | the `foreach` over records builds exactly the destinations and success of the record function |
| Comm.ComposeResponse | SpaceEngineersIngameScripts/LaserComm.cs:1029-1035 | the string-building loop gives exactly the reply text |
| Autopilot.FinalApproaches | SpaceEngineersIngameScripts/LaserComm.cs:525-543 | every approach point after the first becomes one autopilot waypoint, numbered from 1 |
| Autopilot.Departures | SpaceEngineersIngameScripts/LaserComm.cs:602-618 | every departure point becomes one autopilot waypoint, numbered from 1 |
| Autopilot.Exec | SpaceEngineersIngameScripts/LaserComm.cs:434-855 | every internal step of `autopilot()` that does not yield moves toward the next yield, so one run always ends |
| Autopilot.ExecPlanet | SpaceEngineersIngameScripts/LaserComm.cs:459-639 | every internal step of the planet branch that does not yield uses up a destination or moves to a lower-ranked program point |
| Autopilot.ExecSpace | SpaceEngineersIngameScripts/LaserComm.cs:643-847 | every internal step of the space branch that does not yield uses up a destination or moves to a lower-ranked program point |
| Autopilot.DriveContinue | SpaceEngineersIngameScripts/LaserComm.cs:434-855 | a run is its first step followed by the rest of the run |
| Autopilot.PrologueFirst | SpaceEngineersIngameScripts/LaserComm.cs:438-446 | the first run clears the waypoints, disables collision avoidance and docking mode, and resets the gyros before anything else |
| Autopilot.EndOfRoute | SpaceEngineersIngameScripts/LaserComm.cs:852 | with no destination left, the iterator yields false and finishes |
| Autopilot.NoApproachGivesUp | SpaceEngineersIngameScripts/LaserComm.cs:507-511 | a destination without an approach point yields false with no command |
| Autopilot.BadWaypointCrashes | SpaceEngineersIngameScripts/LaserComm.cs:476-504 | a waypoint that is not a GPS string makes the run throw before any command |
| Autopilot.CrashedThenEnds | SpaceEngineersIngameScripts/LaserComm.cs:476-504 | after throwing, the iterator's next run reports the end with no command |
| Autopilot.FirstLegStarts | SpaceEngineersIngameScripts/LaserComm.cs:514-523 | a good destination sets the first approach waypoint and engages the autopilot, then yields true |
| Autopilot.GearlessPlanetPauses | SpaceEngineersIngameScripts/LaserComm.cs:461-471 | a planet destination without landing gear is skipped after a pause |
| Autopilot.GearPauseCounts | SpaceEngineersIngameScripts/LaserComm.cs:461-471 | the pause yields true once per run until it reaches its length |
| Autopilot.GearPauseSkips | SpaceEngineersIngameScripts/LaserComm.cs:461-471 | after the pause the next destination is taken up in the same run |
| Autopilot.WaitingYields | SpaceEngineersIngameScripts/LaserComm.cs:514-740 | while the autopilot is flying, every waiting state yields true and changes nothing |
| Autopilot.DockingWaits | SpaceEngineersIngameScripts/LaserComm.cs:752-772 | while docking and not yet connected, the run yields true |
| Autopilot.DockingStops | SpaceEngineersIngameScripts/LaserComm.cs:752-811 | once connected, the ship stops the autopilot, aligns down then forward, locks the connector, and starts its dwell |
| Autopilot.SettleWhenConnected | SpaceEngineersIngameScripts/LaserComm.cs:774-811 | a connected ship finishes both alignments and the lock in one run |
| Autopilot.SettleConnected | SpaceEngineersIngameScripts/LaserComm.cs:774-804 | one alignment step when connected: rotate, reset the gyros, and after the forward axis lock the connector |
| Autopilot.SettleWaits | SpaceEngineersIngameScripts/LaserComm.cs:774-804 | not yet aligned: the run keeps rotating and yields true |
| Autopilot.PlanetTouchdown | SpaceEngineersIngameScripts/LaserComm.cs:567-596 | once aligned on a pad, the ship locks gears and connector and starts its dwell |
| Autopilot.DwellLasts | SpaceEngineersIngameScripts/LaserComm.cs:589-596 | while the dwell time has not passed, the run yields true |
| Autopilot.SpaceDeparts | SpaceEngineersIngameScripts/LaserComm.cs:825-844 | after the dwell the ship unlocks, sets its departure waypoints and engages the autopilot |
| Autopilot.PlanetDeparts | SpaceEngineersIngameScripts/LaserComm.cs:602-618 | after the dwell on a pad the ship sets its departure waypoints and unlocks gears and connector |
| Autopilot.PlanetRetracts | SpaceEngineersIngameScripts/LaserComm.cs:621-630 | after the retract pause the autopilot is engaged for departure |
| Autopilot.DepartureDone | SpaceEngineersIngameScripts/LaserComm.cs:627-638 | once departed, the waypoints are cleared and the next destination is taken up in the same run |
| LaserComm.Init | SpaceEngineersIngameScripts/LaserComm.cs:132-341 | `init` forgets all destinations and any flight, turns the autopilot switch on, resets the counter and starts a fresh communication iterator |
| LaserComm.Rescan | SpaceEngineersIngameScripts/LaserComm.cs:348-362 | a renamed block always forces `init`; otherwise only an unlocked connector with a block missing or a changed block count does |
| LaserComm.Switch | SpaceEngineersIngameScripts/LaserComm.cs:401-408 | an argument containing STOP turns the autopilot off, otherwise START turns it on, otherwise it stays as it was |
| LaserComm.Program.constructor | SpaceEngineersIngameScripts/LaserComm.cs:132-341 | the script starts in the `init` state |
| LaserComm.Program.Reinit | SpaceEngineersIngameScripts/LaserComm.cs:132-341 | a rescan puts the script back into the `init` state |
| LaserComm.Program.Turn | SpaceEngineersIngameScripts/LaserComm.cs:1149-1160 | the spinner advances the 32-bit counter and shows its glyph |
| LaserComm.Program.RunComm | SpaceEngineersIngameScripts/LaserComm.cs:367-388 | the communication part of `Main` updates the fields as the communication stage says |
| LaserComm.Program.RunFlight | SpaceEngineersIngameScripts/LaserComm.cs:401-429 | the flight part of `Main` updates the fields as the flight stage says |
| LaserComm.Program.TakeOutcome | SpaceEngineersIngameScripts/LaserComm.cs:417-429 | an autopilot run's outcome: keep the flight and spin on true, drop it on false or end, report an exception |
| LaserComm.Program.Run | SpaceEngineersIngameScripts/LaserComm.cs:343-431 | `Main` changes the script's fields and reports commands exactly as the dispatch function does |
| LaserComm.Dispatch | SpaceEngineersIngameScripts/LaserComm.cs:343-431 | one run of `Main` as a function; the lemmas `LaserComm.MissingBlockRestarts` to `LaserComm.SpinnerAfterWrap` state what it does |
| LaserComm.MissingBlockRestarts | SpaceEngineersIngameScripts/LaserComm.cs:348-362 | with a block missing and the connector unlocked, `Main` only runs `init` |
| LaserComm.CommFirst | SpaceEngineersIngameScripts/LaserComm.cs:367-388 | while communication yields true, no flight runs and no flight starts |
| LaserComm.CommDropped | SpaceEngineersIngameScripts/LaserComm.cs:367-399 | when communication yields false or ends, it is dropped; with no destination learned the script starts over |
| LaserComm.NothingKnownStartsOver | SpaceEngineersIngameScripts/LaserComm.cs:393-399 | with no communication and no destination, `Main` runs `init` |
| LaserComm.StopKeepsGrounded | SpaceEngineersIngameScripts/LaserComm.cs:401-414 | STOP keeps a grounded ship grounded and issues no flight command |
| LaserComm.FlightStarts | SpaceEngineersIngameScripts/LaserComm.cs:411-429 | a ship with destinations and the switch on starts the autopilot, whose first commands are the prologue |
| LaserComm.FlightDropped | SpaceEngineersIngameScripts/LaserComm.cs:417-429 | an autopilot run yielding false drops the flight |
| LaserComm.BaseNeverFlies | SpaceEngineersIngameScripts/LaserComm.cs:411-414 | a base never starts a flight or issues a flight command |
| LaserComm.SpinnerCycles | SpaceEngineersIngameScripts/LaserComm.cs:1149-1160 | the spinner cycles through four distinct glyphs |
| LaserComm.SpinnerAfterWrap | SpaceEngineersIngameScripts/LaserComm.cs:1149-1160 | after the counter wraps to the minimum `int`, three of every four runs show no glyph, because the remainder is negative |
| CsInt.Inc32 | SpaceEngineersIngameScripts/LaserComm.cs:1151 | C# `counter++` on an `int`: always a 32-bit value, one more below the maximum, the minimum after it |
| CsInt.Rem4 | SpaceEngineersIngameScripts/LaserComm.cs:1152 | C# `% 4`: for a non-negative value the usual remainder in 0 to 3; for a negative one a value in -3 to 0, zero exactly when 4 divides it |
| AutoDoorVent.VentRule | SpaceEngineersIngameScripts/AutoDoor_and_Vent.cs:218-235 | a pressurizing vent is turned off above 0.99 and on below 0.9; a disabled depressurizing vent is turned on; otherwise nothing |
| AutoDoorVent.VentBand | SpaceEngineersIngameScripts/AutoDoor_and_Vent.cs:218-235 | between the two thresholds a pressurizing vent is left alone, on or off |
| AutoDoorVent.VentStaysOff | SpaceEngineersIngameScripts/AutoDoor_and_Vent.cs:218-235 | a vent turned off is not turned back on until the level drops below 0.9 |
| AutoDoorVent.DepressurizeSettles | SpaceEngineersIngameScripts/AutoDoor_and_Vent.cs:218-235 | once a depressurizing vent has been turned on, it is left alone |
| AutoDoorVent.AirVentCheck | SpaceEngineersIngameScripts/AutoDoor_and_Vent.cs:218-235 | the loop gives each vent the rule's command; a vent is turned off exactly when it pressurizes above 0.99 |
| AutoDoorVent.DoorCommands | SpaceEngineersIngameScripts/AutoDoor_and_Vent.cs:165-216 | above 3 m/s no door is touched; otherwise every door gets one command |
| AutoDoorVent.ScanObjects | SpaceEngineersIngameScripts/AutoDoor_and_Vent.cs:194-203 | the inner loop decides "open" exactly when it was already decided or some friendly human near the door is detected |
| AutoDoorVent.DoorCheck | SpaceEngineersIngameScripts/AutoDoor_and_Vent.cs:165-216 | the nested loops give the door rule's commands; a door is opened exactly when some sensor sees a friendly human at it |
| AutoDoorVent.DoorFollowsPeople | SpaceEngineersIngameScripts/AutoDoor_and_Vent.cs:194-213 | one friendly human at a door is enough to open it |
| AutoDoorVent.OnlyFriendsOpen | SpaceEngineersIngameScripts/AutoDoor_and_Vent.cs:194-213 | with no friendly human detected, every door is closed |
| AutoDoorVent.SetupOutcome | SpaceEngineersIngameScripts/AutoDoor_and_Vent.cs:58-129 | setup succeeds exactly when the group exists with sensors, doors and vents and the grid has a ship controller; it reports a missing group exactly when there is none |
| AutoDoorVent.SpinnerCycles | SpaceEngineersIngameScripts/AutoDoor_and_Vent.cs:299-310 | the status lines cycle through four distinct spinners |
| AutoDoorVent.Controller.constructor | SpaceEngineersIngameScripts/AutoDoor_and_Vent.cs:52-56 | the constructor runs setup: complete exactly when setup succeeds, and only then are the spare list and the last-run time set |
| AutoDoorVent.Controller.Setup | SpaceEngineersIngameScripts/AutoDoor_and_Vent.cs:58-129 | `setup` fetches the group's blocks when the group exists, and on success makes the spare list and records the time |
| AutoDoorVent.Controller.Work | SpaceEngineersIngameScripts/AutoDoor_and_Vent.cs:150-155 | a gated run's door and vent commands, the spinner, the counter step and the time of the run |
| AutoDoorVent.Controller.RunAsWritten | SpaceEngineersIngameScripts/AutoDoor_and_Vent.cs:132-162 | `Main` as written: idle inside 80 ms; throws when the first setup failed; otherwise sets up again and works exactly when setup succeeds |
| AutoDoorVent.Controller.Run | SpaceEngineersIngameScripts/AutoDoor_and_Vent.cs:132-162 | corrected `Main`: never throws, keeps an unchanged group without new setup, and a failed start is retried |
| AutoDoorVent.StuckAfterFailedStart | SpaceEngineersIngameScripts/AutoDoor_and_Vent.cs:124-137 | as written, a failed first setup makes every later gated run throw |
| AutoDoorVent.RecoversAfterFailedStart | SpaceEngineersIngameScripts/AutoDoor_and_Vent.cs:132-155 | corrected, a later run sets up again and works once the blocks are there |
| AutoDoorVent.RescansUnchangedGroup | SpaceEngineersIngameScripts/AutoDoor_and_Vent.cs:137-147 | as written, an unchanged group still triggers a new setup on the next gated run |
| AutoDoorVent.KeepsUnchangedGroup | SpaceEngineersIngameScripts/AutoDoor_and_Vent.cs:137-147 | corrected, an unchanged group keeps its block list |

## Left out

- Floating-point geometry is not modelled: `rotate`, the connector and gear offsets, and the vector arithmetic of `getWaypoints`. Waypoint coordinates are opaque text, and whether the ship is aligned is a sensor input.
- Number formatting and parsing are not modelled: `ToString("F2")`/`"F4"` and `Double.Parse`. A coordinate field is kept as the text it is.
- `Echo`, except the spinner of `Turn` (`LaserComm.Glyph`, `AutoDoorVent.Spinner`), LCD text, `printPropertiesAndActions` and `printDetectedObjects` are left out: they are display only.
- Device actuation (`ApplyAction`, `SetValue`, `On`/`Off`) is not modelled; each is a returned command.
- Clocks (`DateTime.Now`, `ElapsedTime`) are not modelled; the current time is a parameter, counted in milliseconds or scheduler ticks.
- The grid terminal system is not modelled; block lookups are inputs.
- The `BaconArgs` static parse cache and its `ToString` are left out: they do not change the parse result.
- The `unique_id` random value of `LaserComm.cs` is a parameter.
- `init`'s block search, renaming and the substring arithmetic on block names (`LaserComm.cs:132-341`) are not modelled; their outcome (`allFound`, the count, the configuration) is an input to `LaserComm.Init`.
- The WAN program's message transport is not modelled; whether `TryRun` accepted a message is an input.
- EasyAPI's regex operators of `EasyCompare` are not modelled; `R`/`!R` are an input, since .NET regular expressions are not modelled.
- EasyAPI's block queries, `EasyMessage` and `EasyBlock` property reads are left out: they are not part of the scheduler, and their results are inputs.
- Event and timer callbacks are not run inside `EasyApi.EasyAPI.Tick`; it returns them, and `Elevator.ElevatorController.TickOnce` runs them afterwards in the same order. Timers a callback adds are due 7 s later, so none of them would have fired in the same tick.
- Elevator.ElevatorController.TickOnce: when a due interval's callback throws (a floor outside 1 to 4), the source skips that interval's reset and the whole schedule loop (`Old/Class1.cs:448-461`); the model still reschedules the intervals and sweeps the schedule. The script stops at the exception, so no later run sees the difference. `Elevator.ElevatorController.Run` inherits this.
- EasyApi.EasyAPI.Tick: it sweeps events and timers with the corrected filters, not the forward `Remove` loops as written (`Old/Class1.cs:329-338`, `454-461`); those loops are modelled only by `EasyApi.SweepAsWritten` (see Findings). For the elevator the two agree, since at most one event or timer is ever pending (`Elevator.TickKeepsSettled`, `Elevator.SweepAgreesOnOne`).
- OldHangar.HangarController.HandleArgument: it models only the argument part of `Main`; the `state.Tick(100 ms, argument)` call that ends `Main` (`Old/Hangar.cs:249`) is not modelled, so the start-up `In(2 s)` exterior lock, the `Every(1 s)` delayed-request pass (`Old/Hangar.cs:96-98`) and the pressure events are not run from it. The pass itself is `OldHangar.HangarController.ProcessDelayedRequests`.
- Text.Lower: only the ASCII capitals `A` to `Z` are lowered, while .NET `ToLower` also lowers other capitals. The one use, the `planet` test of `NavWire.MakeDestination`, is unaffected: no non-ASCII capital lowers to one of the letters of `planet`.
- EasyAPI's `onSingleTap`/`onDoubleTap` hooks and the arguments' `On` actions are inputs and returned ids; the elevator registers none.
- The oxygen thresholds of `AutoDoor_and_Vent.cs` are C# `float`s and are modelled as the exact reals 0.99 and 0.9.
- The sensor distance configuration and the ship-speed reading of `AutoDoor_and_Vent.cs` are inputs.
- Hangar2 group discovery and the block name matching in its constructor are inputs.
- The other scripts of the repository (`AutoDoor.cs`, `AutoVent.cs`, `Shuttle.cs`, `Experimental.cs`, `Old/AutoDoor.cs`, `Old/Elevator2.cs`) are not part of this model.
- OldHangar.HangarController.ProcessRequest: the warning lights and sound are returned as commands; a non-group request is reported as failure instead of throwing.

## Findings

| source | as written | input that shows it | evidently intended | confidence | as-written member | corrected member |
|---|---|---|---|---|---|---|
| SpaceEngineersIngameScripts/Old/Hangar.cs:165-174 | a forward `for` loop removes the current request and re-appends it, so the next request is skipped and the re-appended copy is visited again | delayed requests lock(10), open(12): after one pass, open(12), lock(8) | each request loses one second per pass, so lock fires after 10 s and open after 12 s | not executed | OldHangar.AsWrittenUnevenCountdown | OldHangar.CorrectedOpenSchedule |
| SpaceEngineersIngameScripts/Old/Hangar.cs:152-161 | the pressure event dequeues the oldest waiting group, whichever vent fired | groups 0 and 1 closing, group 1's vent pressurizes first: group 0 is marked closed and its interior doors are powered at vacuum | the group whose vent reached pressure is completed | not executed | OldHangar.AsWrittenCompletesWrongGroup | OldHangar.HangarController.PressurizationCompleteFor |
| SpaceEngineersIngameScripts/Old/Class1.cs:329-338 | `Events.Remove(e)` inside a forward `for` loop skips the event after each removed one | two events whose conditions hold together: the second is neither handled nor removed that tick | every event whose condition holds is handled in the same tick | not executed | EasyApi.AsWrittenEventSkipped | EasyApi.EasyAPI.HandleEvents |
| SpaceEngineersIngameScripts/Old/Class1.cs:454-461 | `Schedule.Remove` inside a forward `for` loop skips the timer after each fired one | two timers due at time 5: the second fires one tick late | every due timer fires in the same tick | not executed | EasyApi.AsWrittenTimerDelayed | EasyApi.EasyAPI.HandleSchedule |
| SpaceEngineersIngameScripts/AutoDoor_and_Vent.cs:124-137 | a failed first `setup` never creates `allBlocksTemp`, and `Main` calls `allBlocksTemp.Clear()` before it retries setup | start without the `AUTO` group, add it later: every gated run throws a null reference | setup is retried until it succeeds, and the controller then runs | not executed | AutoDoorVent.StuckAfterFailedStart | AutoDoorVent.RecoversAfterFailedStart |
| SpaceEngineersIngameScripts/AutoDoor_and_Vent.cs:142 | `allBlocksTemp.Equals(allBlocks)` compares list references, so it is always false | an unchanged `AUTO` group: setup runs again on every gated run | setup reruns only when the group's blocks changed | not executed | AutoDoorVent.RescansUnchangedGroup | AutoDoorVent.KeepsUnchangedGroup |

=== FILE: auto_door_vent.dfy ===
/** `AutoDoor_and_Vent.cs`: every run that comes more than 80 ms after the
    last one re-reads the `AUTO` block group, opens each door of the group
    when a friendly human stands in front of or behind it (unless the ship
    is moving), and keeps each air vent's oxygen level between two
    thresholds by switching the vent on and off.

    Blocks are identified by number; the host's geometry (a door's
    bounding box widened by a metre to the front and to the back, and
    whether a detected entity lies inside it) is an input: each detected
    entity carries the set of doors whose widened box contains it. Times
    are milliseconds since `DateTime.MinValue`, so the `lastRun` of a
    script that has never finished a setup is 0. */
module AutoDoorVent {
  import opened Text
  import opened CsInt

  const TimeDelayMs: int := 80
  const AbortSpeed: real := 3.0
  const OxygenHigh: real := 0.99
  const OxygenLow: real := 0.9

  // ---------------------------------------------------------------------
  // Air vents
  // ---------------------------------------------------------------------

  /** A vent's `Depressurize` setting, whether it is switched on, and its
      oxygen level. */
  datatype Vent = Vent(depressurize: bool, enabled: bool, level: real)

  /** `OnOff_On` and `OnOff_Off`. */
  datatype Power = PowerOn | PowerOff

  /** The command `airVentCheck` gives one vent, if any. */
  function VentRule(v: Vent): (r: Option<Power>)
    ensures r == Some(PowerOff) <==> !v.depressurize && v.level > OxygenHigh
    ensures r == Some(PowerOn) <==> (!v.depressurize && v.level < OxygenLow) || (v.depressurize && !v.enabled)
  {
    if !v.depressurize then
      if v.level > OxygenHigh then Some(PowerOff)
      else if v.level < OxygenLow then Some(PowerOn)
      else None
    else if !v.enabled then Some(PowerOn)
    else None
  }

  /** The vent's switch after a command. */
  function Apply(v: Vent, c: Option<Power>): Vent
  {
    match c
    case None => v
    case Some(PowerOn) => v.(enabled := true)
    case Some(PowerOff) => v.(enabled := false)
  }

  /** Between the two thresholds a pressurizing vent is left as it is,
      whether it is on or off: the rule has hysteresis. */
  lemma VentBand(v: Vent)
    requires !v.depressurize && OxygenLow <= v.level <= OxygenHigh
    ensures VentRule(v) == None && VentRule(v.(enabled := !v.enabled)) == None
  {
  }

  /** A vent switched off because the room is full stays off while the
      level stays at or above the low threshold, whatever its switch. */
  lemma VentStaysOff(v: Vent, level: real)
    requires VentRule(v) == Some(PowerOff) && level >= OxygenLow
    ensures VentRule(Apply(v, VentRule(v)).(level := level)) != Some(PowerOn)
  {
  }

  /** For a depressurizing vent the rule settles after one command: once it
      is on, nothing more is issued. */
  lemma DepressurizeSettles(v: Vent)
    requires v.depressurize
    ensures VentRule(Apply(v, VentRule(v))) == None
  {
  }

  /** The commands for a list of vents, one entry per vent. */
  function VentCommands(vents: seq<Vent>): (cmds: seq<Option<Power>>)
    ensures |cmds| == |vents|
  {
    seq(|vents|, i requires 0 <= i < |vents| => VentRule(vents[i]))
  }

  /** `airVentCheck`. */
  method AirVentCheck(vents: seq<Vent>) returns (cmds: seq<Option<Power>>)
    ensures cmds == VentCommands(vents)
    ensures forall i :: 0 <= i < |vents| ==> (cmds[i] == Some(PowerOff) <==> !vents[i].depressurize && vents[i].level > OxygenHigh)
  {
    cmds := [];
    for i := 0 to |vents|
      invariant cmds == VentCommands(vents[..i])
    {
      cmds := cmds + [VentRule(vents[i])];
    }
    assert vents[..|vents|] == vents;
  }

  // ---------------------------------------------------------------------
  // Doors
  // ---------------------------------------------------------------------

  /** An entity a sensor reports: whether it is a human character, whether
      it is an enemy, and the doors whose widened box contains it. */
  datatype Detected = Detected(human: bool, enemy: bool, inside: set<nat>)

  /** `Open_On` and `Open_Off`. */
  datatype DoorAction = OpenOn | OpenOff

  predicate Opens(o: Detected, door: nat)
  {
    o.human && !o.enemy && door in o.inside
  }

  /** Some entity of one sensor's list opens the door. */
  predicate SeenBy(objects: seq<Detected>, door: nat)
  {
    exists k :: 0 <= k < |objects| && Opens(objects[k], door)
  }

  /** Some sensor sees an entity that opens the door. */
  predicate Wanted(sensors: seq<seq<Detected>>, door: nat)
  {
    exists s :: 0 <= s < |sensors| && SeenBy(sensors[s], door)
  }

  /** The commands of `doorCheck`, one per door, or none while the ship
      moves faster than the abort speed. */
  function DoorCommands(speed: real, doors: seq<nat>, sensors: seq<seq<Detected>>): (cmds: seq<DoorAction>)
    ensures speed > AbortSpeed ==> cmds == []
    ensures speed <= AbortSpeed ==> |cmds| == |doors|
  {
    if speed > AbortSpeed then []
    else seq(|doors|, i requires 0 <= i < |doors| => if Wanted(sensors, doors[i]) then OpenOn else OpenOff)
  }

  /** Whether any entity of one sensor's list opens the door. */
  method ScanObjects(objects: seq<Detected>, door: nat, open: bool) returns (r: bool)
    ensures r <==> open || SeenBy(objects, door)
  {
    r := open;
    for k := 0 to |objects|
      invariant r <==> open || exists k' :: 0 <= k' < k && Opens(objects[k'], door)
    {
      if objects[k].human && !objects[k].enemy && door in objects[k].inside {
        r := true;
      }
    }
  }

  /** `doorCheck`. */
  method DoorCheck(speed: real, doors: seq<nat>, sensors: seq<seq<Detected>>) returns (cmds: seq<DoorAction>)
    ensures cmds == DoorCommands(speed, doors, sensors)
    ensures speed > AbortSpeed ==> cmds == []
    ensures speed <= AbortSpeed ==>
              |cmds| == |doors| && forall i :: 0 <= i < |doors| ==> (cmds[i] == OpenOn <==> Wanted(sensors, doors[i]))
  {
    cmds := [];
    if speed > AbortSpeed {
      return;
    }
    for i := 0 to |doors|
      invariant |cmds| == i
      invariant forall j :: 0 <= j < i ==> cmds[j] == (if Wanted(sensors, doors[j]) then OpenOn else OpenOff)
    {
      var openDoor := false;
      for s := 0 to |sensors|
        invariant openDoor <==> exists s' :: 0 <= s' < s && SeenBy(sensors[s'], doors[i])
      {
        openDoor := ScanObjects(sensors[s], doors[i], openDoor);
      }
      cmds := cmds + [if openDoor then OpenOn else OpenOff];
    }
  }

  /** A door nobody friendly stands at is closed, one someone friendly
      stands at is opened, whichever sensor sees them. */
  lemma {:induction false} DoorFollowsPeople(speed: real, doors: seq<nat>, sensors: seq<seq<Detected>>, i: nat, s: nat, k: nat)
    requires speed <= AbortSpeed && i < |doors| && s < |sensors| && k < |sensors[s]|
    requires Opens(sensors[s][k], doors[i])
    ensures DoorCommands(speed, doors, sensors)[i] == OpenOn
  {
    assert SeenBy(sensors[s], doors[i]);
  }

  /** Enemies and entities that are not human characters never open a
      door. */
  lemma OnlyFriendsOpen(speed: real, doors: seq<nat>, sensors: seq<seq<Detected>>, i: nat)
    requires speed <= AbortSpeed && i < |doors|
    requires forall s, k :: 0 <= s < |sensors| && 0 <= k < |sensors[s]| ==> !sensors[s][k].human || sensors[s][k].enemy
    ensures DoorCommands(speed, doors, sensors)[i] == OpenOff
  {
  }

  // ---------------------------------------------------------------------
  // The block group and setup
  // ---------------------------------------------------------------------

  datatype Kind = SensorBlock(detected: seq<Detected>) | DoorBlock | VentBlock(vent: Vent) | OtherBlock
  datatype Block = Block(id: nat, kind: Kind)

  /** What one run sees: the time, the `AUTO` group's blocks if the group
      exists, the number of ship controllers on the grid and the ship's
      speed. */
  datatype World = World(now: int, group: Option<seq<Block>>, controllers: nat, speed: real)

  function Ids(blocks: seq<Block>): (ids: seq<nat>)
    ensures |ids| == |blocks|
  {
    seq(|blocks|, i requires 0 <= i < |blocks| => blocks[i].id)
  }

  function SensorsOf(blocks: seq<Block>): seq<seq<Detected>>
  {
    if blocks == [] then []
    else (if blocks[0].kind.SensorBlock? then [blocks[0].kind.detected] else []) + SensorsOf(blocks[1..])
  }

  function DoorsOf(blocks: seq<Block>): seq<nat>
  {
    if blocks == [] then []
    else (if blocks[0].kind.DoorBlock? then [blocks[0].id] else []) + DoorsOf(blocks[1..])
  }

  function VentsOf(blocks: seq<Block>): seq<Vent>
  {
    if blocks == [] then []
    else (if blocks[0].kind.VentBlock? then [blocks[0].kind.vent] else []) + VentsOf(blocks[1..])
  }

  /** The blocks the run reads from the group: none when it does not exist. */
  function Members(w: World): seq<Block>
  {
    if w.group.Some? then w.group.value else []
  }

  /** How `setup` ends. */
  datatype SetupResult = NoGroup | NoSensors | NoDoors | NoVents | NoController | Ready

  /** The checks of `setup` in their order: the group, its sensors, its
      doors, its vents, and a ship controller anywhere on the grid. */
  function SetupOutcome(w: World): (r: SetupResult)
    ensures r == Ready <==> w.group.Some? && SensorsOf(w.group.value) != [] && DoorsOf(w.group.value) != [] &&
                            VentsOf(w.group.value) != [] && w.controllers > 0
    ensures r == NoGroup <==> w.group.None?
  {
    if w.group.None? then NoGroup
    else if SensorsOf(w.group.value) == [] then NoSensors
    else if DoorsOf(w.group.value) == [] then NoDoors
    else if VentsOf(w.group.value) == [] then NoVents
    else if w.controllers == 0 then NoController
    else Ready
  }

  /** The checks of one run: the door commands, then the vent commands. */
  function Checks(w: World): (seq<DoorAction>, seq<Option<Power>>)
  {
    var blocks := Members(w);
    (DoorCommands(w.speed, DoorsOf(blocks), SensorsOf(blocks)), VentCommands(VentsOf(blocks)))
  }

  /** What `Turn` echoes. */
  function Spinner(counter: int): seq<string>
  {
    ["Running..."] +
    match Rem4(counter)
    case 0 => ["/"]
    case 1 => ["--"]
    case 2 => ["\\"]
    case 3 => ["|"]
    case _ => []
  }

  lemma SpinnerCycles(counter: int)
    requires counter >= 0
    ensures |Spinner(counter)| == 2 && Spinner(counter + 4) == Spinner(counter)
    ensures Spinner(counter) != Spinner(counter + 1) && Spinner(counter + 1) != Spinner(counter + 2) &&
            Spinner(counter + 2) != Spinner(counter + 3) && Spinner(counter + 3) != Spinner(counter)
  {
    assert Spinner(counter)[1] != Spinner(counter + 1)[1];
    assert Spinner(counter + 1)[1] != Spinner(counter + 2)[1];
    assert Spinner(counter + 2)[1] != Spinner(counter + 3)[1];
    assert Spinner(counter + 3)[1] != Spinner(counter)[1];
  }

  /** What a run did: whether it threw, whether the checks ran, their
      commands and what was echoed. */
  datatype Report = Report(threw: bool, ran: bool, doors: seq<DoorAction>, vents: seq<Option<Power>>, echo: seq<string>)

  const Idle := Report(false, false, [], [], [])

  /** A `List<IMyTerminalBlock>`: compared by reference in `Main`. */
  class BlockList {
    var items: seq<nat>

    constructor(items: seq<nat>)
      ensures this.items == items
    {
      this.items := items;
    }
  }

  class Controller {
    var setupComplete: bool
    var allBlocks: BlockList?
    var allBlocksTemp: BlockList?
    var lastRun: int
    var counter: int

    /** The temporary list is never the group's list itself. */
    predicate Valid()
      reads this
    {
      allBlocksTemp == null || allBlocksTemp != allBlocks
    }

    /** The constructor runs `setup` once. */
    constructor(w: World)
      ensures setupComplete <==> SetupOutcome(w) == Ready
      ensures setupComplete ==> allBlocksTemp != null && lastRun == w.now
      ensures !setupComplete ==> allBlocksTemp == null && lastRun == 0
      ensures w.group.Some? ==> allBlocks != null && allBlocks.items == Ids(w.group.value)
      ensures allBlocksTemp != null ==> fresh(allBlocksTemp)
      ensures Valid() && counter == 0
    {
      setupComplete, allBlocks, allBlocksTemp, lastRun, counter := false, null, null, 0, 0;
      new;
      var ok := Setup(w);
    }

    /** `setup`. */
    method Setup(w: World) returns (ok: bool)
      modifies this
      ensures ok == setupComplete && (ok <==> SetupOutcome(w) == Ready)
      ensures w.group.Some? ==> fresh(allBlocks) && allBlocks.items == Ids(w.group.value)
      ensures w.group.None? ==> allBlocks == old(allBlocks)
      ensures ok ==> fresh(allBlocksTemp) && allBlocksTemp.items == [] && lastRun == w.now && allBlocksTemp != allBlocks
      ensures old(Valid()) ==> Valid()
      ensures !ok ==> allBlocksTemp == old(allBlocksTemp) && lastRun == old(lastRun)
      ensures counter == old(counter)
    {
      setupComplete := false;
      if w.group.None? {
        return false;
      }
      var group := w.group.value;
      allBlocks := new BlockList(Ids(group));
      if SensorsOf(group) == [] || DoorsOf(group) == [] || VentsOf(group) == [] || w.controllers == 0 {
        return false;
      }
      allBlocksTemp := new BlockList([]);
      lastRun := w.now;
      setupComplete := true;
      ok := true;
    }

    /** The checks, the spinner and the new `lastRun`, once the blocks are
        known. */
    method Work(w: World) returns (report: Report)
      modifies this
      ensures old(Valid()) ==> Valid()
      ensures report == Report(false, true, Checks(w).0, Checks(w).1, Spinner(Inc32(old(counter))))
      ensures counter == Inc32(old(counter)) && lastRun == w.now
      ensures setupComplete == old(setupComplete) && allBlocks == old(allBlocks) && allBlocksTemp == old(allBlocksTemp)
    {
      var blocks := Members(w);
      var doorCmds := DoorCheck(w.speed, DoorsOf(blocks), SensorsOf(blocks));
      var ventCmds := AirVentCheck(VentsOf(blocks));
      counter := Inc32(counter);
      lastRun := w.now;
      report := Report(false, true, doorCmds, ventCmds, Spinner(counter));
    }

    /** `Main` as written: the temporary list is dereferenced even when no
        setup ever allocated it, and it is compared with the group's list
        by reference. */
    method RunAsWritten(w: World) returns (report: Report)
      requires Valid()
      modifies this, allBlocksTemp
      ensures Valid()
      ensures !(w.now - old(lastRun) > TimeDelayMs) ==>
                report == Idle && lastRun == old(lastRun) && counter == old(counter) &&
                setupComplete == old(setupComplete) && allBlocks == old(allBlocks) && allBlocksTemp == old(allBlocksTemp)
      ensures w.now - old(lastRun) > TimeDelayMs && old(allBlocksTemp) == null ==>
                report.threw && !report.ran && lastRun == old(lastRun) && counter == old(counter) &&
                setupComplete == old(setupComplete) && allBlocks == old(allBlocks) && allBlocksTemp == null
      ensures w.now - old(lastRun) > TimeDelayMs && old(allBlocksTemp) != null && w.group.Some? ==>
                fresh(allBlocks)
      ensures w.now - old(lastRun) > TimeDelayMs && old(allBlocksTemp) != null ==>
                (report.ran <==> SetupOutcome(w) == Ready)
      ensures report.ran ==> report == Report(false, true, Checks(w).0, Checks(w).1, Spinner(counter)) &&
                               counter == Inc32(old(counter)) && lastRun == w.now
    {
      if !(w.now - lastRun > TimeDelayMs) {
        return Idle;
      }
      if allBlocksTemp == null {
        return Report(true, false, [], [], []);
      }
      allBlocksTemp.items := Ids(Members(w));
      if !setupComplete || allBlocksTemp != allBlocks {
        var ok := Setup(w);
        if !ok {
          return Idle;
        }
      }
      report := Work(w);
    }

    /** `Main` with the temporary list allocated when it is missing and
        compared with the group's list by its contents. */
    method Run(w: World) returns (report: Report)
      requires Valid()
      modifies this, allBlocksTemp
      ensures Valid()
      ensures !report.threw
      ensures !(w.now - old(lastRun) > TimeDelayMs) ==>
                report == Idle && lastRun == old(lastRun) && counter == old(counter) &&
                setupComplete == old(setupComplete) && allBlocks == old(allBlocks) && allBlocksTemp == old(allBlocksTemp)
      ensures w.now - old(lastRun) > TimeDelayMs && old(setupComplete) && old(allBlocks) != null &&
              Ids(Members(w)) == old(allBlocks.items) ==>
                allBlocks == old(allBlocks) && setupComplete && report.ran
      ensures w.now - old(lastRun) > TimeDelayMs && !old(setupComplete) ==>
                (report.ran <==> SetupOutcome(w) == Ready)
      ensures report.ran ==> report == Report(false, true, Checks(w).0, Checks(w).1, Spinner(counter)) &&
                               counter == Inc32(old(counter)) && lastRun == w.now && allBlocksTemp != null
    {
      if !(w.now - lastRun > TimeDelayMs) {
        return Idle;
      }
      if allBlocksTemp == null {
        allBlocksTemp := new BlockList([]);
      }
      allBlocksTemp.items := Ids(Members(w));
      if !setupComplete || allBlocks == null || allBlocksTemp.items != allBlocks.items {
        var ok := Setup(w);
        if !ok {
          return Idle;
        }
      }
      report := Work(w);
    }
  }

  // ---------------------------------------------------------------------
  // The two discrepancies, shown on concrete runs
  // ---------------------------------------------------------------------

  /** As written, a script whose first setup fails throws on every later
      run, even once the group is complete. */
  method StuckAfterFailedStart(first: World, later: World) returns (threw: bool)
    requires SetupOutcome(first) != Ready && later.now > TimeDelayMs
    ensures threw
  {
    var c := new Controller(first);
    var r := c.RunAsWritten(later);
    var r' := c.RunAsWritten(later.(now := later.now + TimeDelayMs + 1));
    threw := r.threw && r'.threw;
  }

  /** Corrected, the first run after the group is complete sets up and
      works. */
  method RecoversAfterFailedStart(first: World, later: World) returns (ran: bool)
    requires SetupOutcome(first) != Ready && later.now > TimeDelayMs && SetupOutcome(later) == Ready
    ensures ran
  {
    var c := new Controller(first);
    var r := c.Run(later);
    ran := r.ran;
  }

  /** As written, a second run over the very same group runs `setup`
      again, because two distinct lists are never equal by reference. */
  method RescansUnchangedGroup(w: World) returns (rescanned: bool)
    requires SetupOutcome(w) == Ready
    ensures rescanned
  {
    var c := new Controller(w);
    var before := c.allBlocks;
    var r := c.RunAsWritten(w.(now := w.now + TimeDelayMs + 1));
    rescanned := c.allBlocks != before;
  }

  /** Corrected, it keeps the lists from the first setup. */
  method KeepsUnchangedGroup(w: World) returns (kept: bool)
    requires SetupOutcome(w) == Ready
    ensures kept
  {
    var c := new Controller(w);
    var before := c.allBlocks;
    var r := c.Run(w.(now := w.now + TimeDelayMs + 1));
    kept := c.allBlocks == before && r.ran;
  }
}

=== FILE: autopilot.dfy ===
/** The ship's flight sequence of `LaserComm.cs` (`autopilot()`), a C#
    iterator that the script resumes once per run, written out as an
    explicit resumable state machine.

    A `Flight` is the suspended iterator: the destinations still to visit,
    the plan of the current one and the program point `pc` where it stopped.
    `Resume` runs it from there to the next `yield` (or to its end) and
    returns the commands it gave the remote control, the gyros, the landing
    gear and the connector on the way.

    What the iterator reads from the world during a run is a `Sensors`
    value: whether the remote control's autopilot is on, whether the
    connector is connected, whether the ship is lined up with the down and
    forward targets (the boolean result of `rotate`) and the clock in
    milliseconds. A command given during the run is seen by later reads in
    the same run: after `SetAutopilot(true)` the autopilot reads as on. */
module Autopilot {
  import opened Text
  import opened NavWire

  /** `DOCKING_TIME_SECONDS`, in milliseconds. */
  const DockingTimeMs: int := 20 * 1000
  /** Runs a ship without landing gear waits before skipping a planet. */
  const GearPauseRuns: nat := 10
  /** Runs given to the docking clamps to retract before leaving a planet. */
  const RetractRuns: nat := 2

  datatype Axis = Down | Forward

  /** The correction added to a target point before it is handed to the
      remote control (float geometry, not modelled beyond its kind). */
  datatype Offset = NoOffset | GearOffset | ConnectorOffset

  /** The waypoint names the autopilot gives: "Approach" on a planet and
      "Approach 1" in space, "Final approach i", "Destination" and
      "Departure i". */
  datatype Tag = FirstApproach(numbered: bool) | FinalApproach(i: nat) | DestinationTag | DepartureTag(i: nat)

  datatype Command =
    | ClearWaypoints
    | CollisionAvoidanceOff
    | DockingMode(on: bool)
    | ResetGyros
    | AddWaypoint(target: Vec, offset: Offset, tag: Tag)
    | SetAutopilot(on: bool)
    /** One call of `rotate`: gyro override toward `target` and a timer trigger. */
    | Rotate(target: Vec, axis: Axis)
    | GearsLock(lock: bool)
    | ConnectorLock(lock: bool)

  datatype Sensors = Sensors(autopilotEnabled: bool, connected: bool, downAligned: bool, forwardAligned: bool, now: int)

  datatype Leg = FirstLeg | FinalLeg

  /** The points where the iterator can stand between two runs, and the
      points it passes through inside a run. */
  datatype Pc =
    | Begin
    | NextDestination
    | GearPause(runs: nat)
    | NoApproach
    | PlanetApproach
    | PlanetFinal
    | PlanetLanding
    | PlanetAlign
    | PlanetDwell(end: int)
    | PlanetRetract(runs: nat)
    | SpaceApproach
    | SpaceOrient(axis: Axis, leg: Leg)
    | SpaceFinal
    | SpaceDocking
    | SpaceSettle(axis: Axis)
    | SpaceDwell(end: int)
    | Leaving
    | Finished
    | Faulted

  /** `todo` are the destinations not yet started; `gears` says whether the
      ship has landing gear. */
  datatype Flight = Flight(todo: seq<Destination>, gears: bool, plan: Plan, pc: Pc)

  /** How a run ends: at a `yield return` of the given value, at the end of
      the iterator, or with an exception. */
  datatype Outcome = Yielded(value: bool) | Ended | Crashed

  datatype Resumed = Resumed(flight: Flight, cmds: seq<Command>, outcome: Outcome)

  /** One program point: either go on within the run, with the autopilot
      flag as the iterator now reads it, or stop the run. */
  datatype Step = Continue(flight: Flight, enabled: bool, cmds: seq<Command>) | Pause(flight: Flight, cmds: seq<Command>, outcome: Outcome)

  /** The iterator freshly obtained by `autopilot().GetEnumerator()`. */
  function Start(destinations: seq<Destination>, gears: bool): Flight
  {
    Flight(destinations, gears, EmptyPlan, Begin)
  }

  /** `"Final approach " + i` for approach points 1 and up. */
  function FinalApproaches(pts: seq<Point>, off: Offset): (r: seq<Command>)
    ensures |pts| >= 1 ==> |r| == |pts| - 1
    ensures forall i :: 1 <= i < |pts| ==> r[i - 1] == AddWaypoint(At(pts[i]), off, FinalApproach(i))
  {
    if |pts| <= 1 then []
    else seq(|pts| - 1, i requires 0 <= i < |pts| - 1 => AddWaypoint(At(pts[i + 1]), off, FinalApproach(i + 1)))
  }

  /** `"Departure " + (i + 1)` for every departure point. */
  function Departures(pts: seq<Point>, off: Offset): (r: seq<Command>)
    ensures |r| == |pts|
    ensures forall i :: 0 <= i < |pts| ==> r[i] == AddWaypoint(At(pts[i]), off, DepartureTag(i + 1))
  {
    seq(|pts|, i requires 0 <= i < |pts| => AddWaypoint(At(pts[i]), off, DepartureTag(i + 1)))
  }

  /** One evaluation of `rotate(target, axis)`; it resets the gyros itself
      once the ship is lined up. */
  function RotateCheck(target: Vec, axis: Axis, aligned: bool): seq<Command>
  {
    [Rotate(target, axis)] + (if aligned then [ResetGyros] else [])
  }

  function Aligned(s: Sensors, axis: Axis): bool
  {
    if axis == Down then s.downAligned else s.forwardAligned
  }

  function TargetOf(plan: Plan, axis: Axis): Vec
  {
    if axis == Down then plan.down else plan.forward
  }

  /** Program points later in the sequence of one destination rank lower;
      the next destination ranks lowest because taking it shortens `todo`. */
  function Rank(pc: Pc): nat
  {
    match pc
    case Begin => 100
    case NextDestination => 0
    case GearPause(_) => 1
    case PlanetApproach => 30
    case PlanetFinal => 29
    case PlanetLanding => 28
    case PlanetAlign => 27
    case PlanetDwell(_) => 26
    case PlanetRetract(_) => 25
    case SpaceApproach => 20
    case SpaceOrient(axis, leg) => (if leg == FirstLeg then 18 else 15) + (if axis == Down then 1 else 0)
    case SpaceFinal => 17
    case SpaceDocking => 14
    case SpaceSettle(axis) => if axis == Down then 13 else 12
    case SpaceDwell(_) => 11
    case Leaving => 1
    case NoApproach => 0
    case Finished => 0
    case Faulted => 0
  }

  predicate PlanetPc(pc: Pc)
  {
    pc.PlanetApproach? || pc.PlanetFinal? || pc.PlanetLanding? || pc.PlanetAlign? || pc.PlanetDwell? || pc.PlanetRetract?
  }

  predicate SpacePc(pc: Pc)
  {
    pc.SpaceApproach? || pc.SpaceOrient? || pc.SpaceFinal? || pc.SpaceDocking? || pc.SpaceSettle? || pc.SpaceDwell?
  }

  /** The code between one program point and the next. Every step taken
      without stopping moves on to the next destination or to a later point
      of the current one, so a run always reaches a `yield`. */
  function Exec(f: Flight, s: Sensors, enabled: bool): (r: Step)
    ensures r.Continue? ==> |r.flight.todo| < |f.todo| ||
                            (|r.flight.todo| == |f.todo| && Rank(r.flight.pc) < Rank(f.pc))
  {
    if PlanetPc(f.pc) then ExecPlanet(f, s, enabled)
    else if SpacePc(f.pc) then ExecSpace(f, s, enabled)
    else ExecRoute(f, s, enabled)
  }

  /** The prologue, the choice of the next destination and the end. */
  function ExecRoute(f: Flight, s: Sensors, enabled: bool): (r: Step)
    requires !PlanetPc(f.pc) && !SpacePc(f.pc)
    ensures r.Continue? ==> |r.flight.todo| < |f.todo| ||
                            (|r.flight.todo| == |f.todo| && Rank(r.flight.pc) < Rank(f.pc))
  {
    match f.pc
    case Begin =>
      Continue(f.(pc := NextDestination), enabled, [ClearWaypoints, CollisionAvoidanceOff, DockingMode(false), ResetGyros])
    case NextDestination =>
      if f.todo == [] then Pause(f.(pc := Finished), [], Yielded(false))
      else
        var d := f.todo[0];
        var rest := f.todo[1..];
        if d.isPlanet && !f.gears then Continue(Flight(rest, f.gears, EmptyPlan, GearPause(0)), enabled, [])
        else
          var classified := Classified(d.waypoints, d.isPlanet);
          if classified.None? then Pause(Flight(rest, f.gears, EmptyPlan, Faulted), [], Crashed)
          else
            var p := classified.value;
            if p.approach == [] then Pause(Flight(rest, f.gears, p, NoApproach), [], Yielded(false))
            else
              Continue(Flight(rest, f.gears, p, if d.isPlanet then PlanetApproach else SpaceApproach), true,
                       [AddWaypoint(At(p.approach[0]), NoOffset, FirstApproach(!d.isPlanet)), SetAutopilot(true)])
    case GearPause(n) =>
      if n < GearPauseRuns then Pause(f.(pc := GearPause(n + 1)), [], Yielded(true))
      else Continue(f.(pc := NextDestination), enabled, [])
    case NoApproach =>
      // resuming past the `false` would index an empty approach list
      Pause(f.(pc := Faulted), [], Crashed)
    case Leaving =>
      if enabled then Pause(f, [], Yielded(true))
      else Continue(f.(pc := NextDestination), enabled, [ClearWaypoints])
    case Finished =>
      Pause(f, [], Ended)
    case Faulted =>
      // an iterator that has thrown is in its final state
      Pause(f, [], Ended)
  }

  /** The landing on a planet. */
  function ExecPlanet(f: Flight, s: Sensors, enabled: bool): (r: Step)
    requires PlanetPc(f.pc)
    ensures r.Continue? ==> |r.flight.todo| < |f.todo| ||
                            (|r.flight.todo| == |f.todo| && Rank(r.flight.pc) < Rank(f.pc))
  {
    var plan := f.plan;
    match f.pc
    case PlanetApproach =>
      if enabled then Pause(f, [], Yielded(true))
      else Continue(f.(pc := PlanetFinal), true,
                    [ClearWaypoints, DockingMode(true)] + FinalApproaches(plan.approach, NoOffset) + [SetAutopilot(true)])
    case PlanetFinal =>
      if enabled then Pause(f, [], Yielded(true))
      else Continue(f.(pc := PlanetLanding), true,
                    [ClearWaypoints, AddWaypoint(plan.destination, GearOffset, DestinationTag), SetAutopilot(true)])
    case PlanetLanding =>
      if enabled then Pause(f, [], Yielded(true))
      else Continue(f.(pc := PlanetAlign), enabled, [DockingMode(false), ClearWaypoints])
    case PlanetAlign =>
      var check := RotateCheck(plan.forward, Forward, s.forwardAligned);
      if !s.forwardAligned then Pause(f, check, Yielded(true))
      else Continue(f.(pc := PlanetDwell(s.now + DockingTimeMs)), enabled, check + [GearsLock(true), ConnectorLock(true)])
    case PlanetDwell(end) =>
      if s.now < end then Pause(f, [], Yielded(true))
      else Continue(f.(pc := PlanetRetract(0)), enabled,
                    Departures(plan.departure, GearOffset) + [GearsLock(false), ConnectorLock(false)])
    case PlanetRetract(n) =>
      if n < RetractRuns then Pause(f.(pc := PlanetRetract(n + 1)), [], Yielded(true))
      else Pause(f.(pc := Leaving), [SetAutopilot(true)], Yielded(true))
  }

  /** The docking at a station in space. */
  function ExecSpace(f: Flight, s: Sensors, enabled: bool): (r: Step)
    requires SpacePc(f.pc)
    ensures r.Continue? ==> |r.flight.todo| < |f.todo| ||
                            (|r.flight.todo| == |f.todo| && Rank(r.flight.pc) < Rank(f.pc))
  {
    var plan := f.plan;
    match f.pc
    case SpaceApproach =>
      if enabled then Pause(f, [], Yielded(true))
      else Continue(f.(pc := SpaceOrient(Down, FirstLeg)), enabled, [ClearWaypoints])
    case SpaceOrient(axis, leg) =>
      var check := RotateCheck(TargetOf(plan, axis), axis, Aligned(s, axis));
      if !Aligned(s, axis) then Pause(f, check, Yielded(true))
      else if axis == Down then Continue(f.(pc := SpaceOrient(Forward, leg)), enabled, check)
      else if leg == FirstLeg then
        Continue(f.(pc := SpaceFinal), true,
                 check + [DockingMode(true)] + FinalApproaches(plan.approach, ConnectorOffset) + [SetAutopilot(true)])
      else
        Continue(f.(pc := SpaceDocking), true,
                 check + [AddWaypoint(plan.destination, ConnectorOffset, DestinationTag), SetAutopilot(true)])
    case SpaceFinal =>
      if enabled then Pause(f, [], Yielded(true))
      else Continue(f.(pc := SpaceOrient(Down, FinalLeg)), enabled, [ClearWaypoints])
    case SpaceDocking =>
      if enabled && !s.connected then Pause(f, [], Yielded(true))
      else Continue(f.(pc := SpaceSettle(Down)), false,
                    (if enabled then [SetAutopilot(false)] else []) + [ClearWaypoints, DockingMode(false)])
    case SpaceSettle(axis) =>
      var check := RotateCheck(TargetOf(plan, axis), axis, Aligned(s, axis));
      if !Aligned(s, axis) && !s.connected then Pause(f, check, Yielded(true))
      else
        var stop := if Aligned(s, axis) then [] else [ResetGyros];
        if axis == Down then Continue(f.(pc := SpaceSettle(Forward)), enabled, check + stop)
        else Continue(f.(pc := SpaceDwell(s.now + DockingTimeMs)), enabled, check + stop + [ConnectorLock(true)])
    case SpaceDwell(end) =>
      if s.now < end then Pause(f, [], Yielded(true))
      else Continue(f.(pc := Leaving), true,
                    [ConnectorLock(false)] + Departures(plan.departure, ConnectorOffset) + [SetAutopilot(true)])
  }

  /** Program points taken one after another until the run stops. */
  function Drive(f: Flight, s: Sensors, enabled: bool): (r: Resumed)
    decreases |f.todo|, Rank(f.pc)
  {
    match Exec(f, s, enabled)
    case Pause(g, cmds, outcome) => Resumed(g, cmds, outcome)
    case Continue(g, e, cmds) =>
      var rest := Drive(g, s, e);
      Resumed(rest.flight, cmds + rest.cmds, rest.outcome)
  }

  /** `fly.MoveNext()`: one run of the iterator. */
  function Resume(f: Flight, s: Sensors): Resumed
  {
    Drive(f, s, s.autopilotEnabled)
  }

  /** A step that goes on within the run adds its commands in front of the
      rest of the run. */
  lemma DriveContinue(f: Flight, s: Sensors, enabled: bool)
    requires Exec(f, s, enabled).Continue?
    ensures var st := Exec(f, s, enabled);
            var rest := Drive(st.flight, s, st.enabled);
            Drive(f, s, enabled) == Resumed(rest.flight, st.cmds + rest.cmds, rest.outcome)
  {
  }

  // ---------------------------------------------------------------------
  // Properties of the sequence
  // ---------------------------------------------------------------------

  /** The first run clears the remote control's waypoints, switches off
      collision avoidance and docking mode and releases the gyros before
      anything else. */
  lemma {:induction false} PrologueFirst(destinations: seq<Destination>, gears: bool, s: Sensors)
    ensures var r := Resume(Start(destinations, gears), s);
            |r.cmds| >= 4 && r.cmds[..4] == [ClearWaypoints, CollisionAvoidanceOff, DockingMode(false), ResetGyros]
  {
    var f := Start(destinations, gears);
    DriveContinue(f, s, s.autopilotEnabled);
  }

  /** After the last destination the iterator yields `false`. */
  lemma EndOfRoute(f: Flight, s: Sensors)
    requires f.pc == NextDestination && f.todo == []
    ensures Resume(f, s) == Resumed(f.(pc := Finished), [], Yielded(false))
  {
  }

  /** A destination whose waypoints give no approach point makes the
      iterator yield `false` without a command. */
  lemma NoApproachGivesUp(f: Flight, s: Sensors, plan: Plan)
    requires f.pc == NextDestination && f.todo != []
    requires !(f.todo[0].isPlanet && !f.gears)
    requires Classified(f.todo[0].waypoints, f.todo[0].isPlanet) == Some(plan) && plan.approach == []
    ensures Resume(f, s).outcome == Yielded(false) && Resume(f, s).cmds == []
  {
  }

  /** A waypoint that is not a GPS string ends the run with an exception. */
  lemma BadWaypointCrashes(f: Flight, s: Sensors)
    requires f.pc == NextDestination && f.todo != []
    requires !(f.todo[0].isPlanet && !f.gears)
    requires Classified(f.todo[0].waypoints, f.todo[0].isPlanet) == None
    ensures Resume(f, s).outcome == Crashed && Resume(f, s).cmds == []
  {
  }

  /** An iterator that has thrown ends on every later resumption. */
  lemma CrashedThenEnds(f: Flight, s: Sensors, s': Sensors)
    requires f.pc == NextDestination && f.todo != []
    requires !(f.todo[0].isPlanet && !f.gears)
    requires Classified(f.todo[0].waypoints, f.todo[0].isPlanet) == None
    ensures Resume(Resume(f, s).flight, s') == Resumed(Resume(f, s).flight, [], Ended)
  {
  }

  /** Otherwise the first approach point is set, the autopilot switched on
      and the run yields while it flies. */
  lemma FirstLegStarts(f: Flight, s: Sensors, plan: Plan)
    requires f.pc == NextDestination && f.todo != []
    requires !(f.todo[0].isPlanet && !f.gears)
    requires Classified(f.todo[0].waypoints, f.todo[0].isPlanet) == Some(plan) && plan.approach != []
    ensures var planet := f.todo[0].isPlanet;
            Resume(f, s) == Resumed(Flight(f.todo[1..], f.gears, plan, if planet then PlanetApproach else SpaceApproach),
                                    [AddWaypoint(At(plan.approach[0]), NoOffset, FirstApproach(!planet)), SetAutopilot(true)],
                                    Yielded(true))
  {
    DriveContinue(f, s, s.autopilotEnabled);
  }

  /** A planet without landing gear is skipped after ten runs that yield
      `true` and do nothing: the first run lands on the pause ... */
  lemma GearlessPlanetPauses(f: Flight, s: Sensors)
    requires f.pc == NextDestination && f.todo != [] && f.todo[0].isPlanet && !f.gears
    ensures Resume(f, s) == Resumed(Flight(f.todo[1..], f.gears, EmptyPlan, GearPause(1)), [], Yielded(true))
  {
    DriveContinue(f, s, s.autopilotEnabled);
  }

  /** ... each further one counts ... */
  lemma GearPauseCounts(f: Flight, s: Sensors, n: nat)
    requires f.pc == GearPause(n) && n < GearPauseRuns
    ensures Resume(f, s) == Resumed(f.(pc := GearPause(n + 1)), [], Yielded(true))
  {
  }

  /** ... and after the tenth the next destination is taken in the same run. */
  lemma GearPauseSkips(f: Flight, s: Sensors)
    requires f.pc == GearPause(GearPauseRuns)
    ensures Resume(f, s) == Resume(f.(pc := NextDestination), s)
  {
    DriveContinue(f, s, s.autopilotEnabled);
  }

  /** While the remote control's autopilot is on, a run spent waiting for
      it leaves everything as it was and yields `true`. */
  lemma WaitingYields(f: Flight, s: Sensors)
    requires f.pc in {PlanetApproach, PlanetFinal, PlanetLanding, SpaceApproach, SpaceFinal, Leaving}
    requires s.autopilotEnabled
    ensures Resume(f, s) == Resumed(f, [], Yielded(true))
  {
  }

  /** On the final leg in space the ship keeps flying while the connector
      is not connected. */
  lemma DockingWaits(f: Flight, s: Sensors)
    requires f.pc == SpaceDocking && s.autopilotEnabled && !s.connected
    ensures Resume(f, s) == Resumed(f, [], Yielded(true))
  {
  }

  /** Once the connector connects on the final leg, the autopilot is switched
      off, and each final reorientation stops at once with the gyros
      released; the connector is locked and the docking time starts. */
  lemma {:induction false} DockingStops(f: Flight, s: Sensors)
    requires f.pc == SpaceDocking && s.connected
    ensures Resume(f, s) ==
            Resumed(f.(pc := SpaceDwell(s.now + DockingTimeMs)),
                    (if s.autopilotEnabled then [SetAutopilot(false)] else []) +
                    [ClearWaypoints, DockingMode(false),
                     Rotate(f.plan.down, Down), ResetGyros, Rotate(f.plan.forward, Forward), ResetGyros,
                     ConnectorLock(true)],
                    Yielded(true))
  {
    var f1 := f.(pc := SpaceSettle(Down));
    var settle := [Rotate(f.plan.down, Down), ResetGyros, Rotate(f.plan.forward, Forward), ResetGyros, ConnectorLock(true)];
    SettleWhenConnected(f1, s);
    var pre := (if s.autopilotEnabled then [SetAutopilot(false)] else []) + [ClearWaypoints, DockingMode(false)];
    assert Exec(f, s, s.autopilotEnabled) == Continue(f1, false, pre);
    DriveContinue(f, s, s.autopilotEnabled);
    assert pre + settle == (if s.autopilotEnabled then [SetAutopilot(false)] else []) +
                           [ClearWaypoints, DockingMode(false),
                            Rotate(f.plan.down, Down), ResetGyros, Rotate(f.plan.forward, Forward), ResetGyros,
                            ConnectorLock(true)];
  }

  /** Both final reorientations with the connector connected. */
  lemma {:induction false} SettleWhenConnected(f: Flight, s: Sensors)
    requires f.pc == SpaceSettle(Down) && s.connected
    ensures Drive(f, s, false) ==
            Resumed(f.(pc := SpaceDwell(s.now + DockingTimeMs)),
                    [Rotate(f.plan.down, Down), ResetGyros, Rotate(f.plan.forward, Forward), ResetGyros, ConnectorLock(true)],
                    Yielded(true))
  {
    var f2 := f.(pc := SpaceSettle(Forward));
    var f3 := f.(pc := SpaceDwell(s.now + DockingTimeMs));
    var tail := [Rotate(f.plan.forward, Forward), ResetGyros, ConnectorLock(true)];
    assert Drive(f3, s, false) == Resumed(f3, [], Yielded(true));
    assert Drive(f2, s, false) == Resumed(f3, tail, Yielded(true)) by {
      SettleConnected(f2, s);
      DriveContinue(f2, s, false);
      assert [Rotate(f.plan.forward, Forward), ResetGyros] + [ConnectorLock(true)] + [] == tail;
    }
    SettleConnected(f, s);
    DriveContinue(f, s, false);
    assert [Rotate(f.plan.down, Down), ResetGyros] + [] + tail ==
           [Rotate(f.plan.down, Down), ResetGyros, Rotate(f.plan.forward, Forward), ResetGyros, ConnectorLock(true)];
  }

  /** One final reorientation with the connector connected: whether or not
      the ship is lined up, the gyros end up released and the sequence goes
      on. */
  lemma SettleConnected(f: Flight, s: Sensors)
    requires f.pc.SpaceSettle? && s.connected
    ensures var axis := f.pc.axis;
            var next := if axis == Down then f.(pc := SpaceSettle(Forward)) else f.(pc := SpaceDwell(s.now + DockingTimeMs));
            Exec(f, s, false) ==
            Continue(next, false, [Rotate(TargetOf(f.plan, axis), axis), ResetGyros] + (if axis == Down then [] else [ConnectorLock(true)]))
  {
  }

  /** Without a connection the final reorientation goes on until the ship
      is lined up. */
  lemma SettleWaits(f: Flight, s: Sensors, axis: Axis)
    requires f.pc == SpaceSettle(axis) && !s.connected && !Aligned(s, axis)
    ensures Resume(f, s) == Resumed(f, [Rotate(TargetOf(f.plan, axis), axis)], Yielded(true))
  {
  }

  /** On a planet the ship, once lined up after landing, locks its landing
      gear and connector and starts the docking time. */
  lemma {:induction false} PlanetTouchdown(f: Flight, s: Sensors)
    requires f.pc == PlanetAlign && s.forwardAligned
    ensures Resume(f, s) ==
            Resumed(f.(pc := PlanetDwell(s.now + DockingTimeMs)),
                    [Rotate(f.plan.forward, Forward), ResetGyros, GearsLock(true), ConnectorLock(true)],
                    Yielded(true))
  {
    var f1 := f.(pc := PlanetDwell(s.now + DockingTimeMs));
    DriveContinue(f, s, s.autopilotEnabled);
    assert Drive(f1, s, s.autopilotEnabled) == Resumed(f1, [], Yielded(true));
  }

  /** The docking time is waited out run by run. */
  lemma DwellLasts(f: Flight, s: Sensors, end: int)
    requires f.pc in {PlanetDwell(end), SpaceDwell(end)} && s.now < end
    ensures Resume(f, s) == Resumed(f, [], Yielded(true))
  {
  }

  /** When the docking time is over in space, the connector is unlocked and
      the ship flies out through every departure point, in order. */
  lemma {:induction false} SpaceDeparts(f: Flight, s: Sensors, end: int)
    requires f.pc == SpaceDwell(end) && s.now >= end
    ensures Resume(f, s) ==
            Resumed(f.(pc := Leaving),
                    [ConnectorLock(false)] + Departures(f.plan.departure, ConnectorOffset) + [SetAutopilot(true)],
                    Yielded(true))
  {
    DriveContinue(f, s, s.autopilotEnabled);
    assert Drive(f.(pc := Leaving), s, true) == Resumed(f.(pc := Leaving), [], Yielded(true));
  }

  /** On a planet the departure points are set and the gear and connector
      released; the autopilot is switched on only after two more runs. */
  lemma {:induction false} PlanetDeparts(f: Flight, s: Sensors, end: int)
    requires f.pc == PlanetDwell(end) && s.now >= end
    ensures Resume(f, s) ==
            Resumed(f.(pc := PlanetRetract(1)),
                    Departures(f.plan.departure, GearOffset) + [GearsLock(false), ConnectorLock(false)],
                    Yielded(true))
  {
    DriveContinue(f, s, s.autopilotEnabled);
    var cmds := Departures(f.plan.departure, GearOffset) + [GearsLock(false), ConnectorLock(false)];
    assert cmds + [] == cmds;
  }

  lemma PlanetRetracts(f: Flight, s: Sensors)
    requires f.pc == PlanetRetract(RetractRuns)
    ensures Resume(f, s) == Resumed(f.(pc := Leaving), [SetAutopilot(true)], Yielded(true))
  {
  }

  /** Once the ship has left, its waypoints are cleared and the next
      destination is taken in the same run. */
  lemma {:induction false} DepartureDone(f: Flight, s: Sensors)
    requires f.pc == Leaving && !s.autopilotEnabled
    ensures var next := Resume(f.(pc := NextDestination), s);
            Resume(f, s) == Resumed(next.flight, [ClearWaypoints] + next.cmds, next.outcome)
  {
    DriveContinue(f, s, s.autopilotEnabled);
  }
}

=== FILE: bacon_args.dfy ===
/** `BaconArgs`, the command-line parser `LaserComm.cs` reads its role from.

    A string is cut into tokens: a backslash takes the next character
    literally, a double quote toggles quoting (the quote itself is dropped),
    and an unquoted space ends a token (even an empty one); what is left at
    the end is a last token if it is not empty. Each token is then added:
    `--key=value` appends `value` to the list of option `key` (no `=` gives
    a missing value), `-xyz` counts one for each flag character, and any
    other token is a plain argument. */
module Bacon {
  import opened Text

  // ---------------------------------------------------------------------
  // What the parser collects
  // ---------------------------------------------------------------------

  /** Flag counts, plain arguments and option values (`None` for `null`). */
  datatype Parsed = Parsed(flags: map<char, nat>, arguments: seq<string>, options: map<string, seq<Option<string>>>)

  const EmptyArgs: Parsed := Parsed(map[], [], map[])

  /** `getFlag`: the count, 0 for a flag never given. */
  function FlagOf(flags: map<char, nat>, c: char): nat
  {
    if c in flags then flags[c] else 0
  }

  /** `getOption`: the values, empty for an option never given. */
  function OptionOf(options: map<string, seq<Option<string>>>, key: string): seq<Option<string>>
  {
    if key in options then options[key] else []
  }

  /** One more occurrence of each character of `cs`. */
  function BumpAll(flags: map<char, nat>, cs: string): (r: map<char, nat>)
  {
    if cs == [] then flags
    else var m := BumpAll(flags, cs[..|cs| - 1]); m[cs[|cs| - 1] := FlagOf(m, cs[|cs| - 1]) + 1]
  }

  /** A flag's count grows by the number of times it is listed; every
      listed flag is then present. */
  lemma {:induction false} BumpAllCounts(flags: map<char, nat>, cs: string, c: char)
    ensures FlagOf(BumpAll(flags, cs), c) == FlagOf(flags, c) + Count(cs, c)
  {
    if cs != [] {
      BumpAllCounts(flags, cs[..|cs| - 1], c);
    }
  }

  /** `Split('=', 2)`: the text before the first separator and, if there is
      one, everything after it. */
  function SplitAtFirst(s: string, d: char): (r: (string, Option<string>))
    ensures d !in r.0
    ensures r.1.None? ==> r.0 == s && d !in s
    ensures r.1.Some? ==> s == r.0 + [d] + r.1.value
  {
    if s == [] then ("", None)
    else if s[0] == d then ("", Some(s[1..]))
    else
      var t := SplitAtFirst(s[1..], d);
      assert s == [s[0]] + s[1..];
      ([s[0]] + t.0, t.1)
  }

  /** The first separator is where the split happens, whatever follows. */
  lemma {:induction false} SplitAtFirstUnique(k: string, v: string, d: char)
    requires d !in k
    ensures SplitAtFirst(k + [d] + v, d) == (k, Some(v))
    decreases |k|
  {
    var s := k + [d] + v;
    if k == [] {
      assert s[1..] == v;
    } else {
      assert s[0] == k[0] && s[1..] == k[1..] + [d] + v;
      SplitAtFirstUnique(k[1..], v, d);
      assert [k[0]] + k[1..] == k;
    }
  }

  lemma SplitAtFirstNone(k: string, d: char)
    requires d !in k
    ensures SplitAtFirst(k, d) == (k, None)
  {
  }

  predicate StartsWithDash(a: string)
  {
    |a| >= 1 && a[0] == '-'
  }

  /** `add`: a token taken into the collected state. */
  function AddToken(p: Parsed, a: string): (r: Parsed)
  {
    if !StartsWithDash(a) then p.(arguments := p.arguments + [a])
    else if |a| >= 2 && a[1] == '-' then
      var kv := SplitAtFirst(a, '=');
      var key := kv.0[2..];
      p.(options := p.options[key := OptionOf(p.options, key) + [kv.1]])
    else p.(flags := BumpAll(p.flags, a[1..]))
  }

  function AddAll(p: Parsed, tokens: seq<string>): Parsed
  {
    if tokens == [] then p else AddToken(AddAll(p, tokens[..|tokens| - 1]), tokens[|tokens| - 1])
  }

  /** A token without a leading `-` is appended to the arguments and
      nothing else changes. */
  lemma PlainArgument(p: Parsed, a: string)
    requires a == [] || a[0] != '-'
    ensures AddToken(p, a) == p.(arguments := p.arguments + [a])
  {
  }

  /** `-xyz` adds one to each of x, y and z and changes nothing else. */
  lemma FlagToken(p: Parsed, cs: string, c: char)
    requires cs == [] || cs[0] != '-'
    ensures FlagOf(AddToken(p, "-" + cs).flags, c) == FlagOf(p.flags, c) + Count(cs, c)
    ensures AddToken(p, "-" + cs).arguments == p.arguments && AddToken(p, "-" + cs).options == p.options
  {
    assert ("-" + cs)[1..] == cs;
    BumpAllCounts(p.flags, cs, c);
  }

  /** `--key=value` appends `value` under `key`; the value may itself
      contain `=`. Other options are untouched. */
  lemma OptionWithValue(p: Parsed, key: string, value: string, other: string)
    requires '=' !in key && other != key
    ensures OptionOf(AddToken(p, "--" + key + "=" + value).options, key) == OptionOf(p.options, key) + [Some(value)]
    ensures OptionOf(AddToken(p, "--" + key + "=" + value).options, other) == OptionOf(p.options, other)
    ensures AddToken(p, "--" + key + "=" + value).flags == p.flags
  {
    var a := "--" + key + "=" + value;
    assert a == ("--" + key) + ['='] + value;
    assert '=' !in "--" + key;
    SplitAtFirstUnique("--" + key, value, '=');
    assert ("--" + key)[2..] == key;
  }

  /** `--key` without `=` appends a missing value under `key`. */
  lemma OptionWithoutValue(p: Parsed, key: string)
    requires '=' !in key
    ensures OptionOf(AddToken(p, "--" + key).options, key) == OptionOf(p.options, key) + [None]
  {
    assert '=' !in "--" + key;
    SplitAtFirstNone("--" + key, '=');
    assert ("--" + key)[2..] == key;
  }

  // ---------------------------------------------------------------------
  // Cutting the string into tokens
  // ---------------------------------------------------------------------

  /** The parser's loop state: escape pending, inside quotes, the token
      being built, and the tokens already finished. */
  datatype Lexer = Lexer(escaped: bool, quoted: bool, current: string, tokens: seq<string>)

  const StartLexer: Lexer := Lexer(false, false, "", [])

  /** One character of the loop. */
  function LexStep(st: Lexer, ch: char): Lexer
  {
    if st.escaped then st.(current := st.current + [ch], escaped := false)
    else if ch == '\\' then st.(escaped := true)
    else if st.quoted && ch != '"' then st.(current := st.current + [ch])
    else if ch == '"' then st.(quoted := !st.quoted)
    else if ch == ' ' then st.(tokens := st.tokens + [st.current], current := "")
    else st.(current := st.current + [ch])
  }

  function LexFrom(st: Lexer, s: string): Lexer
  {
    if s == [] then st else LexStep(LexFrom(st, s[..|s| - 1]), s[|s| - 1])
  }

  /** The tokens of a whole string: the finished ones, then the last one
      unless it is empty. */
  function Tokens(s: string): seq<string>
  {
    var st := LexFrom(StartLexer, s);
    if |st.current| > 0 then st.tokens + [st.current] else st.tokens
  }

  lemma {:induction false} LexFromAppend(st: Lexer, a: string, b: string)
    ensures LexFrom(st, a + b) == LexFrom(LexFrom(st, a), b)
    decreases |b|
  {
    if b == [] {
      assert a + b == a;
    } else {
      assert (a + b)[..|a + b| - 1] == a + b[..|b| - 1];
      LexFromAppend(st, a, b[..|b| - 1]);
    }
  }

  /** No character that the loop treats specially. */
  predicate Word(s: string)
  {
    forall i :: 0 <= i < |s| ==> s[i] != '\\' && s[i] != '"' && s[i] != ' '
  }

  /** Outside quotes, the characters of a word are copied into the token. */
  lemma {:induction false} LexWord(st: Lexer, s: string)
    requires !st.escaped && !st.quoted && Word(s)
    ensures LexFrom(st, s) == st.(current := st.current + s)
    decreases |s|
  {
    if s != [] {
      LexWord(st, s[..|s| - 1]);
      assert st.current + s[..|s| - 1] + [s[|s| - 1]] == st.current + s;
    }
  }

  /** Inside quotes, everything but a quote or a backslash is copied,
      spaces included. */
  lemma {:induction false} LexQuoted(st: Lexer, s: string)
    requires !st.escaped && st.quoted
    requires forall i :: 0 <= i < |s| ==> s[i] != '\\' && s[i] != '"'
    ensures LexFrom(st, s) == st.(current := st.current + s)
    decreases |s|
  {
    if s != [] {
      LexQuoted(st, s[..|s| - 1]);
      assert st.current + s[..|s| - 1] + [s[|s| - 1]] == st.current + s;
    }
  }

  /** Words separated by single spaces come back as the tokens. */
  lemma {:induction false} LexWords(toks: seq<string>, ws: seq<string>)
    requires |ws| >= 1
    requires forall k :: 0 <= k < |ws| ==> Word(ws[k])
    ensures LexFrom(Lexer(false, false, "", toks), Join(ws, ' ')) ==
            Lexer(false, false, ws[|ws| - 1], toks + ws[..|ws| - 1])
    decreases |ws|
  {
    var st := Lexer(false, false, "", toks);
    assert LexFrom(st, ws[0]) == st.(current := ws[0]) by {
      LexWord(st, ws[0]);
      assert "" + ws[0] == ws[0];
    }
    if |ws| == 1 {
      assert ws[..0] == [] && toks + [] == toks;
    } else {
      var afterSpace := Lexer(false, false, "", toks + [ws[0]]);
      assert LexFrom(st, Join(ws, ' ')) == LexFrom(afterSpace, Join(ws[1..], ' ')) by {
        assert Join(ws, ' ') == ws[0] + [' '] + Join(ws[1..], ' ');
        assert LexFrom(st, ws[0] + [' ']) == afterSpace by {
          LexFromAppend(st, ws[0], [' ']);
          assert [' '][..0] == [];
        }
        LexFromAppend(st, ws[0] + [' '], Join(ws[1..], ' '));
      }
      assert forall k :: 0 <= k < |ws[1..]| ==> Word(ws[1..][k]) by {
        forall k | 0 <= k < |ws[1..]| ensures Word(ws[1..][k]) {
          assert ws[1..][k] == ws[k + 1];
        }
      }
      LexWords(toks + [ws[0]], ws[1..]);
      assert toks + [ws[0]] + ws[1..][..|ws[1..]| - 1] == toks + ws[..|ws| - 1];
    }
  }

  lemma LastSplit<T>(xs: seq<T>)
    requires |xs| >= 1
    ensures xs[..|xs| - 1] + [xs[|xs| - 1]] == xs
  {
  }

  /** Non-empty words separated by single spaces are exactly the tokens. */
  lemma WordsAreTokens(ws: seq<string>)
    requires |ws| >= 1
    requires forall k :: 0 <= k < |ws| ==> Word(ws[k]) && ws[k] != ""
    ensures Tokens(Join(ws, ' ')) == ws
  {
    var last := ws[|ws| - 1];
    assert LexFrom(StartLexer, Join(ws, ' ')) == Lexer(false, false, last, ws[..|ws| - 1]) by {
      LexWords([], ws);
      assert [] + ws[..|ws| - 1] == ws[..|ws| - 1];
    }
    assert |last| > 0;
    LastSplit(ws);
  }

  /** A quoted text is one token, spaces and all, without its quotes. */
  lemma QuotedIsOneToken(s: string)
    requires s != ""
    requires forall i :: 0 <= i < |s| ==> s[i] != '\\' && s[i] != '"'
    ensures Tokens("\"" + s + "\"") == [s]
  {
    var inQuote := LexFrom(StartLexer, "\"");
    assert inQuote == Lexer(false, true, "", []) by {
      assert "\""[..0] == [];
    }
    assert LexFrom(StartLexer, "\"" + s) == Lexer(false, true, s, []) by {
      LexQuoted(inQuote, s);
      LexFromAppend(StartLexer, "\"", s);
      assert "" + s == s;
    }
    LexFromAppend(StartLexer, "\"" + s, "\"");
    assert LexFrom(Lexer(false, true, s, []), "\"") == Lexer(false, false, s, []) by {
      assert "\""[..0] == [];
    }
    assert [] + [s] == [s];
  }

  /** A backslash makes any character, even a space or a quote, part of
      the token. */
  lemma EscapeTakesNext(st: Lexer, c: char)
    requires !st.escaped
    ensures LexFrom(st, ['\\', c]) == st.(current := st.current + [c])
  {
    assert ['\\', c][..1] == ['\\'];
    assert ['\\'][..0] == [];
    assert LexFrom(st, ['\\']) == LexStep(st, '\\');
  }

  // ---------------------------------------------------------------------
  // The parser object
  // ---------------------------------------------------------------------

  class BaconArgs {
    var flags: map<char, nat>
    var arguments: seq<string>
    var options: map<string, seq<Option<string>>>

    function State(): Parsed
      reads this
    {
      Parsed(flags, arguments, options)
    }

    constructor()
      ensures State() == EmptyArgs
    {
      flags := map[];
      arguments := [];
      options := map[];
    }

    /** `add`. */
    method Add(a: string)
      modifies this
      ensures State() == AddToken(old(State()), a)
    {
      if !(|a| >= 1 && a[0] == '-') {
        arguments := arguments + [a];
      } else if |a| >= 2 && a[1] == '-' {
        var kv := SplitAtFirst(a, '=');
        var key := kv.0[2..];
        var values := if key in options then options[key] else [];
        options := options[key := values + [kv.1]];
      } else {
        var b := a[1..];
        var start := flags;
        var counts := flags;
        var d := 0;
        while d < |b|
          invariant 0 <= d <= |b|
          invariant counts == BumpAll(start, b[..d])
        {
          var n := if b[d] in counts then counts[b[d]] else 0;
          counts := counts[b[d] := n + 1];
          assert b[..d + 1][..d] == b[..d];
          d := d + 1;
        }
        assert b[..d] == b;
        flags := counts;
      }
    }
  }

  /** `parseArgs`: the loop over the characters, adding each token as it
      ends; the result holds exactly the tokens of the string, in order. */
  method ParseArgs(a: string) returns (b: BaconArgs)
    ensures fresh(b) && b.State() == AddAll(EmptyArgs, Tokens(a))
  {
    b := new BaconArgs();
    var c, d, e := false, false, "";
    ghost var toks: seq<string> := [];
    var f := 0;
    while f < |a|
      invariant 0 <= f <= |a|
      invariant LexFrom(StartLexer, a[..f]) == Lexer(c, d, e, toks)
      invariant b.State() == AddAll(EmptyArgs, toks)
    {
      var g := a[f];
      assert a[..f + 1][..f] == a[..f];
      if c {
        e := e + [g];
        c := false;
      } else if g == '\\' {
        c := true;
      } else if d && g != '"' {
        e := e + [g];
      } else if g == '"' {
        d := !d;
      } else if g == ' ' {
        b.Add(e);
        assert toks + [e] == (toks + [e])[..|toks|] + [e];
        toks := toks + [e];
        e := "";
      } else {
        e := e + [g];
      }
      f := f + 1;
    }
    assert a[..f] == a;
    if |e| > 0 {
      b.Add(e);
      assert (toks + [e])[..|toks|] == toks;
    }
  }

  // ---------------------------------------------------------------------
  // What the docking script reads from its arguments
  // ---------------------------------------------------------------------

  datatype Config = Config(isBase: bool, dockLeft: bool, isPlanet: bool, locationName: string)

  /** The flags `b`, `l`, `p` and the first `name` option; a planet is
      always a base. */
  function ConfigOf(p: Parsed): (r: Config)
    ensures r.isPlanet <==> FlagOf(p.flags, 'p') > 0
    ensures r.isBase <==> FlagOf(p.flags, 'b') > 0 || FlagOf(p.flags, 'p') > 0
    ensures r.dockLeft <==> FlagOf(p.flags, 'l') > 0
    ensures r.locationName != "UNKNOWN" ==> |OptionOf(p.options, "name")| > 0
  {
    var isPlanet := FlagOf(p.flags, 'p') > 0;
    var isBase := if isPlanet then true else FlagOf(p.flags, 'b') > 0;
    var nameArg := OptionOf(p.options, "name");
    Config(isBase, FlagOf(p.flags, 'l') > 0, isPlanet,
           if |nameArg| > 0 && nameArg[0].Some? then nameArg[0].value else "UNKNOWN")
  }

  /** Giving `-p` makes a planet base whatever else is given. */
  lemma PlanetIsBase(p: Parsed)
    ensures ConfigOf(AddToken(p, "-p")).isPlanet && ConfigOf(AddToken(p, "-p")).isBase
  {
    FlagToken(p, "p", 'p');
  }
}

=== FILE: comm.dfy ===
/** The navigation exchange of `LaserComm.cs` (`communicate()`), a C#
    iterator resumed once per run, written out as an explicit resumable
    state machine, one half for a ship and one for a base.

    A ship clears its receiver panel, asks the WAN program to send
    `REQUEST_NAV`, and for 25 seconds takes in every `RESPONSE_NAV` text
    that lands on the panel, adding the destinations it has not seen. A
    base waits for `REQUEST_NAV` on its panel and answers with its own
    record.

    What the iterator reads during a run is a `CommSensors` value: the text
    on the receiver panel, whether the WAN program accepted the `TryRun`
    of this run, the clock in milliseconds and, on a base, what
    `getWaypoints` returns at that moment. Clearing the panel is seen by
    later reads in the same run. */
module Comm {
  import opened Text
  import opened NavWire

  /** `SECONDS_TO_WAIT_FOR_RESPONSE`, in milliseconds. */
  const ResponseWaitMs: int := 25 * 1000
  /** The WAN program's command line in front of every message. */
  const SendPrefix: string := "SEND 2 NAV - B "

  datatype CommCommand = ClearReceiver | TryRun(argument: string)

  datatype CommSensors = CommSensors(received: string, accepted: bool, now: int, waypoints: seq<string>)

  datatype CommPc =
    | ShipBegin
    | ShipArm
    /** The check of the outer `while` against the deadline. */
    | ShipLoop(end: int)
    /** Waiting for a response on the panel. */
    | ShipInner(end: int)
    /** Taking in the records of one response, one by one. */
    | ShipRecords(end: int, records: seq<string>)
    | BaseBegin
    | BaseListen
    | CommEnded

  /** The suspended iterator and the script's destination list it appends to. */
  datatype Comm = Comm(pc: CommPc, destinations: seq<Destination>)

  datatype CommOutcome = CommYielded(value: bool) | CommFinished

  datatype CommResumed = CommResumed(comm: Comm, cmds: seq<CommCommand>, outcome: CommOutcome)

  datatype CommStep =
    | Go(comm: Comm, text: string, cmds: seq<CommCommand>)
    | Stop(comm: Comm, cmds: seq<CommCommand>, outcome: CommOutcome)

  /** `communicate().GetEnumerator()` on a base or a ship. */
  function StartComm(isBase: bool, destinations: seq<Destination>): Comm
  {
    Comm(if isBase then BaseBegin else ShipBegin, destinations)
  }

  function Rank(pc: CommPc): nat
  {
    match pc
    case ShipBegin => 5
    case ShipArm => 4
    case ShipLoop(_) => 3
    case ShipInner(_) => 2
    case ShipRecords(_, _) => 1
    case BaseBegin => 2
    case BaseListen => 1
    case CommEnded => 0
  }

  function Pending(pc: CommPc): nat
  {
    if pc.ShipRecords? then |pc.records| else 0
  }

  /** A base still has a request to answer on its panel. */
  function Unanswered(pc: CommPc, text: string): nat
  {
    if pc == BaseListen && Contains(text, RequestNav) then 1 else 0
  }

  /** The code between one program point and the next; steps taken without
      stopping always make progress, so a run reaches a `yield`. */
  function Exec(c: Comm, s: CommSensors, text: string): (r: CommStep)
    ensures r.Go? ==>
              Rank(r.comm.pc) < Rank(c.pc) ||
              (Rank(r.comm.pc) == Rank(c.pc) && Pending(r.comm.pc) < Pending(c.pc)) ||
              (Rank(r.comm.pc) == Rank(c.pc) && Pending(r.comm.pc) == Pending(c.pc) &&
               Unanswered(r.comm.pc, r.text) < Unanswered(c.pc, text))
  {
    var ds := c.destinations;
    match c.pc
    case ShipBegin =>
      var cmds := [ClearReceiver, TryRun(SendPrefix + RequestNav)];
      if s.accepted then Go(c.(pc := ShipArm), "", cmds)
      else Stop(c.(pc := ShipArm), cmds, CommYielded(false))
    case ShipArm =>
      Go(c.(pc := ShipLoop(s.now + ResponseWaitMs)), text, [])
    case ShipLoop(end) =>
      if s.now < end then Go(c.(pc := ShipInner(end)), text, [])
      else Stop(c.(pc := CommEnded), [], CommFinished)
    case ShipInner(end) =>
      if Contains(text, ResponseNav) then
        Go(c.(pc := ShipRecords(end, SplitNonEmpty(text, ';'))), "", [ClearReceiver])
      else if s.now > end then Stop(c, [], CommYielded(false))
      else Stop(c, [], CommYielded(true))
    case ShipRecords(end, records) =>
      if records == [] then Stop(c.(pc := ShipLoop(end)), [], CommYielded(true))
      else
        var parsed := ParseRecord(records[0]);
        // After this `false` the script drops the iterator, so the point it
        // would resume at is never reached; the source, resumed, would read
        // the short record's missing fields and throw.
        if parsed.None? then Stop(Comm(ShipRecords(end, records[1..]), ds), [], CommYielded(false))
        else
          var d := parsed.value;
          Go(Comm(ShipRecords(end, records[1..]), if Known(ds, d) then ds else ds + [d]), text, [])
    case BaseBegin =>
      Go(c.(pc := BaseListen), "", [ClearReceiver])
    case BaseListen =>
      if !Contains(text, RequestNav) then Stop(c, [], CommYielded(true))
      else
        var cmds := [ClearReceiver, TryRun(SendPrefix + Reply(s.waypoints))];
        assert !Contains("", RequestNav);
        if s.accepted then Go(c, "", cmds)
        else Stop(c, cmds, CommYielded(false))
    case CommEnded =>
      Stop(c, [], CommFinished)
  }

  function Drive(c: Comm, s: CommSensors, text: string): CommResumed
    decreases Rank(c.pc), Pending(c.pc), Unanswered(c.pc, text)
  {
    match Exec(c, s, text)
    case Stop(c', cmds, outcome) => CommResumed(c', cmds, outcome)
    case Go(c', text', cmds) =>
      var rest := Drive(c', s, text');
      CommResumed(rest.comm, cmds + rest.cmds, rest.outcome)
  }

  /** `comm.MoveNext()`: one run of the iterator. */
  function ResumeComm(c: Comm, s: CommSensors): CommResumed
  {
    Drive(c, s, s.received)
  }

  lemma DriveGo(c: Comm, s: CommSensors, text: string)
    requires Exec(c, s, text).Go?
    ensures var st := Exec(c, s, text);
            var rest := Drive(st.comm, s, st.text);
            Drive(c, s, text) == CommResumed(rest.comm, st.cmds + rest.cmds, rest.outcome)
  {
  }

  // ---------------------------------------------------------------------
  // The ship
  // ---------------------------------------------------------------------

  /** The first run of a ship clears its panel and sends the request; if the
      WAN program does not take it the run yields `false`, otherwise the
      25-second listening window opens and the run yields `true`. */
  lemma {:induction false} ShipRequests(destinations: seq<Destination>, s: CommSensors)
    ensures var r := ResumeComm(StartComm(false, destinations), s);
            r.cmds == [ClearReceiver, TryRun(SendPrefix + RequestNav)] &&
            r.comm.destinations == destinations &&
            (if s.accepted then r.comm.pc == ShipInner(s.now + ResponseWaitMs) && r.outcome == CommYielded(true)
             else r.outcome == CommYielded(false))
  {
    var c := StartComm(false, destinations);
    var end := s.now + ResponseWaitMs;
    if s.accepted {
      assert !Contains("", ResponseNav);
      DriveGo(c, s, s.received);
      DriveGo(c.(pc := ShipArm), s, "");
      DriveGo(c.(pc := ShipLoop(end)), s, "");
    }
  }

  /** While nothing arrives the ship keeps waiting until the deadline has
      passed, and then yields `false`. */
  lemma ShipWaits(c: Comm, s: CommSensors, end: int)
    requires c.pc == ShipInner(end) && !Contains(s.received, ResponseNav)
    ensures ResumeComm(c, s) == CommResumed(c, [], CommYielded(s.now <= end))
  {
  }

  /** Once the deadline is reached between two responses the iterator
      ends. */
  lemma ShipStops(c: Comm, s: CommSensors, end: int)
    requires c.pc == ShipLoop(end) && s.now >= end
    ensures ResumeComm(c, s) == CommResumed(c.(pc := CommEnded), [], CommFinished)
  {
  }

  /** Taking in the records of a response adds exactly what `Absorb` adds;
      a malformed record stops the run with `false` after the records before
      it were added, otherwise the run yields `true`. */
  lemma {:induction false} RecordsAbsorbed(c: Comm, s: CommSensors, text: string, end: int, records: seq<string>)
    requires c.pc == ShipRecords(end, records)
    ensures var r := Drive(c, s, text);
            var (ds, ok) := Absorb(c.destinations, records);
            r.comm.destinations == ds && r.cmds == [] && r.outcome == CommYielded(ok) &&
            (ok ==> r.comm.pc == ShipLoop(end))
    decreases |records|
  {
    if records != [] {
      var parsed := ParseRecord(records[0]);
      if parsed.Some? {
        DriveGo(c, s, text);
        var d := parsed.value;
        var ds := c.destinations;
        RecordsAbsorbed(Comm(ShipRecords(end, records[1..]), if Known(ds, d) then ds else ds + [d]), s, text, end, records[1..]);
      }
    }
  }

  /** A run that finds a response on the panel clears the panel and takes
      in every record of the response. */
  lemma {:induction false} ResponseTakenIn(c: Comm, s: CommSensors, end: int)
    requires c.pc == ShipInner(end) && Contains(s.received, ResponseNav)
    ensures var r := ResumeComm(c, s);
            var (ds, ok) := Absorb(c.destinations, SplitNonEmpty(s.received, ';'));
            r.comm.destinations == ds && r.cmds == [ClearReceiver] && r.outcome == CommYielded(ok)
  {
    DriveGo(c, s, s.received);
    RecordsAbsorbed(Comm(ShipRecords(end, SplitNonEmpty(s.received, ';')), c.destinations), s, "", end,
                    SplitNonEmpty(s.received, ';'));
  }

  /** No run ever lets two destinations share a unique id, nor drops or
      reorders a destination already known. */
  lemma {:induction false} DriveKeepsIds(c: Comm, s: CommSensors, text: string)
    requires UniqueIds(c.destinations)
    ensures var ds := Drive(c, s, text).comm.destinations;
            UniqueIds(ds) && |ds| >= |c.destinations| && ds[..|c.destinations|] == c.destinations
    decreases Rank(c.pc), Pending(c.pc), Unanswered(c.pc, text)
  {
    var st := Exec(c, s, text);
    if st.Go? {
      DriveGo(c, s, text);
      if c.pc.ShipRecords? {
        var d := ParseRecord(c.pc.records[0]).value;
        AbsorbSpec(c.destinations, [c.pc.records[0]]);
        assert Absorb(c.destinations, [c.pc.records[0]]).0 == st.comm.destinations by {
          assert [c.pc.records[0]][1..] == [];
        }
      }
      DriveKeepsIds(st.comm, s, st.text);
      var ds := Drive(c, s, text).comm.destinations;
      assert ds[..|c.destinations|] == ds[..|st.comm.destinations|][..|c.destinations|];
    }
  }

  /** A ship that receives exactly a base's reply learns that base: its
      destination list then holds one with the base's id. */
  lemma ShipLearnsBase(c: Comm, s: CommSensors, end: int, uniqueId: string, locationName: string, g: Geometry)
    requires c.pc == ShipInner(end)
    requires Plain(uniqueId) && '|' !in locationName && ';' !in locationName && PlainGeometry(g)
    requires s.received == Reply(GetWaypoints(uniqueId, locationName, g))
    requires UniqueIds(c.destinations)
    ensures var r := ResumeComm(c, s);
            var w := GetWaypoints(uniqueId, locationName, g);
            r.outcome == CommYielded(true) &&
            Known(r.comm.destinations, Destination(w[3..], locationName, uniqueId, g.PlanetGeometry?))
  {
    var w := GetWaypoints(uniqueId, locationName, g);
    ReplyParsesBack(uniqueId, locationName, g);
    assert Contains(s.received, ResponseNav) by {
      ReplyBodyIsJoin(w);
      JoinCons(ResponseNav, w, '|');
      assert OccursAt(s.received, ResponseNav, 0);
    }
    ResponseTakenIn(c, s, end);
    AbsorbSpec(c.destinations, [ReplyBody(w)]);
  }

  // ---------------------------------------------------------------------
  // The base
  // ---------------------------------------------------------------------

  /** A base with no request on its panel waits, yielding `true`. */
  lemma BaseWaits(c: Comm, s: CommSensors)
    requires c.pc == BaseListen && !Contains(s.received, RequestNav)
    ensures ResumeComm(c, s) == CommResumed(c, [], CommYielded(true))
  {
  }

  /** A request is answered in the same run: the panel is cleared and the
      reply built from the current waypoints is sent; the run yields `false`
      if the WAN program does not take it. */
  lemma {:induction false} BaseAnswers(c: Comm, s: CommSensors)
    requires c.pc == BaseListen && Contains(s.received, RequestNav)
    ensures ResumeComm(c, s) ==
            CommResumed(c, [ClearReceiver, TryRun(SendPrefix + Reply(s.waypoints))], CommYielded(s.accepted))
  {
    if s.accepted {
      DriveGo(c, s, s.received);
      assert !Contains("", RequestNav);
    }
  }

  // ---------------------------------------------------------------------
  // The two loops, as the script runs them
  // ---------------------------------------------------------------------

  /** The `foreach` over the records of one response, appending to the
      destination list; it stops at the first malformed record. */
  method AddRecords(ds: seq<Destination>, records: seq<string>) returns (result: seq<Destination>, ok: bool)
    ensures (result, ok) == Absorb(ds, records)
  {
    result := ds;
    var i := 0;
    while i < |records|
      invariant 0 <= i <= |records|
      invariant Absorb(result, records[i..]) == Absorb(ds, records)
    {
      assert records[i..][1..] == records[i + 1..];
      var parsed := ParseRecord(records[i]);
      if parsed.None? {
        return result, false;
      }
      if !Known(result, parsed.value) {
        result := result + [parsed.value];
      }
      i := i + 1;
    }
    ok := true;
  }

  /** The base's reply built element by element. */
  method ComposeResponse(elems: seq<string>) returns (response: string)
    ensures response == Reply(elems)
  {
    response := ResponseNav;
    var i := 0;
    while i < |elems|
      invariant 0 <= i <= |elems|
      invariant response == ReplyBody(elems[..i])
    {
      assert elems[..i + 1][..i] == elems[..i];
      response := response + "|" + elems[i];
      i := i + 1;
    }
    assert elems[..i] == elems;
    response := response + ";";
  }
}

=== FILE: cs_int.dfy ===
/** C# `int` arithmetic where the scripts depend on it: 32-bit two's
    complement wrap-around of `counter++` and the remainder operator `%` by
    four, which truncates toward zero (so a negative left operand gives a
    negative or zero remainder). */
module CsInt {
  const IntMin: int := -0x8000_0000
  const IntMax: int := 0x7FFF_FFFF

  predicate IsInt32(x: int)
  {
    IntMin <= x <= IntMax
  }

  /** `x++` on a 32-bit `int` (unchecked context). */
  function Inc32(x: int): (r: int)
    ensures IsInt32(r)
    ensures IsInt32(x) && x < IntMax ==> r == x + 1
    ensures x == IntMax ==> r == IntMin
  {
    (x - IntMin + 1) % 0x1_0000_0000 + IntMin
  }

  /** `a % 4`, truncating toward zero. */
  function Rem4(a: int): (r: int)
    ensures a >= 0 ==> 0 <= r < 4 && r == a % 4
    ensures a < 0 ==> -4 < r <= 0 && (r == 0 <==> a % 4 == 0)
  {
    if a >= 0 then a % 4 else -((-a) % 4)
  }
}

=== FILE: easy_api.dfy ===
/** The EasyAPI scheduling core of `Old/Class1.cs`.

    An `EasyAPI` object keeps a clock in .NET ticks (100 ns) and three lists:
    block events (a condition plus a callback), repeating intervals
    (`Every`) and one-shot timers (`At`, `In`). Each `Tick` first runs the
    actions bound to the argument, then, unless throttled, advances the clock
    and handles the events, the intervals and the timers in that order.

    Callbacks are not executed here: they are named by an `ActionId`, and
    `Tick` returns the argument actions, the events and the timer entries
    whose callbacks it would call, in order. Whether an event's
    condition holds and what its callback answers are inputs to `Tick`.

    The source removes handled events and fired timers inside a forward loop,
    which skips the entry that follows each removal; that loop is kept as
    written (`SweepAsWritten`) and the class uses the corrected sweep
    (`Filter`). The block-list operations `Plus` and `Minus` and the string
    comparison `EasyCompare` complete the module. */
module EasyApi {
  import opened Text

  /** Time units in ticks of 100 ns. */
  const Microseconds: int := 10
  const Milliseconds: int := 1000 * Microseconds
  const Seconds: int := 1000 * Milliseconds
  const Minutes: int := 60 * Seconds
  const Hours: int := 60 * Minutes
  const Days: int := 24 * Hours
  const Years: int := 365 * Days

  /** Names a callback (`Action`) registered with the scheduler. */
  type ActionId = nat

  /** A timer entry: due `time`, repeat `interval` (0 for one-shot timers). */
  datatype EasyInterval = EasyInterval(time: int, interval: int, action: ActionId)

  /** An event object, compared by identity as `List.Remove` does. */
  datatype EasyEvent = EasyEvent(id: nat)

  // ---------------------------------------------------------------------
  // Filtering, as written and corrected
  // ---------------------------------------------------------------------

  /** The elements satisfying `keep`, in order. */
  function Filter<T>(xs: seq<T>, keep: T -> bool): (r: seq<T>)
    ensures |r| <= |xs|
  {
    if xs == [] then []
    else Filter(xs[..|xs| - 1], keep) + (if keep(xs[|xs| - 1]) then [xs[|xs| - 1]] else [])
  }

  /** The corrected sweep keeps exactly the elements that pass. */
  lemma {:induction false} FilterMembers<T>(xs: seq<T>, keep: T -> bool, x: T)
    ensures x in Filter(xs, keep) <==> x in xs && keep(x)
  {
    if xs != [] {
      var init := xs[..|xs| - 1];
      FilterMembers(init, keep, x);
      assert xs == init + [xs[|xs| - 1]];
    }
  }

  /** Appending one element extends the filtered list by that element if it
      passes. */
  lemma FilterSnoc<T>(xs: seq<T>, x: T, keep: T -> bool)
    ensures Filter(xs + [x], keep) == Filter(xs, keep) + (if keep(x) then [x] else [])
  {
    assert (xs + [x])[..|xs + [x]| - 1] == xs;
  }

  /** What a sweep leaves in the list and which elements it looked at. */
  datatype Sweep<T> = Sweep(kept: seq<T>, visited: seq<T>)

  /** The loop `for (n = 0; n < list.Count; n++) if (!keep(list[n]))
      list.Remove(list[n]);` from position `n`: a failing element is removed
      by value, and the index still advances past the element that moved
      into its place. */
  function SweepAsWritten<T(==)>(xs: seq<T>, n: nat, keep: T -> bool): (s: Sweep<T>)
    ensures |s.kept| <= |xs|
    decreases |xs| - n
  {
    if n >= |xs| then Sweep(xs, [])
    else
      var x := xs[n];
      RemoveFirstSpec(xs, x);
      var rest := if keep(x) then xs else RemoveFirst(xs, x);
      var s := SweepAsWritten(rest, n + 1, keep);
      Sweep(s.kept, [x] + s.visited)
  }

  /** As written, an element that passes is never removed. */
  lemma {:induction false} AsWrittenKeepsPassing<T>(xs: seq<T>, n: nat, keep: T -> bool, x: T)
    requires x in xs && keep(x)
    ensures x in SweepAsWritten(xs, n, keep).kept
    decreases |xs| - n
  {
    if n < |xs| {
      var y := xs[n];
      if keep(y) {
        AsWrittenKeepsPassing(xs, n + 1, keep, x);
      } else {
        var k := IndexOf(xs, y);
        assert x != y;
        assert x in xs[..k] + xs[k + 1..] by {
          var j :| 0 <= j < |xs| && xs[j] == x;
          if j < k { assert xs[..k][j] == x; } else { assert xs[k + 1..][j - k - 1] == x; }
        }
        AsWrittenKeepsPassing(RemoveFirst(xs, y), n + 1, keep, x);
      }
    }
  }

  /** As written, a list in which every element passes is left alone and
      visited in full: the loop goes wrong only once it removes something. */
  lemma {:induction false} AsWrittenWithoutRemoval<T>(xs: seq<T>, n: nat, keep: T -> bool)
    requires n <= |xs|
    requires forall k :: n <= k < |xs| ==> keep(xs[k])
    ensures SweepAsWritten(xs, n, keep) == Sweep(xs, xs[n..])
    decreases |xs| - n
  {
    if n < |xs| {
      AsWrittenWithoutRemoval(xs, n + 1, keep);
      assert xs[n..] == [xs[n]] + xs[n + 1..];
    }
  }

  // ---------------------------------------------------------------------
  // Events, intervals and timers
  // ---------------------------------------------------------------------

  /** `EasyEvent.handle`: when the condition holds the callback runs and its
      answer decides whether the event stays; otherwise the event stays. */
  function Handle(e: EasyEvent, triggered: set<nat>, keeps: set<nat>): (stay: bool)
  {
    e.id in triggered ==> e.id in keeps
  }

  function EventKeeper(triggered: set<nat>, keeps: set<nat>): EasyEvent -> bool
  {
    (e: EasyEvent) => Handle(e, triggered, keeps)
  }

  function TriggeredBy(triggered: set<nat>): EasyEvent -> bool
  {
    (e: EasyEvent) => e.id in triggered
  }

  /** An event leaves the list exactly when its condition held and its
      callback answered false; the callbacks that run are those of the events
      whose condition held. */
  lemma HandledEvents(evs: seq<EasyEvent>, triggered: set<nat>, keeps: set<nat>, e: EasyEvent)
    ensures e in Filter(evs, EventKeeper(triggered, keeps)) <==>
            e in evs && (e.id in triggered ==> e.id in keeps)
    ensures e in Filter(evs, TriggeredBy(triggered)) <==> e in evs && e.id in triggered
  {
    FilterMembers(evs, EventKeeper(triggered, keeps), e);
    FilterMembers(evs, TriggeredBy(triggered), e);
  }

  function DueAt(clock: int): EasyInterval -> bool
  {
    (e: EasyInterval) => clock >= e.time
  }

  function WaitingAt(clock: int): EasyInterval -> bool
  {
    (e: EasyInterval) => clock < e.time
  }

  /** One interval entry at a tick: when due, its next time is computed from
      its old due time, not from the clock. */
  function Reschedule(e: EasyInterval, clock: int): (r: EasyInterval)
    ensures r.interval == e.interval && r.action == e.action
    ensures r.time == e.time + (if clock >= e.time then e.interval else 0)
  {
    if clock >= e.time then EasyInterval(clock + e.interval - (clock - e.time), e.interval, e.action) else e
  }

  function Rescheduled(ivs: seq<EasyInterval>, clock: int): (r: seq<EasyInterval>)
    ensures |r| == |ivs|
  {
    seq(|ivs|, k requires 0 <= k < |ivs| => Reschedule(ivs[k], clock))
  }

  /** One interval entry over a series of tick clocks: the entry afterwards
      and how often it fired. */
  function Repeat(e: EasyInterval, clocks: seq<int>): (r: (EasyInterval, nat))
  {
    if clocks == [] then (e, 0)
    else
      var p := Repeat(e, clocks[..|clocks| - 1]);
      (Reschedule(p.0, clocks[|clocks| - 1]), p.1 + if clocks[|clocks| - 1] >= p.0.time then 1 else 0)
  }

  /** An `Every` entry keeps its phase: after it has fired `m` times its due
      time is exactly `m` periods after the first, however late the ticks
      came, and it fires at most once per tick. */
  lemma {:induction false} EveryKeepsPhase(e: EasyInterval, clocks: seq<int>)
    ensures Repeat(e, clocks).0 == EasyInterval(e.time + Repeat(e, clocks).1 * e.interval, e.interval, e.action)
    ensures Repeat(e, clocks).1 <= |clocks|
  {
    if clocks != [] {
      EveryKeepsPhase(e, clocks[..|clocks| - 1]);
    }
  }

  // ---------------------------------------------------------------------
  // The scheduler object
  // ---------------------------------------------------------------------

  /** A tick is throttled when the clock has moved since the start and less
      than `interval` has passed since the last tick that ran. */
  predicate Throttled(clock: int, start: int, now: int, interval: int)
  {
    clock > start && now - clock < interval
  }

  /** `onSingleTap` / `onDoubleTap` asked to postpone the tick; their answers
      are inputs since they are overridable hooks. */
  predicate Postponed(runCount: nat, singleTap: bool, doubleTap: bool)
  {
    (runCount == 1 && singleTap) || (runCount > 1 && doubleTap)
  }

  class EasyAPI {
    var start: int
    var clock: int
    var delta: int
    var interTickRunCount: nat
    var argumentActions: map<string, seq<ActionId>>
    var events: seq<EasyEvent>
    var intervals: seq<EasyInterval>
    var schedule: seq<EasyInterval>

    /** The constructor reads the clock, then `Reset` sets the start to it. */
    constructor (now: int)
      ensures start == now && clock == now && delta == 0 && interTickRunCount == 0
      ensures argumentActions == map[] && events == [] && intervals == [] && schedule == []
    {
      start, clock, delta := now, now, 0;
      interTickRunCount := 0;
      argumentActions := map[];
      events, intervals, schedule := [], [], [];
    }

    method AddEvent(e: EasyEvent)
      modifies this
      ensures events == old(events) + [e]
      ensures start == old(start) && clock == old(clock) && delta == old(delta)
      ensures interTickRunCount == old(interTickRunCount) && argumentActions == old(argumentActions)
      ensures intervals == old(intervals) && schedule == old(schedule)
    {
      events := events + [e];
    }

    /** `On`: binds a callback to a run argument, after those bound before. */
    method On(argument: string, callback: ActionId)
      modifies this
      ensures argument in argumentActions
      ensures argumentActions == old(argumentActions)[argument :=
                (if argument in old(argumentActions) then old(argumentActions)[argument] else []) + [callback]]
      ensures start == old(start) && clock == old(clock) && delta == old(delta)
      ensures interTickRunCount == old(interTickRunCount)
      ensures events == old(events) && intervals == old(intervals) && schedule == old(schedule)
    {
      if argument !in argumentActions {
        argumentActions := argumentActions[argument := []];
      }
      argumentActions := argumentActions[argument := argumentActions[argument] + [callback]];
    }

    /** `At`: a one-shot timer at `time` after the start. */
    method At(time: int, callback: ActionId)
      modifies this
      ensures schedule == old(schedule) + [EasyInterval(start + time, 0, callback)]
      ensures start == old(start) && clock == old(clock) && delta == old(delta)
      ensures interTickRunCount == old(interTickRunCount) && argumentActions == old(argumentActions)
      ensures events == old(events) && intervals == old(intervals)
    {
      schedule := schedule + [EasyInterval(start + time, 0, callback)];
    }

    /** `Every`: first due one period after the current clock. */
    method Every(time: int, callback: ActionId)
      modifies this
      ensures intervals == old(intervals) + [EasyInterval(clock + time, time, callback)]
      ensures start == old(start) && clock == old(clock) && delta == old(delta)
      ensures interTickRunCount == old(interTickRunCount) && argumentActions == old(argumentActions)
      ensures events == old(events) && schedule == old(schedule)
    {
      intervals := intervals + [EasyInterval(clock + time, time, callback)];
    }

    /** `In`: a one-shot timer `time` after the current clock, by way of `At`. */
    method In(time: int, callback: ActionId)
      modifies this
      ensures schedule == old(schedule) + [EasyInterval(clock + time, 0, callback)]
      ensures start == old(start) && clock == old(clock) && delta == old(delta)
      ensures interTickRunCount == old(interTickRunCount) && argumentActions == old(argumentActions)
      ensures events == old(events) && intervals == old(intervals)
    {
      At(clock - start + time, callback);
    }

    /** `handleEvents`, corrected: every event is handled once, in order; the
        ones whose handler answers false are removed. */
    method HandleEvents(triggered: set<nat>, keeps: set<nat>) returns (notified: seq<EasyEvent>)
      modifies this
      ensures events == Filter(old(events), EventKeeper(triggered, keeps))
      ensures notified == Filter(old(events), TriggeredBy(triggered))
      ensures start == old(start) && clock == old(clock) && delta == old(delta)
      ensures interTickRunCount == old(interTickRunCount) && argumentActions == old(argumentActions)
      ensures intervals == old(intervals) && schedule == old(schedule)
    {
      var evs := events;
      ghost var all := evs;
      ghost var k := 0;
      notified := [];
      var n := 0;
      while n < |evs|
        invariant 0 <= k <= |all| && n <= |evs| && unchanged(this)
        invariant evs[..n] == Filter(all[..k], EventKeeper(triggered, keeps))
        invariant evs[n..] == all[k..]
        invariant notified == Filter(all[..k], TriggeredBy(triggered))
        decreases |all| - k
      {
        var e := evs[n];
        assert e == all[k] by { assert evs[n..][0] == all[k..][0]; }
        assert all[..k + 1] == all[..k] + [e];
        FilterSnoc(all[..k], e, EventKeeper(triggered, keeps));
        FilterSnoc(all[..k], e, TriggeredBy(triggered));
        if e.id in triggered {
          notified := notified + [e];
        }
        if Handle(e, triggered, keeps) {
          assert evs[..n + 1] == evs[..n] + [e];
          n := n + 1;
        } else {
          ghost var before := evs;
          evs := evs[..n] + evs[n + 1..];
          assert evs[..n] == before[..n];
          assert evs[n..] == all[k + 1..] by {
            assert evs[n..] == before[n + 1..] == before[n..][1..];
          }
        }
        k := k + 1;
      }
      assert all[..k] == all;
      assert evs == evs[..n];
      events := evs;
    }

    /** The interval loop: every due entry fires once, in order, and moves on
        by one period. */
    method HandleIntervals() returns (fired: seq<EasyInterval>)
      modifies this
      ensures intervals == Rescheduled(old(intervals), clock)
      ensures fired == Filter(old(intervals), DueAt(clock))
      ensures start == old(start) && clock == old(clock) && delta == old(delta)
      ensures interTickRunCount == old(interTickRunCount) && argumentActions == old(argumentActions)
      ensures events == old(events) && schedule == old(schedule)
    {
      var ivs := intervals;
      ghost var all := ivs;
      fired := [];
      var n := 0;
      while n < |ivs|
        invariant |ivs| == |all| && 0 <= n <= |all| && unchanged(this)
        invariant forall k :: 0 <= k < n ==> ivs[k] == Reschedule(all[k], clock)
        invariant forall k :: n <= k < |all| ==> ivs[k] == all[k]
        invariant fired == Filter(all[..n], DueAt(clock))
      {
        var e := ivs[n];
        assert all[..n + 1] == all[..n] + [e];
        FilterSnoc(all[..n], e, DueAt(clock));
        if clock < e.time {
          assert Filter(all[..n + 1], DueAt(clock)) == Filter(all[..n], DueAt(clock));
        }
        if clock >= e.time {
          var time := clock + e.interval - (clock - e.time);
          fired := fired + [e];
          ivs := ivs[n := EasyInterval(time, e.interval, e.action)];
        }
        n := n + 1;
      }
      assert all[..n] == all;
      intervals := ivs;
    }

    /** The timer loop, corrected: every due timer fires once, in order, and
        is removed. */
    method HandleSchedule() returns (fired: seq<EasyInterval>)
      modifies this
      ensures schedule == Filter(old(schedule), WaitingAt(clock))
      ensures fired == Filter(old(schedule), DueAt(clock))
      ensures start == old(start) && clock == old(clock) && delta == old(delta)
      ensures interTickRunCount == old(interTickRunCount) && argumentActions == old(argumentActions)
      ensures events == old(events) && intervals == old(intervals)
    {
      var timers := schedule;
      ghost var all := timers;
      ghost var k := 0;
      fired := [];
      var n := 0;
      while n < |timers|
        invariant 0 <= k <= |all| && n <= |timers| && unchanged(this)
        invariant timers[..n] == Filter(all[..k], WaitingAt(clock))
        invariant timers[n..] == all[k..]
        invariant fired == Filter(all[..k], DueAt(clock))
        decreases |all| - k
      {
        var e := timers[n];
        assert e == all[k] by { assert timers[n..][0] == all[k..][0]; }
        assert all[..k + 1] == all[..k] + [e];
        FilterSnoc(all[..k], e, WaitingAt(clock));
        FilterSnoc(all[..k], e, DueAt(clock));
        if clock < e.time {
          assert Filter(all[..k + 1], DueAt(clock)) == Filter(all[..k], DueAt(clock));
        }
        if clock >= e.time {
          ghost var before := timers;
          fired := fired + [e];
          timers := timers[..n] + timers[n + 1..];
          assert timers[..n] == before[..n];
          assert timers[n..] == all[k + 1..] by {
            assert timers[n..] == before[n + 1..] == before[n..][1..];
          }
        } else {
          assert timers[..n + 1] == timers[..n] + [e];
          n := n + 1;
        }
        k := k + 1;
      }
      assert all[..k] == all;
      assert timers == timers[..n];
      schedule := timers;
    }

    /** `Tick`: the argument's actions run first, even on a throttled call; a
        throttled call only counts itself, a postponed one changes nothing;
        otherwise the clock advances to `now` and events, intervals and
        timers are handled in that order. */
    method Tick(interval: int, argument: string, now: int, triggered: set<nat>, keeps: set<nat>,
                singleTap: bool, doubleTap: bool)
      returns (ran: bool, argCalls: seq<ActionId>, notified: seq<EasyEvent>, timerCalls: seq<EasyInterval>)
      modifies this
      ensures argCalls == (if argument in old(argumentActions) then old(argumentActions)[argument] else [])
      ensures start == old(start) && argumentActions == old(argumentActions)
      ensures ran <==> !Throttled(old(clock), start, now, interval) &&
                       !Postponed(old(interTickRunCount), singleTap, doubleTap)
      ensures ran && old(clock) > start ==> now - old(clock) >= interval
      ensures Throttled(old(clock), start, now, interval) ==>
                interTickRunCount == old(interTickRunCount) + 1
      ensures !ran ==> clock == old(clock) && delta == old(delta) && events == old(events) &&
                       intervals == old(intervals) && schedule == old(schedule) &&
                       notified == [] && timerCalls == []
      ensures !ran && !Throttled(old(clock), start, now, interval) ==> interTickRunCount == old(interTickRunCount)
      ensures ran ==> interTickRunCount == 0 && clock == now && delta == now - old(clock)
      ensures ran ==> events == Filter(old(events), EventKeeper(triggered, keeps)) &&
                      notified == Filter(old(events), TriggeredBy(triggered))
      ensures ran ==> intervals == Rescheduled(old(intervals), now) &&
                      schedule == Filter(old(schedule), WaitingAt(now)) &&
                      timerCalls == Filter(old(intervals), DueAt(now)) + Filter(old(schedule), DueAt(now))
    {
      argCalls := if argument in argumentActions then argumentActions[argument] else [];
      notified, timerCalls := [], [];
      if clock > start && now - clock < interval {
        interTickRunCount := interTickRunCount + 1;
        return false, argCalls, notified, timerCalls;
      }
      if interTickRunCount == 1 {
        if singleTap {
          return false, argCalls, notified, timerCalls;
        }
      } else if interTickRunCount > 1 {
        if doubleTap {
          return false, argCalls, notified, timerCalls;
        }
      }
      interTickRunCount := 0;
      var lastClock := clock;
      clock := now;
      delta := clock - lastClock;
      notified := HandleEvents(triggered, keeps);
      var intervalCalls := HandleIntervals();
      var scheduleCalls := HandleSchedule();
      timerCalls := intervalCalls + scheduleCalls;
      ran := true;
    }
  }

  // ---------------------------------------------------------------------
  // The removal loops as written
  // ---------------------------------------------------------------------

  /** As written, two events that both finish in the same tick: the second
      slides into the first one's slot and is not handled in that tick,
      whereas the corrected sweep handles and removes both. */
  lemma AsWrittenEventSkipped()
    ensures SweepAsWritten([EasyEvent(1), EasyEvent(2)], 0, EventKeeper({1, 2}, {}))
            == Sweep([EasyEvent(2)], [EasyEvent(1)])
    ensures Filter([EasyEvent(1), EasyEvent(2)], EventKeeper({1, 2}, {})) == []
    ensures Filter([EasyEvent(1), EasyEvent(2)], TriggeredBy({1, 2})) == [EasyEvent(1), EasyEvent(2)]
  {
    var evs := [EasyEvent(1), EasyEvent(2)];
    assert RemoveFirst(evs, EasyEvent(1)) == [EasyEvent(2)] by {
      assert IndexOf(evs, EasyEvent(1)) == 0;
    }
    assert evs[..1] == [EasyEvent(1)];
  }

  /** As written, two timers due in the same tick: only the first fires and
      the second waits for the next tick; the corrected loop fires both. */
  lemma AsWrittenTimerDelayed()
    ensures var timers := [EasyInterval(5, 0, 7), EasyInterval(5, 0, 8)];
            SweepAsWritten(timers, 0, WaitingAt(5)) == Sweep([EasyInterval(5, 0, 8)], [EasyInterval(5, 0, 7)]) &&
            Filter(timers, WaitingAt(5)) == [] &&
            Filter(timers, DueAt(5)) == timers
  {
    var timers := [EasyInterval(5, 0, 7), EasyInterval(5, 0, 8)];
    assert RemoveFirst(timers, timers[0]) == [EasyInterval(5, 0, 8)] by {
      assert IndexOf(timers, timers[0]) == 0;
    }
    assert timers[..1] == [EasyInterval(5, 0, 7)];
  }

  // ---------------------------------------------------------------------
  // Block lists and comparisons
  // ---------------------------------------------------------------------

  /** A block, compared by the terminal block it wraps. */
  type Block = nat

  /** The list `Plus` builds: each block of `more` not already present is
      appended, in order. */
  function Union(acc: seq<Block>, more: seq<Block>): (r: seq<Block>)
    decreases |more|
  {
    if more == [] then acc
    else Union(if more[0] in acc then acc else acc + [more[0]], more[1..])
  }

  /** `Plus` keeps the receiver's blocks in front, holds exactly the blocks
      of both lists, and adds no block twice. */
  lemma {:induction false} UnionSpec(acc: seq<Block>, more: seq<Block>)
    ensures |Union(acc, more)| >= |acc| && Union(acc, more)[..|acc|] == acc
    ensures forall x :: x in Union(acc, more) <==> x in acc || x in more
    ensures forall i, j :: |acc| <= i < j < |Union(acc, more)| ==> Union(acc, more)[i] != Union(acc, more)[j]
    ensures forall i :: |acc| <= i < |Union(acc, more)| ==> Union(acc, more)[i] !in acc
    decreases |more|
  {
    if more != [] {
      var next := if more[0] in acc then acc else acc + [more[0]];
      UnionSpec(next, more[1..]);
      var r := Union(acc, more);
      assert r == Union(next, more[1..]);
      assert r[..|acc|] == acc by { assert r[..|next|][..|acc|] == next[..|acc|]; }
      forall x
        ensures x in r <==> x in acc || x in more
      {
        assert x in more <==> x == more[0] || x in more[1..] by { assert more == [more[0]] + more[1..]; }
      }
      forall i | |acc| <= i < |r|
        ensures r[i] !in acc
      {
        if i >= |next| {
          assert r[i] !in next;
          assert forall y :: y in acc ==> y in next;
        } else {
          assert r[i] == next[i] == more[0] by { assert r[..|next|][i] == next[i]; }
        }
      }
      forall i, j | |acc| <= i < j < |r|
        ensures r[i] != r[j]
      {
        if i < |next| {
          assert r[..|next|][i] == next[i];
          assert r[i] == more[0];
          assert next[i] in next;
          assert j >= |next|;
        }
      }
    }
  }

  /** The list `Minus` builds: one occurrence of each listed block removed. */
  function Subtract(acc: seq<Block>, less: seq<Block>): (r: seq<Block>)
    decreases |less|
  {
    if less == [] then acc else Subtract(RemoveFirst(acc, less[0]), less[1..])
  }

  /** `Minus` removes one occurrence per listed block: the multiset
      difference. */
  lemma {:induction false} SubtractSpec(acc: seq<Block>, less: seq<Block>)
    ensures multiset(Subtract(acc, less)) == multiset(acc) - multiset(less)
    decreases |less|
  {
    if less != [] {
      var x, rest := less[0], less[1..];
      RemoveFirstMultiset(acc, x);
      SubtractSpec(RemoveFirst(acc, x), rest);
      assert less == [x] + rest;
      assert multiset(less) == multiset{x} + multiset(rest);
      DiffDiff(multiset(acc), multiset{x}, multiset(rest));
    }
  }

  lemma DiffDiff<T>(a: multiset<T>, b: multiset<T>, c: multiset<T>)
    ensures a - b - c == a - (b + c)
  {
    forall z
      ensures (a - b - c)[z] == (a - (b + c))[z]
    {
    }
  }

  /** `EasyBlocks.Plus`: the receiver's blocks, then each block of `other`
      not yet in the result. */
  method Plus(blocks: seq<Block>, other: seq<Block>) returns (r: seq<Block>)
    ensures r == Union(blocks, other)
  {
    r := blocks;
    var i := 0;
    while i < |other|
      invariant 0 <= i <= |other|
      invariant Union(r, other[i..]) == Union(blocks, other)
    {
      assert other[i..][1..] == other[i + 1..];
      if other[i] !in r {
        r := r + [other[i]];
      }
      i := i + 1;
    }
  }

  /** `EasyBlocks.Minus`: the receiver's blocks with the first occurrence of
      each block of `other` removed. */
  method Minus(blocks: seq<Block>, other: seq<Block>) returns (r: seq<Block>)
    ensures r == Subtract(blocks, other)
  {
    r := blocks;
    var i := 0;
    while i < |other|
      invariant 0 <= i <= |other|
      invariant Subtract(r, other[i..]) == Subtract(blocks, other)
    {
      assert other[i..][1..] == other[i + 1..];
      r := RemoveFirst(r, other[i]);
      i := i + 1;
    }
  }

  /** `EasyCompare` without regular expressions: `regexMatch` stands for
      whether `b`, as a .NET regular expression, matches in `a`. */
  function EasyCompare(op: string, a: string, b: string, regexMatch: bool): (r: bool)
  {
    match op
    case "==" => a == b
    case "!=" => a != b
    case "~" => Contains(a, b)
    case "!~" => !Contains(a, b)
    case "R" => regexMatch
    case "!R" => !regexMatch
    case _ => false
  }

  /** The operators come in complementary pairs; `~` is substring search
      and any other operator compares false. */
  lemma EasyCompareSpec(op: string, a: string, b: string, m: bool)
    ensures EasyCompare("!=", a, b, m) == !EasyCompare("==", a, b, m)
    ensures EasyCompare("!~", a, b, m) == !EasyCompare("~", a, b, m)
    ensures EasyCompare("!R", a, b, m) == !EasyCompare("R", a, b, m)
    ensures EasyCompare("==", a, b, m) ==> EasyCompare("~", a, b, m)
    ensures EasyCompare("~", a, b, m) <==> exists i :: OccursAt(a, b, i)
    ensures op !in {"==", "!=", "~", "!~", "R", "!R"} ==> !EasyCompare(op, a, b, m)
  {
    if a == b {
      assert OccursAt(a, b, 0);
    }
  }
}

=== FILE: elevator.dfy ===
/** The piston elevator of `Old/Class1.cs`, built on the EasyAPI scheduler.

    Floor requests arrive as run arguments and wait in a FIFO queue. A
    repeating timer runs `ProcessRequests`, which starts the oldest request
    only when the elevator is `ready`: the cabin either opens its doors at
    the current floor or travels, and an arrival event opens the doors at the
    destination. The doors close seven seconds after opening, and only then
    is the elevator ready for the next request.

    Device actions are returned as `Command`s; whether the pistons have
    arrived is an input to `Run` (the script's `Main`). The callbacks the scheduler reports are
    dispatched after the scheduler's tick, in the order it reports them. */
module Elevator {
  import opened Text
  import EasyApi

  const NumSecondsToHoldDoorOpen: int := 7
  const ElevatorSpeed: real := 2.0
  /** Combined piston extension, in metres, for floors 1 to 4. */
  const FloorLocations: seq<real> := [2.2, 9.5, 17.0, 24.5]
  const NumFloors: int := 4
  /** The minimum spacing `Main` asks of the scheduler between ticks. */
  const TickSpacing: int := 100 * EasyApi.Milliseconds

  /** The callbacks the controller registers with the scheduler. */
  const ProcessRequestsAction: EasyApi.ActionId := 0
  const CloseDoorsAction: EasyApi.ActionId := 1

  /** The start-up event waits for the pistons to reach floor 1; the arrival
      event for floor `i` waits for them to reach floor `i`. */
  const BottomEvent: EasyApi.EasyEvent := EasyApi.EasyEvent(0)
  function ArrivalEvent(floor: int): (e: EasyApi.EasyEvent)
    requires 1 <= floor <= NumFloors
    ensures e != BottomEvent
  {
    EasyApi.EasyEvent(floor)
  }

  datatype Command =
    | LightsOff(floor: int)          // floor indicator lights named like the floor
    | LightsOnNamed(name: string)    // floor indicator lights named like the argument
    | OpenDoors(floor: int)          // the floor's doors and the cabin door
    | CloseDoors(floor: int)
    | CloseAllDoors
    | PlaySound
    | PistonsTo(position: real)

  // ---------------------------------------------------------------------
  // Parsing the argument
  // ---------------------------------------------------------------------

  const Int32Max: int := 0x7FFF_FFFF

  predicate IsDigit(c: char) { '0' <= c <= '9' }

  predicate IsSpace(c: char) { c in {' ', '\t', '\n', '\r', '\U{B}', '\U{C}'} }

  /** The value of a string of decimal digits. */
  function DigitsValue(s: string): (v: nat)
    requires forall k :: 0 <= k < |s| ==> IsDigit(s[k])
  {
    if s == [] then 0
    else
      assert IsDigit(s[|s| - 1]);
      DigitsValue(s[..|s| - 1]) * 10 + (s[|s| - 1] as int - '0' as int)
  }

  function TrimStart(s: string): (r: string)
    ensures |r| <= |s| && (r == [] || !IsSpace(r[0]))
  {
    if s != [] && IsSpace(s[0]) then TrimStart(s[1..]) else s
  }

  function TrimEnd(s: string): (r: string)
    ensures |r| <= |s| && (r == [] || !IsSpace(r[|r| - 1]))
  {
    if s != [] && IsSpace(s[|s| - 1]) then TrimEnd(s[..|s| - 1]) else s
  }

  /** `int.Parse`: optional white space around an optional sign and at least
      one decimal digit, within the 32-bit range; anything else fails. */
  function ParseInt(arg: string): (r: Option<int>)
    ensures r.Some? ==> -Int32Max - 1 <= r.value <= Int32Max
  {
    var s := TrimEnd(TrimStart(arg));
    var neg := |s| > 0 && s[0] == '-';
    var body := if |s| > 0 && (s[0] == '-' || s[0] == '+') then s[1..] else s;
    if body == [] || exists k :: 0 <= k < |body| && !IsDigit(body[k]) then None
    else
      var v: int := if neg then -(DigitsValue(body) as int) else DigitsValue(body);
      if -Int32Max - 1 <= v <= Int32Max then Some(v) else None
  }

  /** Decimal digits of a natural number, most significant first. */
  function ShowNat(n: nat): (s: string)
    ensures |s| > 0 && forall k :: 0 <= k < |s| ==> IsDigit(s[k])
  {
    if n < 10 then [('0' as int + n) as char]
    else ShowNat(n / 10) + [('0' as int + n % 10) as char]
  }

  lemma {:induction false} DigitsOfShowNat(n: nat)
    ensures DigitsValue(ShowNat(n)) == n
  {
    if n >= 10 {
      DigitsOfShowNat(n / 10);
      var s := ShowNat(n);
      assert s[..|s| - 1] == ShowNat(n / 10);
    }
  }

  /** A floor number written in decimal, with `-1` for the current floor,
      parses back to itself. */
  lemma ParseShownFloor(n: nat)
    requires n <= Int32Max
    ensures ParseInt(ShowNat(n)) == Some(n)
    ensures ParseInt("-" + ShowNat(n)) == Some(-(n as int))
  {
    DigitsOfShowNat(n);
    var s := ShowNat(n);
    assert !IsSpace(s[0]) && !IsSpace(s[|s| - 1]);
    assert TrimEnd(TrimStart(s)) == s;
    var m := "-" + s;
    assert m[1..] == s;
    assert !IsSpace(m[|m| - 1]);
    assert TrimEnd(TrimStart(m)) == m;
  }

  /** The rule `Main` uses: a floor is queued unless it already waits or is
      the request being served. */
  function Admit(queue: seq<int>, ready: bool, lastRequest: int, floor: int): (r: bool)
  {
    !(floor in queue || (!ready && lastRequest == floor))
  }

  predicate Distinct(q: seq<int>)
  {
    forall i, j :: 0 <= i < j < |q| ==> q[i] != q[j]
  }

  /** Admitting keeps the queue free of duplicates and clear of the floor
      being served, and every refused floor is already waiting or served. */
  lemma AdmitKeepsQueue(queue: seq<int>, ready: bool, lastRequest: int, floor: int)
    requires Distinct(queue) && (!ready ==> lastRequest !in queue)
    ensures Admit(queue, ready, lastRequest, floor) ==>
              Distinct(queue + [floor]) && (!ready ==> lastRequest !in queue + [floor])
    ensures !Admit(queue, ready, lastRequest, floor) ==>
              floor in queue || (!ready && floor == lastRequest)
  {
    if Admit(queue, ready, lastRequest, floor) {
      var q := queue + [floor];
      forall i, j | 0 <= i < j < |q|
        ensures q[i] != q[j]
      {
        if j == |queue| {
          assert q[i] == queue[i];
        }
      }
    }
  }

  // ---------------------------------------------------------------------
  // One run as a function of the state
  // ---------------------------------------------------------------------

  /** The controller's fields together with the scheduler's clock and the
      two lists its callbacks add to. */
  datatype Cabin = Cabin(queue: seq<int>, lastRequest: int, ready: bool, position: int,
                         doorsToClose: int, lightsToTurnOff: int,
                         clock: int, events: seq<EasyApi.EasyEvent>, schedule: seq<EasyApi.EasyInterval>)

  /** The state after a callback, the commands it issued, and whether it
      returned normally. */
  datatype Step = Step(cabin: Cabin, cmds: seq<Command>, ok: bool)

  /** The one-shot timer that closes the doors seven seconds from `clock`. */
  function CloseTimer(clock: int): EasyApi.EasyInterval
  {
    EasyApi.EasyInterval(clock + NumSecondsToHoldDoorOpen * EasyApi.Seconds, 0, CloseDoorsAction)
  }

  /** `callFloor` on the state. */
  function CallFloorStep(c: Cabin, i: int): Step
  {
    if i == c.position || i == -1 then
      Step(c.(doorsToClose := c.position, schedule := c.schedule + [CloseTimer(c.clock)]),
           [LightsOff(c.position), OpenDoors(c.position), PlaySound], true)
    else if !(1 <= i <= NumFloors) then Step(c, [CloseAllDoors], false)
    else
      Step(c.(position := i, doorsToClose := i, lightsToTurnOff := i, events := c.events + [ArrivalEvent(i)]),
           [CloseAllDoors, PistonsTo(FloorLocations[i - 1])], true)
  }

  /** `processRequests` on the state. */
  function ServeStep(c: Cabin): Step
  {
    if c.ready && |c.queue| > 0 then
      CallFloorStep(c.(queue := c.queue[1..], lastRequest := c.queue[0], ready := false), c.queue[0])
    else Step(c, [], true)
  }

  /** The callback of a fired timer. */
  function TimerStep(c: Cabin, action: EasyApi.ActionId): Step
  {
    if action == ProcessRequestsAction then ServeStep(c)
    else if action == CloseDoorsAction then Step(c.(ready := true), [CloseDoors(c.doorsToClose)], true)
    else Step(c, [], true)
  }

  /** `arrivedAtFloor` on the state. */
  function ArrivalStep(c: Cabin): Step
  {
    Step(c.(schedule := c.schedule + [CloseTimer(c.clock)]),
         [LightsOff(c.lightsToTurnOff), OpenDoors(c.doorsToClose), PlaySound], true)
  }

  /** The callback of an event whose condition held: `moveToBottomInit` for
      the start-up event, `arrivedAtFloor` for the others. */
  function EventStep(c: Cabin, e: EasyApi.EasyEvent): Step
  {
    if e == BottomEvent then Step(c.(position := 1, ready := true), [], true)
    else ArrivalStep(c)
  }

  /** The event callbacks, in order. */
  function OnEvents(c: Cabin, es: seq<EasyApi.EasyEvent>): (s: Step)
    ensures s.ok
  {
    if es == [] then Step(c, [], true)
    else
      var s := OnEvents(c, es[..|es| - 1]);
      var t := EventStep(s.cabin, es[|es| - 1]);
      Step(t.cabin, s.cmds + t.cmds, true)
  }

  /** The timer callbacks, in order, until one faults. */
  function OnTimers(c: Cabin, ts: seq<EasyApi.EasyInterval>): Step
  {
    if ts == [] then Step(c, [], true)
    else
      var s := OnTimers(c, ts[..|ts| - 1]);
      if !s.ok then s
      else
        var t := TimerStep(s.cabin, ts[|ts| - 1].action);
        Step(t.cabin, s.cmds + t.cmds, t.ok)
  }

  /** Once a timer callback has faulted, later timers change nothing. */
  lemma {:induction false} OnTimersStopped(c: Cabin, ts: seq<EasyApi.EasyInterval>, more: seq<EasyApi.EasyInterval>)
    requires !OnTimers(c, ts).ok
    ensures OnTimers(c, ts + more) == OnTimers(c, ts)
    decreases |more|
  {
    if more == [] {
      assert ts + more == ts;
    } else {
      var init := more[..|more| - 1];
      OnTimersStopped(c, ts, init);
      assert (ts + more)[..|ts + more| - 1] == ts + init;
    }
  }

  /** The argument part of `Main` on the state. */
  function Request(c: Cabin, argument: string): Step
  {
    if argument == [] then Step(c, [], true)
    else
      match ParseInt(argument)
      case None => Step(c, [], false)
      case Some(floor) =>
        if Admit(c.queue, c.ready, c.lastRequest, floor) then
          Step(c.(queue := c.queue + [floor]), if floor != -1 then [LightsOnNamed(argument)] else [], true)
        else Step(c, [], true)
  }

  /** A tick that runs: the clock moves to `now`, the events whose
      condition holds and the due timers leave their lists, and their
      callbacks run, events first, then the due intervals, then the due
      one-shot timers. */
  function RunningTick(c: Cabin, intervals: seq<EasyApi.EasyInterval>, now: int, arrived: set<nat>): Step
  {
    var swept := c.(clock := now,
                    events := EasyApi.Filter(c.events, EasyApi.EventKeeper(arrived, {})),
                    schedule := EasyApi.Filter(c.schedule, EasyApi.WaitingAt(now)));
    var e := OnEvents(swept, EasyApi.Filter(c.events, EasyApi.TriggeredBy(arrived)));
    var t := OnTimers(e.cabin, EasyApi.Filter(intervals, EasyApi.DueAt(now)) + EasyApi.Filter(c.schedule, EasyApi.DueAt(now)));
    Step(t.cabin, e.cmds + t.cmds, t.ok)
  }

  /** The states the controller reaches: one request-processor interval, and
      at most one thing pending, the start-up or an arrival event or the
      door-closing timer, and nothing at all while the elevator is ready. */
  predicate Settled(c: Cabin, intervals: seq<EasyApi.EasyInterval>)
  {
    |intervals| == 1 && intervals[0].action == ProcessRequestsAction && Quiet(c)
  }

  predicate Quiet(c: Cabin)
  {
    && |c.events| + |c.schedule| <= 1
    && (c.ready ==> c.events == [] && c.schedule == [])
    && (forall t :: t in c.schedule ==> t.action == CloseDoorsAction)
  }

  lemma FilterOne<T>(x: T, keep: T -> bool)
    ensures EasyApi.Filter([x], keep) == if keep(x) then [x] else []
  {
    assert [x][..0] == [];
  }

  lemma OnEventsOne(c: Cabin, e: EasyApi.EasyEvent)
    ensures OnEvents(c, [e]) == EventStep(c, e)
  {
    assert [e][..0] == [];
  }

  lemma OnTimersOne(c: Cabin, a: EasyApi.EasyInterval)
    ensures OnTimers(c, [a]) == TimerStep(c, a.action)
  {
    assert [a][..0] == [];
  }

  lemma OnTimersTwo(c: Cabin, a: EasyApi.EasyInterval, b: EasyApi.EasyInterval)
    ensures var s := TimerStep(c, a.action);
            OnTimers(c, [a, b]) == if !s.ok then s
                                   else Step(TimerStep(s.cabin, b.action).cabin, s.cmds + TimerStep(s.cabin, b.action).cmds,
                                             TimerStep(s.cabin, b.action).ok)
  {
    assert [a, b][..1] == [a];
    OnTimersOne(c, a);
  }

  /** The intervals due at a tick of a settled controller: the request
      processor or nothing. */
  lemma DueProcessor(intervals: seq<EasyApi.EasyInterval>, now: int)
    requires |intervals| == 1
    ensures EasyApi.Filter(intervals, EasyApi.DueAt(now)) == if now >= intervals[0].time then [intervals[0]] else []
  {
    assert intervals == [intervals[0]];
    FilterOne(intervals[0], EasyApi.DueAt(now));
  }

  /** A tick of a ready elevator whose request processor is due starts the
      oldest request: it leaves the queue, is recorded as served, and the
      doors open where the cabin is, or the cabin travels with an arrival
      event, or a floor outside 1 to 4 faults. */
  lemma ReadyTickServesOldest(c: Cabin, intervals: seq<EasyApi.EasyInterval>, now: int, arrived: set<nat>)
    requires Settled(c, intervals) && c.ready && c.queue != [] && now >= intervals[0].time
    ensures var t := RunningTick(c, intervals, now, arrived);
            var floor := c.queue[0];
            && t.cabin.queue == c.queue[1..] && t.cabin.lastRequest == floor && !t.cabin.ready
            && (t.ok <==> floor == c.position || floor == -1 || 1 <= floor <= NumFloors)
            && ((floor == c.position || floor == -1) ==>
                  t.cmds == [LightsOff(c.position), OpenDoors(c.position), PlaySound] &&
                  t.cabin.events == [] && t.cabin.schedule == [CloseTimer(now)])
            && (floor != c.position && floor != -1 && 1 <= floor <= NumFloors ==>
                  t.cmds == [CloseAllDoors, PistonsTo(FloorLocations[floor - 1])] && t.cabin.position == floor &&
                  t.cabin.events == [ArrivalEvent(floor)] && t.cabin.schedule == [])
            && (!t.ok ==> t.cmds == [CloseAllDoors] && t.cabin.events == [] && t.cabin.schedule == [])
  {
    DueProcessor(intervals, now);
    var swept := c.(clock := now);
    assert OnEvents(swept, []) == Step(swept, [], true);
    OnTimersOne(swept, intervals[0]);
    assert RunningTick(c, intervals, now, arrived) == ServeStep(swept);
  }

  /** A tick before the request processor is due changes nothing but the
      clock for a ready elevator. */
  lemma ReadyTickWaits(c: Cabin, intervals: seq<EasyApi.EasyInterval>, now: int, arrived: set<nat>)
    requires Settled(c, intervals) && c.ready && now < intervals[0].time
    ensures RunningTick(c, intervals, now, arrived) == Step(c.(clock := now), [], true)
  {
    DueProcessor(intervals, now);
  }

  /** When the pistons reach the destination, the lights go off, the doors
      open and the close timer is set seven seconds on; the elevator stays
      busy and the queue is untouched. */
  lemma ArrivalOpensDoors(c: Cabin, intervals: seq<EasyApi.EasyInterval>, now: int, arrived: set<nat>, i: int)
    requires Settled(c, intervals) && 1 <= i <= NumFloors && c.events == [ArrivalEvent(i)] && i in arrived
    ensures var t := RunningTick(c, intervals, now, arrived);
            && t.ok && !t.cabin.ready && t.cabin.queue == c.queue && t.cabin.lastRequest == c.lastRequest
            && t.cmds == [LightsOff(c.lightsToTurnOff), OpenDoors(c.doorsToClose), PlaySound]
            && t.cabin.events == [] && t.cabin.schedule == [CloseTimer(now)]
  {
    var e := ArrivalEvent(i);
    FilterOne(e, EasyApi.EventKeeper(arrived, {}));
    FilterOne(e, EasyApi.TriggeredBy(arrived));
    DueProcessor(intervals, now);
    var swept := c.(clock := now, events := []);
    OnEventsOne(swept, e);
    var after := EventStep(swept, e);
    assert !after.cabin.ready;
    if now >= intervals[0].time {
      OnTimersOne(after.cabin, intervals[0]);
    }
  }

  /** When the close timer is due the doors close and the elevator becomes
      ready; the queue waits for the next tick. */
  lemma DoorsCloseWhenDue(c: Cabin, intervals: seq<EasyApi.EasyInterval>, now: int, arrived: set<nat>)
    requires Settled(c, intervals) && |c.schedule| == 1 && now >= c.schedule[0].time
    ensures var t := RunningTick(c, intervals, now, arrived);
            && t.ok && t.cabin.ready && t.cmds == [CloseDoors(c.doorsToClose)]
            && t.cabin.queue == c.queue && t.cabin.lastRequest == c.lastRequest
            && t.cabin.events == [] && t.cabin.schedule == []
  {
    var tm := c.schedule[0];
    assert c.schedule == [tm];
    assert tm in c.schedule;
    FilterOne(tm, EasyApi.WaitingAt(now));
    FilterOne(tm, EasyApi.DueAt(now));
    DueProcessor(intervals, now);
    var swept := c.(clock := now, schedule := []);
    assert OnEvents(swept, []) == Step(swept, [], true);
    if now >= intervals[0].time {
      OnTimersTwo(swept, intervals[0], tm);
      assert TimerStep(swept, intervals[0].action) == Step(swept, [], true);
      assert OnTimers(swept, [intervals[0], tm]) == Step(swept.(ready := true), [CloseDoors(c.doorsToClose)], true);
      assert [intervals[0]] + [tm] == [intervals[0], tm];
    } else {
      OnTimersOne(swept, tm);
    }
  }

  /** Serving a request from a quiet state keeps it quiet, only appends to
      the timers, and adds at most one entry, and that only when ready. */
  lemma ServeKeepsQuiet(c: Cabin)
    requires Quiet(c)
    ensures var r := ServeStep(c).cabin;
            && Quiet(r) && c.schedule <= r.schedule
            && |r.schedule| <= |c.schedule| + (if c.ready then 1 else 0)
  {
  }

  /** What a tick must keep: settled, and the timers the source's timer loop
      goes over, those waiting at the start of the tick and those the
      callbacks add before that loop, are at most one. */
  predicate TickSettles(c: Cabin, intervals: seq<EasyApi.EasyInterval>, now: int, arrived: set<nat>)
  {
    var r := RunningTick(c, intervals, now, arrived).cabin;
    var waiting := EasyApi.Filter(c.schedule, EasyApi.WaitingAt(now));
    && Quiet(r)
    && waiting <= r.schedule && |c.schedule| + |r.schedule| - |waiting| <= 1
  }

  lemma TickFromIdle(c: Cabin, intervals: seq<EasyApi.EasyInterval>, now: int, arrived: set<nat>)
    requires Settled(c, intervals) && c.events == [] && c.schedule == []
    ensures TickSettles(c, intervals, now, arrived)
  {
    DueProcessor(intervals, now);
    var swept := c.(clock := now);
    assert OnEvents(swept, []) == Step(swept, [], true);
    if now >= intervals[0].time {
      OnTimersOne(swept, intervals[0]);
      ServeKeepsQuiet(swept);
    }
  }

  lemma TickEventFires(c: Cabin, intervals: seq<EasyApi.EasyInterval>, now: int, arrived: set<nat>)
    requires Settled(c, intervals) && c.events != [] && c.events[0].id in arrived
    ensures TickSettles(c, intervals, now, arrived)
  {
    DueProcessor(intervals, now);
    var ev := c.events[0];
    assert c.events == [ev] && c.schedule == [] && !c.ready;
    FilterOne(ev, EasyApi.EventKeeper(arrived, {}));
    FilterOne(ev, EasyApi.TriggeredBy(arrived));
    var swept := c.(clock := now, events := []);
    OnEventsOne(swept, ev);
    var after := EventStep(swept, ev).cabin;
    var r := RunningTick(c, intervals, now, arrived).cabin;
    if now >= intervals[0].time {
      OnTimersOne(after, intervals[0]);
      assert r == ServeStep(after).cabin;
      ServeKeepsQuiet(after);
    } else {
      assert r == after;
    }
  }

  lemma TickEventWaits(c: Cabin, intervals: seq<EasyApi.EasyInterval>, now: int, arrived: set<nat>)
    requires Settled(c, intervals) && c.events != [] && c.events[0].id !in arrived
    ensures TickSettles(c, intervals, now, arrived)
  {
    DueProcessor(intervals, now);
    var ev := c.events[0];
    assert c.events == [ev] && c.schedule == [] && !c.ready;
    FilterOne(ev, EasyApi.EventKeeper(arrived, {}));
    FilterOne(ev, EasyApi.TriggeredBy(arrived));
    var swept := c.(clock := now);
    assert OnEvents(swept, []) == Step(swept, [], true);
    if now >= intervals[0].time {
      OnTimersOne(swept, intervals[0]);
    }
    assert RunningTick(c, intervals, now, arrived).cabin == swept;
  }

  lemma TickWithTimer(c: Cabin, intervals: seq<EasyApi.EasyInterval>, now: int, arrived: set<nat>)
    requires Settled(c, intervals) && c.schedule != []
    ensures TickSettles(c, intervals, now, arrived)
  {
    DueProcessor(intervals, now);
    var tm := c.schedule[0];
    assert c.schedule == [tm] && c.events == [] && !c.ready;
    assert tm in c.schedule;
    FilterOne(tm, EasyApi.WaitingAt(now));
    FilterOne(tm, EasyApi.DueAt(now));
    var r := RunningTick(c, intervals, now, arrived).cabin;
    if now >= tm.time {
      var swept := c.(clock := now, schedule := []);
      assert OnEvents(swept, []) == Step(swept, [], true);
      if now >= intervals[0].time {
        OnTimersTwo(swept, intervals[0], tm);
        assert [intervals[0]] + [tm] == [intervals[0], tm];
      } else {
        OnTimersOne(swept, tm);
      }
      assert r == swept.(ready := true);
    } else {
      var swept := c.(clock := now);
      assert OnEvents(swept, []) == Step(swept, [], true);
      if now >= intervals[0].time {
        OnTimersOne(swept, intervals[0]);
      }
      assert r == swept;
    }
  }

  /** A running tick keeps a settled controller settled, and the timers the
      source's timer loop goes over are at most one. */
  lemma TickKeepsSettled(c: Cabin, intervals: seq<EasyApi.EasyInterval>, now: int, arrived: set<nat>)
    requires Settled(c, intervals)
    ensures Settled(RunningTick(c, intervals, now, arrived).cabin, EasyApi.Rescheduled(intervals, now))
    ensures var r := RunningTick(c, intervals, now, arrived).cabin;
            var waiting := EasyApi.Filter(c.schedule, EasyApi.WaitingAt(now));
            waiting <= r.schedule && |c.schedule| + |r.schedule| - |waiting| <= 1
  {
    assert EasyApi.Rescheduled(intervals, now)[0] == EasyApi.Reschedule(intervals[0], now);
    if c.events != [] && c.events[0].id in arrived {
      TickEventFires(c, intervals, now, arrived);
    } else if c.events != [] {
      TickEventWaits(c, intervals, now, arrived);
    } else if c.schedule != [] {
      TickWithTimer(c, intervals, now, arrived);
    } else {
      TickFromIdle(c, intervals, now, arrived);
    }
  }

  /** On a list of at most one entry the source's forward removal loop and
      the corrected sweep agree: the entry is visited, and kept exactly when
      it passes. */
  lemma SweepAgreesOnOne<T>(xs: seq<T>, keep: T -> bool)
    requires |xs| <= 1
    ensures EasyApi.SweepAsWritten(xs, 0, keep) == EasyApi.Sweep(EasyApi.Filter(xs, keep), xs)
  {
    if xs != [] {
      FilterOne(xs[0], keep);
      assert xs == [xs[0]];
      assert RemoveFirst(xs, xs[0]) == [];
    }
  }

  // ---------------------------------------------------------------------
  // The controller
  // ---------------------------------------------------------------------

  class ElevatorController {
    var api: EasyApi.EasyAPI
    var floorRequests: seq<int>
    var lastRequest: int
    var ready: bool
    var elevatorPosition: int
    /** The floor whose doors (with the cabin door) close next. */
    var doorsToClose: int
    /** The floor whose indicator lights go off on arrival. */
    var floorLightsToTurnOff: int

    /** No floor waits twice, and the floor being served does not wait. */
    ghost predicate Valid()
      reads this
    {
      Distinct(floorRequests) && (!ready ==> lastRequest !in floorRequests)
    }

    /** The fields and the scheduler lists the callbacks change. */
    function Snapshot(): Cabin
      reads this, api
    {
      Cabin(floorRequests, lastRequest, ready, elevatorPosition, doorsToClose, floorLightsToTurnOff,
            api.clock, api.events, api.schedule)
    }

    /** Not ready and at no floor until the start-up event; the request
        processor is registered to repeat every tick unit (`Every(1, ..)`). */
    constructor (now: int)
      ensures Valid() && fresh(api)
      ensures !ready && elevatorPosition == 0 && floorRequests == [] && lastRequest == 0
      ensures api.intervals == [EasyApi.EasyInterval(now + 1, 1, ProcessRequestsAction)]
      ensures api.events == [BottomEvent] && api.schedule == []
      ensures Settled(Snapshot(), api.intervals)
    {
      floorRequests := [];
      lastRequest := 0;
      ready := false;
      elevatorPosition := 0;
      doorsToClose := 0;
      floorLightsToTurnOff := 0;
      var a := new EasyApi.EasyAPI(now);
      a.Every(1, ProcessRequestsAction);
      a.AddEvent(BottomEvent);
      api := a;
    }

    /** `callFloor`: at the current floor (or for `-1`) the doors open and
        close later; otherwise the cabin travels to floor `i` and an arrival
        event is registered. A floor outside 1 to 4 faults. */
    method CallFloor(i: int) returns (cmds: seq<Command>, ok: bool)
      requires Valid()
      modifies this, api
      ensures Valid() && api == old(api)
      ensures floorRequests == old(floorRequests) && ready == old(ready) && lastRequest == old(lastRequest)
      ensures api.clock == old(api.clock) && api.start == old(api.start) && api.intervals == old(api.intervals)
      ensures ok <==> i == old(elevatorPosition) || i == -1 || 1 <= i <= NumFloors
      ensures (i == old(elevatorPosition) || i == -1) ==>
                elevatorPosition == old(elevatorPosition) && doorsToClose == elevatorPosition &&
                cmds == [LightsOff(elevatorPosition), OpenDoors(elevatorPosition), PlaySound] &&
                api.events == old(api.events) &&
                api.schedule == old(api.schedule) + [EasyApi.EasyInterval(api.clock + NumSecondsToHoldDoorOpen * EasyApi.Seconds, 0, CloseDoorsAction)]
      ensures i != old(elevatorPosition) && i != -1 && 1 <= i <= NumFloors ==>
                elevatorPosition == i && doorsToClose == i && floorLightsToTurnOff == i &&
                cmds == [CloseAllDoors, PistonsTo(FloorLocations[i - 1])] &&
                api.events == old(api.events) + [ArrivalEvent(i)] && api.schedule == old(api.schedule)
      ensures !ok ==> elevatorPosition == old(elevatorPosition) && cmds == [CloseAllDoors] &&
                      api.events == old(api.events) && api.schedule == old(api.schedule)
      ensures Step(Snapshot(), cmds, ok) == CallFloorStep(old(Snapshot()), i)
    {
      if elevatorPosition == i || i == -1 {
        cmds := [LightsOff(elevatorPosition), OpenDoors(elevatorPosition), PlaySound];
        doorsToClose := elevatorPosition;
        api.In(NumSecondsToHoldDoorOpen * EasyApi.Seconds, CloseDoorsAction);
        return cmds, true;
      }
      cmds := [CloseAllDoors];
      if !(1 <= i <= NumFloors) {
        return cmds, false;
      }
      var desiredPistonDistance := FloorLocations[i - 1];
      cmds := cmds + [PistonsTo(desiredPistonDistance)];
      floorLightsToTurnOff := i;
      doorsToClose := i;
      elevatorPosition := i;
      api.AddEvent(ArrivalEvent(i));
      ok := true;
    }

    /** `arrivedAtFloor`: lights off, doors open, a close timer in seven
        seconds; the event is then dropped. */
    method ArrivedAtFloor() returns (stay: bool, cmds: seq<Command>)
      requires Valid()
      modifies api
      ensures Valid() && !stay
      ensures cmds == [LightsOff(floorLightsToTurnOff), OpenDoors(doorsToClose), PlaySound]
      ensures api.clock == old(api.clock) && api.start == old(api.start)
      ensures api.events == old(api.events) && api.intervals == old(api.intervals)
      ensures api.schedule == old(api.schedule) + [EasyApi.EasyInterval(api.clock + NumSecondsToHoldDoorOpen * EasyApi.Seconds, 0, CloseDoorsAction)]
      ensures Step(Snapshot(), cmds, true) == ArrivalStep(old(Snapshot()))
    {
      cmds := [LightsOff(floorLightsToTurnOff), OpenDoors(doorsToClose), PlaySound];
      api.In(NumSecondsToHoldDoorOpen * EasyApi.Seconds, CloseDoorsAction);
      stay := false;
    }

    /** `closeDoorsDelayed`: the doors close and the next request may start. */
    method CloseDoorsDelayed() returns (cmds: seq<Command>)
      requires Valid()
      modifies this
      ensures Valid() && ready
      ensures cmds == [CloseDoors(doorsToClose)]
      ensures floorRequests == old(floorRequests) && lastRequest == old(lastRequest) && api == old(api)
      ensures elevatorPosition == old(elevatorPosition) && doorsToClose == old(doorsToClose)
      ensures floorLightsToTurnOff == old(floorLightsToTurnOff)
    {
      cmds := [CloseDoors(doorsToClose)];
      ready := true;
    }

    /** `moveToBottomInit`: the cabin is at floor 1 and ready; the start-up
        event is then dropped. */
    method MoveToBottomInit() returns (stay: bool)
      requires Valid()
      modifies this
      ensures Valid() && ready && elevatorPosition == 1 && !stay
      ensures floorRequests == old(floorRequests) && lastRequest == old(lastRequest) && api == old(api)
      ensures doorsToClose == old(doorsToClose) && floorLightsToTurnOff == old(floorLightsToTurnOff)
    {
      elevatorPosition := 1;
      ready := true;
      stay := false;
    }

    /** `processRequests`: when ready, the oldest request is taken off the
        queue, recorded as served, and started; otherwise nothing happens. */
    method ProcessRequests() returns (cmds: seq<Command>, ok: bool)
      requires Valid()
      modifies this, api
      ensures Valid() && api == old(api)
      ensures api.clock == old(api.clock) && api.start == old(api.start) && api.intervals == old(api.intervals)
      ensures !(old(ready) && |old(floorRequests)| > 0) ==>
                ok && cmds == [] && floorRequests == old(floorRequests) && ready == old(ready) &&
                lastRequest == old(lastRequest) && elevatorPosition == old(elevatorPosition) &&
                api.events == old(api.events) && api.schedule == old(api.schedule)
      ensures old(ready) && |old(floorRequests)| > 0 ==>
                floorRequests == old(floorRequests)[1..] && lastRequest == old(floorRequests)[0] && !ready &&
                (ok <==> lastRequest == old(elevatorPosition) || lastRequest == -1 || 1 <= lastRequest <= NumFloors)
      ensures Step(Snapshot(), cmds, ok) == ServeStep(old(Snapshot()))
    {
      if |floorRequests| > 0 && ready {
        var floor := floorRequests[0];
        floorRequests := floorRequests[1..];
        lastRequest := floor;
        ready := false;
        assert Valid();
        cmds, ok := CallFloor(floor);
      } else {
        cmds, ok := [], true;
      }
    }

    /** The request part of `Main`: a non-empty argument must be an integer
        and is queued under the `Admit` rule; floors other than `-1` light
        their indicator. A malformed argument faults. */
    method HandleArgument(argument: string) returns (cmds: seq<Command>, ok: bool)
      requires Valid()
      modifies this
      ensures Valid()
      ensures ready == old(ready) && lastRequest == old(lastRequest) && api == old(api)
      ensures elevatorPosition == old(elevatorPosition) && doorsToClose == old(doorsToClose)
      ensures floorLightsToTurnOff == old(floorLightsToTurnOff)
      ensures ok <==> argument == [] || ParseInt(argument).Some?
      ensures !ok || argument == [] ==> floorRequests == old(floorRequests) && cmds == []
      ensures ok && argument != [] ==>
                var floor := ParseInt(argument).value;
                floorRequests == old(floorRequests) + (if Admit(old(floorRequests), ready, lastRequest, floor) then [floor] else []) &&
                cmds == (if Admit(old(floorRequests), ready, lastRequest, floor) && floor != -1 then [LightsOnNamed(argument)] else [])
      ensures Step(Snapshot(), cmds, ok) == Request(old(Snapshot()), argument)
    {
      cmds, ok := [], true;
      if |argument| > 0 {
        var parsed := ParseInt(argument);
        if parsed.None? {
          return [], false;
        }
        var floorNum := parsed.value;
        if !(floorNum in floorRequests || (!ready && lastRequest == floorNum)) {
          AdmitKeepsQueue(floorRequests, ready, lastRequest, floorNum);
          floorRequests := floorRequests + [floorNum];
          if floorNum != -1 {
            cmds := [LightsOnNamed(argument)];
          }
        }
      }
    }

    /** Runs one callback the scheduler reported. */
    method Dispatch(action: EasyApi.ActionId) returns (cmds: seq<Command>, ok: bool)
      requires Valid()
      modifies this, api
      ensures Valid() && api == old(api) && api.clock == old(api.clock) && api.start == old(api.start)
      ensures action == ProcessRequestsAction && old(ready) && |old(floorRequests)| > 0 ==>
                floorRequests == old(floorRequests)[1..] && lastRequest == old(floorRequests)[0] && !ready
      ensures action == ProcessRequestsAction && !(old(ready) && |old(floorRequests)| > 0) ==>
                ok && cmds == [] && floorRequests == old(floorRequests) && ready == old(ready)
      ensures action == CloseDoorsAction ==>
                ok && ready && cmds == [CloseDoors(old(doorsToClose))] && floorRequests == old(floorRequests)
      ensures action != ProcessRequestsAction && action != CloseDoorsAction ==>
                ok && cmds == [] && unchanged(this) && unchanged(api)
      ensures api.intervals == old(api.intervals)
      ensures Step(Snapshot(), cmds, ok) == TimerStep(old(Snapshot()), action)
    {
      if action == ProcessRequestsAction {
        cmds, ok := ProcessRequests();
      } else if action == CloseDoorsAction {
        cmds := CloseDoorsDelayed();
        ok := true;
      } else {
        cmds, ok := [], true;
      }
    }

    /** The callbacks of the events whose condition held, in order: the
        start-up event runs `moveToBottomInit`, the others `arrivedAtFloor`. */
    method DispatchEvents(notified: seq<EasyApi.EasyEvent>) returns (cmds: seq<Command>)
      requires Valid()
      modifies this, api
      ensures Valid() && api == old(api) && api.start == old(api.start) && api.intervals == old(api.intervals)
      ensures Snapshot() == OnEvents(old(Snapshot()), notified).cabin
      ensures cmds == OnEvents(old(Snapshot()), notified).cmds
    {
      ghost var c0 := Snapshot();
      cmds := [];
      var n := 0;
      while n < |notified|
        invariant Valid() && api == old(api) && api.start == old(api.start) && api.intervals == old(api.intervals)
        invariant 0 <= n <= |notified|
        invariant Snapshot() == OnEvents(c0, notified[..n]).cabin
        invariant cmds == OnEvents(c0, notified[..n]).cmds
      {
        assert notified[..n + 1][..n] == notified[..n];
        ghost var before := Snapshot();
        var more: seq<Command>;
        var stay: bool;
        if notified[n] == BottomEvent {
          stay := MoveToBottomInit();
          more := [];
        } else {
          stay, more := ArrivedAtFloor();
        }
        assert Snapshot() == EventStep(before, notified[n]).cabin;
        cmds := cmds + more;
        n := n + 1;
      }
      assert notified[..n] == notified;
    }

    /** The callbacks of the due timers, in order, until one faults. */
    method DispatchTimers(calls: seq<EasyApi.EasyInterval>) returns (cmds: seq<Command>, ok: bool)
      requires Valid()
      modifies this, api
      ensures Valid() && api == old(api) && api.start == old(api.start) && api.intervals == old(api.intervals)
      ensures Snapshot() == OnTimers(old(Snapshot()), calls).cabin
      ensures cmds == OnTimers(old(Snapshot()), calls).cmds && ok == OnTimers(old(Snapshot()), calls).ok
    {
      ghost var c0 := Snapshot();
      cmds, ok := [], true;
      var n := 0;
      while n < |calls|
        invariant Valid() && api == old(api) && api.start == old(api.start) && api.intervals == old(api.intervals)
        invariant 0 <= n <= |calls| && ok
        invariant OnTimers(c0, calls[..n]) == Step(Snapshot(), cmds, true)
      {
        assert calls[..n + 1][..n] == calls[..n];
        ghost var before := Snapshot();
        var more: seq<Command>;
        more, ok := Dispatch(calls[n].action);
        assert Step(Snapshot(), more, ok) == TimerStep(before, calls[n].action);
        cmds := cmds + more;
        if !ok {
          OnTimersStopped(c0, calls[..n + 1], calls[n + 1..]);
          assert calls[..n + 1] + calls[n + 1..] == calls;
          return;
        }
        n := n + 1;
      }
      assert calls[..n] == calls;
    }

    /** The scheduler's tick with a 100 ms minimum spacing, followed by the
        callbacks it reports; `arrived` holds the events whose piston
        condition holds. Both event callbacks answer false, so every
        triggered event leaves the list. */
    method TickOnce(argument: string, now: int, arrived: set<nat>) returns (cmds: seq<Command>, ok: bool)
      requires Valid()
      modifies this, api
      ensures Valid() && api == old(api) && api.start == old(api.start)
      ensures EasyApi.Throttled(old(api.clock), old(api.start), now, TickSpacing) ==>
                && ok && cmds == [] && Snapshot() == old(Snapshot())
                && api.interTickRunCount == old(api.interTickRunCount) + 1 && api.intervals == old(api.intervals)
      ensures !EasyApi.Throttled(old(api.clock), old(api.start), now, TickSpacing) ==>
                var t := RunningTick(old(Snapshot()), old(api.intervals), now, arrived);
                && Snapshot() == t.cabin && cmds == t.cmds && ok == t.ok
                && api.intervals == EasyApi.Rescheduled(old(api.intervals), now)
      ensures Settled(old(Snapshot()), old(api.intervals)) ==> Settled(Snapshot(), api.intervals)
    {
      ghost var c0 := Snapshot();
      ghost var i0 := api.intervals;
      var ran, argCalls, notified, timerCalls := api.Tick(TickSpacing, argument, now, arrived, {}, false, false);
      if !ran {
        return [], true;
      }
      assert Snapshot() == c0.(clock := now,
                               events := EasyApi.Filter(c0.events, EasyApi.EventKeeper(arrived, {})),
                               schedule := EasyApi.Filter(c0.schedule, EasyApi.WaitingAt(now)));
      if Settled(c0, i0) {
        TickKeepsSettled(c0, i0, now, arrived);
      }
      var moreEvents := DispatchEvents(notified);
      var moreTimers;
      moreTimers, ok := DispatchTimers(timerCalls);
      cmds := moreEvents + moreTimers;
    }

    /** `Main`: the argument is handled, then the scheduler ticks. A fault
        stops the run. */
    method Run(argument: string, now: int, arrived: set<nat>) returns (cmds: seq<Command>, ok: bool)
      requires Valid()
      modifies this, api
      ensures Valid() && api == old(api) && api.start == old(api.start)
      ensures argument != [] && ParseInt(argument).None? ==>
                !ok && cmds == [] && Snapshot() == old(Snapshot()) && unchanged(api)
      ensures (argument == [] || ParseInt(argument).Some?) && EasyApi.Throttled(old(api.clock), old(api.start), now, TickSpacing) ==>
                var r := Request(old(Snapshot()), argument);
                && ok && Snapshot() == r.cabin && cmds == r.cmds
                && api.interTickRunCount == old(api.interTickRunCount) + 1 && api.intervals == old(api.intervals)
      ensures (argument == [] || ParseInt(argument).Some?) && !EasyApi.Throttled(old(api.clock), old(api.start), now, TickSpacing) ==>
                var r := Request(old(Snapshot()), argument);
                var t := RunningTick(r.cabin, old(api.intervals), now, arrived);
                && Snapshot() == t.cabin && cmds == r.cmds + t.cmds && ok == t.ok
                && api.intervals == EasyApi.Rescheduled(old(api.intervals), now)
      ensures Settled(old(Snapshot()), old(api.intervals)) ==> Settled(Snapshot(), api.intervals)
    {
      cmds, ok := HandleArgument(argument);
      if !ok {
        return;
      }
      var more;
      more, ok := TickOnce(argument, now, arrived);
      cmds := cmds + more;
    }
  }
}

=== FILE: hangar2.dfy ===
/** The hangar ticket scheduler of `Hangar2.cs`.

    A `HangarController` keeps a list of tickets. Each call of `MainLoop`
    (one per second, driven by a timer block) scans the list from the last
    ticket to the first. Immediate tickets are dispatched on their action
    name; timed tickets count down and then turn into their follow-on
    tickets. Door open ratios and vent oxygen levels are readings supplied by
    the caller, and the device commands a pass issues are returned in order.

    A group whose name was not found on the grid at construction has no
    device lists; a ticket that touches its devices throws, which ends the
    pass (`fault`). So does `checkPressurize` on a group without air vents. */
module Hangar2 {
  import opened Text

  const NumberSecondsBeforeOpen: int := 10
  const NumberSecondsBeforeClose: int := 5

  /** The configured group names; position in this list is the group number. */
  const DefaultGroups: seq<string> := ["Hangar", "Garage", "Workshop"]
  const NumGroups: int := 3

  /** A group number: a position in `DefaultGroups`. Tickets only ever carry
      positions returned by `IndexOf` on that list. */
  type GroupId = g: int | 0 <= g < NumGroups

  /** Oxygen level above which `checkPressurize` reports success. */
  const PressurizedLevel: real := 0.99

  /** The action names a ticket can carry. Every ticket is created by the
      script itself with one of these literal names. */
  datatype Act =
    | Toggle | Open | Close
    | CheckPressurize | LockExteriorDoors | LockInterior
    | OpenDelay | OpenDelay2
    | CloseDelay | LockInteriorDelay

  datatype Ticket = Ticket(groupNum: GroupId, action: Act, timed: bool, timeRemaining: int)

  /** `new requestTicket(group, act)`: the defaults make it immediate. */
  function Immediate(g: GroupId, a: Act): Ticket
  {
    Ticket(g, a, false, 0)
  }

  function Timed(g: GroupId, a: Act, time: int): Ticket
  {
    Ticket(g, a, true, time)
  }

  /** The block lists kept per group. */
  datatype Device = HangarDoors | InteriorDoors | ExteriorDoors | WarningLights | SoundBlocks

  datatype Action = OnOffOn | OnOffOff | OpenOn | OpenOff

  datatype Command =
      /** the action applied to every block of that list of the group */
    | Each(group: int, device: Device, action: Action)
      /** every sound block of the group: loop length set, then `PlaySound` */
    | Alarm(group: int, seconds: int)
      /** the action applied to one door of that list */
    | DoorCmd(group: int, device: Device, index: nat, action: Action)

  /** What the devices of one group report during a pass. */
  datatype Readings = Readings(interiorOpenRatios: seq<real>, exteriorOpenRatios: seq<real>, ventOxygen: seq<real>)

  /** One entry per group: the open flags, whether the group was found on
      the grid, and the readings of its devices. */
  predicate Fits(open: seq<bool>, disc: seq<bool>, env: seq<Readings>)
  {
    |open| == NumGroups && |disc| == NumGroups && |env| == NumGroups
  }

  /** The effect of processing one ticket. */
  datatype Step = Step(reqs: seq<Ticket>, open: seq<bool>, cmds: seq<Command>, fault: bool)

  /** The effect of a whole pass; `visited` lists the tickets handled, in order. */
  datatype Pass = Pass(reqs: seq<Ticket>, open: seq<bool>, cmds: seq<Command>, visited: seq<Ticket>, fault: bool)

  function RemoveAt<T>(s: seq<T>, i: nat): seq<T>
    requires i < |s|
  {
    s[..i] + s[i + 1..]
  }

  /** A door is closed when its open ratio is 0. */
  predicate AllClosed(ratios: seq<real>)
  {
    forall k :: 0 <= k < |ratios| ==> ratios[k] == 0.0
  }

  /** The per-door commands of a lock check: close a door still open, power off a closed one. */
  function LockCommands(g: int, dev: Device, ratios: seq<real>): seq<Command>
  {
    seq(|ratios|, k requires 0 <= k < |ratios| => DoorCmd(g, dev, k, if ratios[k] != 0.0 then OpenOff else OnOffOff))
  }

  function Fault(reqs: seq<Ticket>, open: seq<bool>): Step
  {
    Step(reqs, open, [], true)
  }

  /** Removing the ticket at `i` and appending `added`: the tickets below `i`
      stay where they are. */
  function Requeue(reqs: seq<Ticket>, i: nat, added: seq<Ticket>): (r: seq<Ticket>)
    requires i < |reqs|
    ensures |r| == |reqs| - 1 + |added|
  {
    RemoveAt(reqs, i) + added
  }

  /** What a step may do to the list and the flags: keep the tickets below
      `i` in place and the number of flags, and leave everything alone when
      it faults. */
  predicate StepShape(reqs: seq<Ticket>, i: nat, open: seq<bool>, o: Step)
  {
    && |o.open| == |open|
    && |o.reqs| >= i
    && (i <= |reqs| ==> o.reqs[..i] == reqs[..i])
    && (o.fault ==> o == Fault(reqs, open))
  }

  /** The action an immediate ticket runs: `toggle` becomes `close` or `open`. */
  function Resolve(a: Act, isOpen: bool): (r: Act)
    ensures r != Toggle
    ensures a != Toggle ==> r == a
    ensures a == Toggle ==> (r == Close <==> isOpen) && (r == Open <==> !isOpen)
  {
    if a == Toggle then (if isOpen then Close else Open) else a
  }

  /** What processing one ticket does, wherever it sits in the list: leave it
      in place, overwrite it, remove it (appending its follow-on tickets and
      possibly writing its group's open flag), or throw. Each also lists the
      device commands it issues. */
  datatype Effect =
    | Stay(cmds: seq<Command>)
    | Replace(next: Ticket)
    | Done(added: seq<Ticket>, setOpen: Option<bool>, cmds: seq<Command>)
    | Throw

  /** The immediate-ticket switch, once `toggle` has been resolved; `found`
      says whether the group's device lists exist. */
  function ImmediateEffect(g: GroupId, a: Act, found: bool, r: Readings): Effect
  {
    match a
    case Open =>
      if !found then Throw
      else Done([Timed(g, LockInteriorDelay, NumberSecondsBeforeOpen - 1)], None,
                [Each(g, WarningLights, OnOffOn), Alarm(g, NumberSecondsBeforeOpen + 2), Each(g, InteriorDoors, OnOffOn)])
    case Close =>
      if !found then Throw
      else Done([Timed(g, CloseDelay, NumberSecondsBeforeClose)], None,
                [Each(g, WarningLights, OnOffOn), Alarm(g, NumberSecondsBeforeClose),
                 Each(g, HangarDoors, OnOffOn), Each(g, ExteriorDoors, OnOffOn)])
    case CheckPressurize =>
      if !found || |r.ventOxygen| == 0 then Throw
      else if r.ventOxygen[0] > PressurizedLevel then
        Done([], Some(false), [Each(g, WarningLights, OnOffOff), Each(g, InteriorDoors, OnOffOn)])
      else Stay([])
    case LockExteriorDoors =>
      if !found then Throw
      else if AllClosed(r.exteriorOpenRatios) then Done([], None, LockCommands(g, ExteriorDoors, r.exteriorOpenRatios))
      else Stay(LockCommands(g, ExteriorDoors, r.exteriorOpenRatios))
    case LockInterior =>
      if !found then Throw
      else if AllClosed(r.interiorOpenRatios) then
        Done([Immediate(g, OpenDelay)], None, LockCommands(g, InteriorDoors, r.interiorOpenRatios))
      else Stay(LockCommands(g, InteriorDoors, r.interiorOpenRatios))
    case OpenDelay =>
      if !found then Throw
      else Done([Immediate(g, OpenDelay2)], None, [Each(g, ExteriorDoors, OnOffOn), Each(g, HangarDoors, OnOffOn)])
    case OpenDelay2 =>
      if !found then Throw
      else Done([], Some(true), [Each(g, ExteriorDoors, OpenOn), Each(g, HangarDoors, OpenOn)])
    case _ =>
      Stay([])
  }

  /** The timed-ticket branch: count down, then run the follow-on. */
  function TimedEffect(t: Ticket, found: bool): Effect
  {
    var g := t.groupNum;
    if t.timeRemaining > 0 then Replace(Timed(g, t.action, t.timeRemaining - 1))
    else if t.action == CloseDelay then
      if !found then Throw
      else Done([Immediate(g, CheckPressurize), Immediate(g, LockExteriorDoors)], None,
                [Each(g, ExteriorDoors, OpenOff), Each(g, HangarDoors, OpenOff)])
    else if t.action == LockInteriorDelay then Done([Immediate(g, LockInterior)], None, [])
    else Stay([])
  }

  /** The effect of ticket `t` given the flags, discovery and readings of all groups. */
  function TicketEffect(t: Ticket, open: seq<bool>, disc: seq<bool>, env: seq<Readings>): Effect
    requires Fits(open, disc, env)
  {
    var g := t.groupNum;
    if !t.timed then ImmediateEffect(g, Resolve(t.action, open[g]), disc[g], env[g])
    else TimedEffect(t, disc[g])
  }

  /** Carrying out an effect on the ticket at index `i`. */
  function Apply(reqs: seq<Ticket>, i: nat, open: seq<bool>, e: Effect): (o: Step)
    requires i < |reqs| && |open| == NumGroups
    ensures StepShape(reqs, i, open, o)
  {
    match e
    case Stay(c) => Step(reqs, open, c, false)
    case Replace(t) => Step(reqs[i := t], open, [], false)
    case Done(added, setOpen, c) =>
      Step(Requeue(reqs, i, added), if setOpen.Some? then open[reqs[i].groupNum := setOpen.value] else open, c, false)
    case Throw => Fault(reqs, open)
  }

  /** Processing the ticket at index `i`. Whatever happens, the tickets below
      `i` (those the reverse scan has not reached yet) are left in place, and
      every ticket added lands at the end of the list. */
  function StepAt(reqs: seq<Ticket>, i: nat, open: seq<bool>, disc: seq<bool>, env: seq<Readings>): (o: Step)
    requires i < |reqs| && Fits(open, disc, env)
    ensures StepShape(reqs, i, open, o)
  {
    Apply(reqs, i, open, TicketEffect(reqs[i], open, disc, env))
  }

  /** The reverse scan over indices `i - 1` down to `0`, stopping at the first fault. */
  function Scan(reqs: seq<Ticket>, i: nat, open: seq<bool>, disc: seq<bool>, env: seq<Readings>,
                cmds: seq<Command>, visited: seq<Ticket>): (p: Pass)
    requires i <= |reqs| && Fits(open, disc, env)
    ensures |p.open| == NumGroups
    decreases i
  {
    if i == 0 then Pass(reqs, open, cmds, visited, false)
    else
      var o := StepAt(reqs, i - 1, open, disc, env);
      if o.fault then Pass(reqs, open, cmds, visited + [reqs[i - 1]], true)
      else Scan(o.reqs, i - 1, o.open, disc, env, cmds + o.cmds, visited + [reqs[i - 1]])
  }

  /** One step of the scan: a fault ends it with the state untouched; any
      other step moves on to the next lower index with that step's effect. */
  lemma ScanStep(reqs: seq<Ticket>, i: nat, open: seq<bool>, disc: seq<bool>, env: seq<Readings>,
                 cmds: seq<Command>, visited: seq<Ticket>)
    requires 0 < i <= |reqs| && Fits(open, disc, env)
    ensures var o := StepAt(reqs, i - 1, open, disc, env);
            Scan(reqs, i, open, disc, env, cmds, visited) ==
            if o.fault then Pass(reqs, open, cmds, visited + [reqs[i - 1]], true)
            else Scan(o.reqs, i - 1, o.open, disc, env, cmds + o.cmds, visited + [reqs[i - 1]])
  {
  }

  /** One whole `mainLoop` pass over a ticket list. */
  function Tick(reqs: seq<Ticket>, open: seq<bool>, disc: seq<bool>, env: seq<Readings>): Pass
    requires Fits(open, disc, env)
  {
    Scan(reqs, |reqs|, open, disc, env, [], [])
  }

  function Reversed<T>(s: seq<T>): seq<T>
  {
    if s == [] then [] else [s[|s| - 1]] + Reversed(s[..|s| - 1])
  }

  /** The flags and tickets between passes. */
  datatype State = State(reqs: seq<Ticket>, open: seq<bool>)

  /** One pass from a state. */
  function Next(s: State, disc: seq<bool>, env: seq<Readings>): (t: State)
    requires Fits(s.open, disc, env)
    ensures |t.open| == NumGroups
  {
    var p := Tick(s.reqs, s.open, disc, env);
    State(p.reqs, p.open)
  }

  /** The state left after `n` passes with the same readings. */
  function Run(n: nat, s: State, disc: seq<bool>, env: seq<Readings>): (t: State)
    requires Fits(s.open, disc, env)
    ensures |t.open| == NumGroups
    decreases n
  {
    if n == 0 then s else Run(n - 1, Next(s, disc, env), disc, env)
  }

  /** The ticket list `Main` hands to `mainLoop`: a `toggle` for an argument
      naming a configured group, nothing for any other argument. */
  function Enqueue(groups: seq<string>, reqs: seq<Ticket>, argument: string): seq<Ticket>
    requires |groups| == NumGroups
  {
    if |argument| > 0 && IndexOf(groups, argument) != -1 then reqs + [Immediate(IndexOf(groups, argument), Toggle)]
    else reqs
  }

  /** The tickets the constructor queues: a `lockExteriorDoors` for every grid
      group, in grid order, whose name is a configured group. */
  function InitialTickets(groups: seq<string>, gridGroups: seq<string>): seq<Ticket>
    requires |groups| == NumGroups
  {
    if gridGroups == [] then []
    else
      var rest := InitialTickets(groups, gridGroups[..|gridGroups| - 1]);
      var pos := IndexOf(groups, gridGroups[|gridGroups| - 1]);
      if pos != -1 then rest + [Immediate(pos, LockExteriorDoors)] else rest
  }

  /** The hangar controller: its tickets and the per-group open flags. */
  class HangarController {
    var groups: seq<string>
    /** whether the group's blocks were found on the grid (its device lists exist) */
    var discovered: seq<bool>
    var requests: seq<Ticket>
    var hangarOpen: array<bool>

    ghost predicate Valid()
      reads this
    {
      |groups| == NumGroups && hangarOpen.Length == NumGroups && |discovered| == NumGroups
    }

    /** Scans the grid's block groups (`gridGroups`, in grid order): a group
        with a configured name gets its device lists, `hangarOpen` false and
        a `lockExteriorDoors` ticket. */
    constructor (gridGroups: seq<string>)
      ensures Valid() && fresh(hangarOpen)
      ensures groups == DefaultGroups
      ensures requests == InitialTickets(groups, gridGroups)
      ensures forall g :: 0 <= g < NumGroups ==> !hangarOpen[g] && (discovered[g] <==> groups[g] in gridGroups)
    {
      groups := DefaultGroups;
      var open := new bool[NumGroups](_ => false);
      hangarOpen := open;
      discovered := [false, false, false];
      requests := [];
      new;
      var i := 0;
      while i < |gridGroups|
        invariant 0 <= i <= |gridGroups|
        invariant groups == DefaultGroups && hangarOpen == open && |discovered| == NumGroups
        invariant requests == InitialTickets(groups, gridGroups[..i])
        invariant forall g :: 0 <= g < NumGroups ==> !hangarOpen[g] && (discovered[g] <==> groups[g] in gridGroups[..i])
      {
        var pos := IndexOf(groups, gridGroups[i]);
        if pos != -1 {
          discovered := discovered[pos := true];
          hangarOpen[pos] := false;
          requests := requests + [Immediate(pos, LockExteriorDoors)];
        }
        assert gridGroups[..i + 1][..i] == gridGroups[..i];
        i := i + 1;
      }
      assert gridGroups[..i] == gridGroups;
    }

    /** `Main(argument)`: queue a `toggle` for a configured group name, then run one pass. */
    method HandleArgument(argument: string, env: seq<Readings>) returns (cmds: seq<Command>, fault: bool)
      requires Valid() && |env| == NumGroups
      modifies this, hangarOpen
      ensures Valid() && groups == old(groups) && discovered == old(discovered) && hangarOpen == old(hangarOpen)
      ensures var p := Tick(Enqueue(groups, old(requests), argument), old(hangarOpen[..]), discovered, env);
              requests == p.reqs && hangarOpen[..] == p.open && cmds == p.cmds && fault == p.fault
    {
      if |argument| > 0 {
        var groupNumber := IndexOf(groups, argument);
        if groupNumber != -1 {
          requests := requests + [Immediate(groupNumber, Toggle)];
        }
      }
      cmds, fault := MainLoop(env);
    }

    /** One pass over the tickets, last to first. */
    method MainLoop(env: seq<Readings>) returns (cmds: seq<Command>, fault: bool)
      requires Valid() && |env| == NumGroups
      modifies this, hangarOpen
      ensures Valid() && groups == old(groups) && discovered == old(discovered) && hangarOpen == old(hangarOpen)
      ensures var p := Tick(old(requests), old(hangarOpen[..]), discovered, env);
              requests == p.reqs && hangarOpen[..] == p.open && cmds == p.cmds && fault == p.fault
    {
      ghost var goal := Tick(requests, hangarOpen[..], discovered, env);
      ghost var visited: seq<Ticket> := [];
      cmds, fault := [], false;
      var i := |requests| - 1;
      while i >= 0
        invariant -1 <= i < |requests|
        invariant Valid() && groups == old(groups) && discovered == old(discovered) && hangarOpen == old(hangarOpen)
        invariant Scan(requests, i + 1, hangarOpen[..], discovered, env, cmds, visited) == goal
        invariant !fault
        decreases i
      {
        ghost var before, openBefore := requests, hangarOpen[..];
        var req := requests[i];
        var c: seq<Command>;
        if !req.timed {
          c, fault := ProcessImmediate(i, env);
        } else {
          c, fault := ProcessTimed(i);
        }
        ScanStep(before, i + 1, openBefore, discovered, env, cmds, visited);
        if fault {
          break;
        }
        cmds := cmds + c;
        visited := visited + [req];
        i := i - 1;
      }
    }

    /** The `switch` on an immediate ticket's action. */
    method ProcessImmediate(i: nat, env: seq<Readings>) returns (c: seq<Command>, fault: bool)
      requires Valid() && |env| == NumGroups && i < |requests| && !requests[i].timed
      modifies this, hangarOpen
      ensures Valid() && groups == old(groups) && discovered == old(discovered) && hangarOpen == old(hangarOpen)
      ensures var o := StepAt(old(requests), i, old(hangarOpen[..]), discovered, env);
              requests == o.reqs && hangarOpen[..] == o.open && c == o.cmds && fault == o.fault
    {
      var g := requests[i].groupNum;
      var a := requests[i].action;
      if a == Toggle {
        a := if hangarOpen[g] then Close else Open;
      }
      c, fault := [], false;
      if a == Open {
        if !discovered[g] { fault := true; return; }
        c := [Each(g, WarningLights, OnOffOn), Alarm(g, NumberSecondsBeforeOpen + 2)];
        requests := RemoveAt(requests, i);
        c := c + [Each(g, InteriorDoors, OnOffOn)];
        requests := requests + [Timed(g, LockInteriorDelay, NumberSecondsBeforeOpen - 1)];
      } else if a == Close {
        if !discovered[g] { fault := true; return; }
        c := [Each(g, WarningLights, OnOffOn), Alarm(g, NumberSecondsBeforeClose)];
        requests := RemoveAt(requests, i);
        c := c + [Each(g, HangarDoors, OnOffOn), Each(g, ExteriorDoors, OnOffOn)];
        requests := requests + [Timed(g, CloseDelay, NumberSecondsBeforeClose)];
      } else if a == CheckPressurize {
        if !discovered[g] || |env[g].ventOxygen| == 0 { fault := true; return; }
        if env[g].ventOxygen[0] > PressurizedLevel {
          c := [Each(g, WarningLights, OnOffOff), Each(g, InteriorDoors, OnOffOn)];
          hangarOpen[g] := false;
          requests := RemoveAt(requests, i);
        }
      } else if a == LockExteriorDoors {
        if !discovered[g] { fault := true; return; }
        var doorClosed;
        c, doorClosed := LockDoors(g, ExteriorDoors, env[g].exteriorOpenRatios);
        if doorClosed {
          requests := RemoveAt(requests, i);
        }
      } else if a == LockInterior {
        if !discovered[g] { fault := true; return; }
        var doorClosed;
        c, doorClosed := LockDoors(g, InteriorDoors, env[g].interiorOpenRatios);
        if doorClosed {
          requests := RemoveAt(requests, i);
          requests := requests + [Immediate(g, OpenDelay)];
        }
      } else if a == OpenDelay {
        if !discovered[g] { fault := true; return; }
        c := [Each(g, ExteriorDoors, OnOffOn), Each(g, HangarDoors, OnOffOn)];
        requests := RemoveAt(requests, i);
        requests := requests + [Immediate(g, OpenDelay2)];
      } else if a == OpenDelay2 {
        if !discovered[g] { fault := true; return; }
        c := [Each(g, ExteriorDoors, OpenOn), Each(g, HangarDoors, OpenOn)];
        hangarOpen[g] := true;
        requests := RemoveAt(requests, i);
      }
    }

    /** A timed ticket: count down, or run its follow-on at zero. */
    method ProcessTimed(i: nat) returns (c: seq<Command>, fault: bool)
      requires Valid() && i < |requests| && requests[i].timed
      modifies this
      ensures Valid() && groups == old(groups) && discovered == old(discovered) && hangarOpen == old(hangarOpen)
      ensures unchanged(hangarOpen)
      ensures var o := Apply(old(requests), i, hangarOpen[..], TimedEffect(old(requests)[i], discovered[old(requests)[i].groupNum]));
              requests == o.reqs && c == o.cmds && fault == o.fault
    {
      var req := requests[i];
      var g := req.groupNum;
      c, fault := [], false;
      if req.timeRemaining > 0 {
        requests := requests[i := Timed(g, req.action, req.timeRemaining - 1)];
      } else if req.action == CloseDelay {
        if !discovered[g] { fault := true; return; }
        c := [Each(g, ExteriorDoors, OpenOff), Each(g, HangarDoors, OpenOff)];
        requests := RemoveAt(requests, i);
        requests := requests + [Immediate(g, CheckPressurize)];
        requests := requests + [Immediate(g, LockExteriorDoors)];
      } else if req.action == LockInteriorDelay {
        requests := RemoveAt(requests, i);
        requests := requests + [Immediate(g, LockInterior)];
      }
    }

    /** The `foreach` over one door list of a lock ticket. */
    static method LockDoors(g: int, dev: Device, ratios: seq<real>) returns (cmds: seq<Command>, doorClosed: bool)
      ensures cmds == LockCommands(g, dev, ratios)
      ensures doorClosed <==> AllClosed(ratios)
    {
      cmds := [];
      doorClosed := true;
      var k := 0;
      while k < |ratios|
        invariant 0 <= k <= |ratios|
        invariant cmds == LockCommands(g, dev, ratios[..k])
        invariant doorClosed <==> AllClosed(ratios[..k])
      {
        if ratios[k] != 0.0 {
          cmds := cmds + [DoorCmd(g, dev, k, OpenOff)];
          doorClosed := false;
        } else {
          cmds := cmds + [DoorCmd(g, dev, k, OnOffOff)];
        }
        assert ratios[..k + 1][..k] == ratios[..k];
        k := k + 1;
      }
      assert ratios[..k] == ratios;
    }
  }

  // ---------------------------------------------------------------------
  // Properties of one pass
  // ---------------------------------------------------------------------

  /** A pass that does not fault handles every ticket present at its start
      exactly once, from the last to the first; the tickets it appends are
      not handled until the next pass. */
  lemma {:induction false} VisitsEachOnce(reqs: seq<Ticket>, i: nat, open: seq<bool>, disc: seq<bool>, env: seq<Readings>,
                                          cmds: seq<Command>, visited: seq<Ticket>)
    requires i <= |reqs| && Fits(open, disc, env)
    ensures var p := Scan(reqs, i, open, disc, env, cmds, visited);
            !p.fault ==> p.visited == visited + Reversed(reqs[..i])
    decreases i
  {
    if i > 0 {
      var o := StepAt(reqs, i - 1, open, disc, env);
      ScanStep(reqs, i, open, disc, env, cmds, visited);
      if !o.fault {
        var seen := visited + [reqs[i - 1]];
        VisitsEachOnce(o.reqs, i - 1, o.open, disc, env, cmds + o.cmds, seen);
        assert o.reqs[..i - 1] == reqs[..i - 1];
        assert reqs[..i][..i - 1] == reqs[..i - 1];
        assert Reversed(reqs[..i]) == [reqs[i - 1]] + Reversed(reqs[..i - 1]);
        assert seen + Reversed(reqs[..i - 1]) == visited + Reversed(reqs[..i]);
      }
    }
  }

  lemma TickVisitsEachOnce(reqs: seq<Ticket>, open: seq<bool>, disc: seq<bool>, env: seq<Readings>)
    requires Fits(open, disc, env)
    ensures var p := Tick(reqs, open, disc, env);
            !p.fault ==> p.visited == Reversed(reqs) && |p.visited| == |reqs|
  {
    VisitsEachOnce(reqs, |reqs|, open, disc, env, [], []);
    assert reqs[..|reqs|] == reqs;
    ReversedLength(reqs);
  }

  lemma {:induction false} ReversedLength<T>(s: seq<T>)
    ensures |Reversed(s)| == |s|
    decreases |s|
  {
    if s != [] { ReversedLength(s[..|s| - 1]); }
  }

  /** A timed ticket with time left is overwritten in place by the same
      ticket with one second less; nothing else changes. */
  lemma TimedCountdown(reqs: seq<Ticket>, i: nat, open: seq<bool>, disc: seq<bool>, env: seq<Readings>)
    requires i < |reqs| && Fits(open, disc, env)
    requires reqs[i].timed && reqs[i].timeRemaining > 0
    ensures var o := StepAt(reqs, i, open, disc, env);
            && o.reqs == reqs[i := Timed(reqs[i].groupNum, reqs[i].action, reqs[i].timeRemaining - 1)]
            && o.open == open && o.cmds == [] && !o.fault
  {
  }

  /** `toggle` on an open hangar closes it: a `close_delay` of 5 seconds; on
      a closed one it opens it: a `lockInterior_delay` of 9 seconds. */
  lemma ToggleDispatch(reqs: seq<Ticket>, i: nat, open: seq<bool>, disc: seq<bool>, env: seq<Readings>)
    requires i < |reqs| && Fits(open, disc, env)
    requires reqs[i] == Immediate(reqs[i].groupNum, Toggle) && disc[reqs[i].groupNum]
    ensures var g := reqs[i].groupNum;
            var o := StepAt(reqs, i, open, disc, env);
            && o.open == open && !o.fault
            && o.reqs == RemoveAt(reqs, i) + [if open[g] then Timed(g, CloseDelay, 5) else Timed(g, LockInteriorDelay, 9)]
  {
  }

  /** At zero, `close_delay` is replaced by `checkPressurize` and
      `lockExteriorDoors`, in that order; `lockInterior_delay` by `lockInterior`. */
  lemma DelayExpiry(reqs: seq<Ticket>, i: nat, open: seq<bool>, disc: seq<bool>, env: seq<Readings>)
    requires i < |reqs| && Fits(open, disc, env)
    requires reqs[i].timed && reqs[i].timeRemaining <= 0
    requires reqs[i].action == CloseDelay ==> disc[reqs[i].groupNum]
    ensures var g := reqs[i].groupNum;
            var o := StepAt(reqs, i, open, disc, env);
            && (reqs[i].action == CloseDelay ==>
                  o.reqs == RemoveAt(reqs, i) + [Immediate(g, CheckPressurize), Immediate(g, LockExteriorDoors)])
            && (reqs[i].action == LockInteriorDelay ==> o.reqs == RemoveAt(reqs, i) + [Immediate(g, LockInterior)])
            && o.open == open
  {
  }

  /** The lock tickets stay queued until every door of their list reports
      open ratio 0; then `lockInterior` queues `open_delay` and
      `lockExteriorDoors` queues nothing. Every door gets one command. */
  lemma LockUntilClosed(reqs: seq<Ticket>, i: nat, open: seq<bool>, disc: seq<bool>, env: seq<Readings>)
    requires i < |reqs| && Fits(open, disc, env)
    requires !reqs[i].timed && reqs[i].action in {LockInterior, LockExteriorDoors} && disc[reqs[i].groupNum]
    ensures var g := reqs[i].groupNum;
            var interior := reqs[i].action == LockInterior;
            var ratios := if interior then env[g].interiorOpenRatios else env[g].exteriorOpenRatios;
            var o := StepAt(reqs, i, open, disc, env);
            && o.open == open && !o.fault && |o.cmds| == |ratios|
            && (!AllClosed(ratios) ==> o.reqs == reqs)
            && (AllClosed(ratios) && interior ==> o.reqs == RemoveAt(reqs, i) + [Immediate(g, OpenDelay)])
            && (AllClosed(ratios) && !interior ==> o.reqs == RemoveAt(reqs, i))
  {
  }

  /** `open_delay` becomes `open_delay2`, which marks the hangar open and
      removes itself; `checkPressurize` waits for the first vent to exceed
      0.99, then marks the hangar closed and removes itself. */
  lemma OpenFlagStages(reqs: seq<Ticket>, i: nat, open: seq<bool>, disc: seq<bool>, env: seq<Readings>)
    requires i < |reqs| && Fits(open, disc, env)
    requires !reqs[i].timed && disc[reqs[i].groupNum]
    ensures var g := reqs[i].groupNum;
            var o := StepAt(reqs, i, open, disc, env);
            && (reqs[i].action == OpenDelay ==> o.reqs == RemoveAt(reqs, i) + [Immediate(g, OpenDelay2)] && o.open == open)
            && (reqs[i].action == OpenDelay2 ==> o.reqs == RemoveAt(reqs, i) && o.open == open[g := true])
            && (reqs[i].action == CheckPressurize && |env[g].ventOxygen| > 0 ==>
                  if env[g].ventOxygen[0] > 0.99 then o.reqs == RemoveAt(reqs, i) && o.open == open[g := false]
                  else o.reqs == reqs && o.open == open)
  {
  }

  /** Only `open_delay2` and `checkPressurize` write the open flags. */
  lemma OpenFlagWriters(reqs: seq<Ticket>, i: nat, open: seq<bool>, disc: seq<bool>, env: seq<Readings>)
    requires i < |reqs| && Fits(open, disc, env)
    requires reqs[i].timed || reqs[i].action !in {OpenDelay2, CheckPressurize}
    ensures StepAt(reqs, i, open, disc, env).open == open
  {
  }

  // ---------------------------------------------------------------------
  // Whole procedures over several passes
  // ---------------------------------------------------------------------

  /** A pass over a single ticket that does not fault is that ticket's step. */
  lemma TickSingle(t: Ticket, open: seq<bool>, disc: seq<bool>, env: seq<Readings>)
    requires Fits(open, disc, env)
    ensures var o := StepAt([t], 0, open, disc, env);
            var p := Tick([t], open, disc, env);
            !o.fault ==> p.reqs == o.reqs && p.open == o.open
  {
    var o := StepAt([t], 0, open, disc, env);
    if !o.fault {
      ScanStep([t], 1, open, disc, env, [], []);
    }
  }

  /** From a state holding a single ticket, `n + 1` passes are that ticket's
      step followed by `n` passes. */
  lemma RunSingle(n: nat, t: Ticket, open: seq<bool>, next: seq<Ticket>, open': seq<bool>,
                  disc: seq<bool>, env: seq<Readings>)
    requires Fits(open, disc, env)
    requires var o := StepAt([t], 0, open, disc, env); !o.fault && o.reqs == next && o.open == open'
    ensures Run(n + 1, State([t], open), disc, env) == Run(n, State(next, open'), disc, env)
  {
    TickSingle(t, open, disc, env);
  }

  /** A lone timed ticket loses one second per pass: `n` passes from `k`
      seconds leave `k - n`, as long as `n <= k`. */
  lemma {:induction false} Countdown(n: nat, j: nat, k: int, g: GroupId, a: Act,
                                     open: seq<bool>, disc: seq<bool>, env: seq<Readings>)
    requires Fits(open, disc, env) && n <= k
    ensures Run(n + j, State([Timed(g, a, k)], open), disc, env) == Run(j, State([Timed(g, a, k - n)], open), disc, env)
    decreases n
  {
    if n > 0 {
      assert [Timed(g, a, k)][0 := Timed(g, a, k - 1)] == [Timed(g, a, k - 1)];
      var m := n - 1 + j;
      RunSingle(m, Timed(g, a, k), open, [Timed(g, a, k - 1)], open, disc, env);
      assert m + 1 == n + j;
      Countdown(n - 1, j, k - 1, g, a, open, disc, env);
      assert k - 1 - (n - 1) == k - n;
    }
  }

  /** The single-ticket steps of the opening procedure. */
  lemma OpenSteps(g: GroupId, open: seq<bool>, disc: seq<bool>, env: seq<Readings>)
    requires Fits(open, disc, env)
    requires !open[g] && disc[g] && AllClosed(env[g].interiorOpenRatios)
    ensures var o := StepAt([Immediate(g, Toggle)], 0, open, disc, env);
            !o.fault && o.reqs == [Timed(g, LockInteriorDelay, 9)] && o.open == open
    ensures var o := StepAt([Timed(g, LockInteriorDelay, 0)], 0, open, disc, env);
            !o.fault && o.reqs == [Immediate(g, LockInterior)] && o.open == open
    ensures var o := StepAt([Immediate(g, LockInterior)], 0, open, disc, env);
            !o.fault && o.reqs == [Immediate(g, OpenDelay)] && o.open == open
    ensures var o := StepAt([Immediate(g, OpenDelay)], 0, open, disc, env);
            !o.fault && o.reqs == [Immediate(g, OpenDelay2)] && o.open == open
    ensures var o := StepAt([Immediate(g, OpenDelay2)], 0, open, disc, env);
            !o.fault && o.reqs == [] && o.open == open[g := true]
  {
  }

  /** A run of `n + 1` passes is a run of `n` passes followed by one more. */
  lemma {:induction false} RunLast(n: nat, s: State, disc: seq<bool>, env: seq<Readings>)
    requires Fits(s.open, disc, env)
    ensures Run(n + 1, s, disc, env) == Next(Run(n, s, disc, env), disc, env)
    decreases n
  {
    if n > 0 {
      RunLast(n - 1, Next(s, disc, env), disc, env);
    }
  }

  /** Opening a closed hangar whose interior doors are shut: the `toggle`
      becomes a `lockInterior_delay` that counts down for 9 passes, then
      `lockInterior`, `open_delay` and `open_delay2`; the hangar is still
      marked closed after 13 passes and is marked open, with no ticket left,
      after the 14th. */
  lemma OpenProcedure(g: GroupId, open: seq<bool>, disc: seq<bool>, env: seq<Readings>)
    requires Fits(open, disc, env)
    requires !open[g] && disc[g] && AllClosed(env[g].interiorOpenRatios)
    ensures Run(13, State([Immediate(g, Toggle)], open), disc, env) == State([Immediate(g, OpenDelay2)], open)
    ensures Run(14, State([Immediate(g, Toggle)], open), disc, env) == State([], open[g := true])
  {
    var s0 := State([Immediate(g, Toggle)], open);
    OpenSteps(g, open, disc, env);
    RunSingle(12, Immediate(g, Toggle), open, [Timed(g, LockInteriorDelay, 9)], open, disc, env);
    Countdown(9, 3, 9, g, LockInteriorDelay, open, disc, env);
    RunSingle(2, Timed(g, LockInteriorDelay, 0), open, [Immediate(g, LockInterior)], open, disc, env);
    RunSingle(1, Immediate(g, LockInterior), open, [Immediate(g, OpenDelay)], open, disc, env);
    RunSingle(0, Immediate(g, OpenDelay), open, [Immediate(g, OpenDelay2)], open, disc, env);
    RunLast(13, s0, disc, env);
    TickSingle(Immediate(g, OpenDelay2), open, disc, env);
  }

  /** The single-ticket steps of the closing procedure. */
  lemma CloseSteps(g: GroupId, open: seq<bool>, disc: seq<bool>, env: seq<Readings>)
    requires Fits(open, disc, env) && open[g] && disc[g]
    ensures var o := StepAt([Immediate(g, Toggle)], 0, open, disc, env);
            !o.fault && o.reqs == [Timed(g, CloseDelay, 5)] && o.open == open
    ensures var o := StepAt([Timed(g, CloseDelay, 0)], 0, open, disc, env);
            !o.fault && o.reqs == [Immediate(g, CheckPressurize), Immediate(g, LockExteriorDoors)] && o.open == open
  {
  }

  /** Closing an open hangar whose exterior doors are shut and whose first
      vent reads above 0.99: `close_delay` counts down for 5 passes, then
      splits into `checkPressurize` and `lockExteriorDoors`; on the 8th pass
      both complete and the hangar is marked closed. */
  lemma CloseProcedure(g: GroupId, open: seq<bool>, disc: seq<bool>, env: seq<Readings>)
    requires Fits(open, disc, env)
    requires open[g] && disc[g] && AllClosed(env[g].exteriorOpenRatios)
    requires |env[g].ventOxygen| > 0 && env[g].ventOxygen[0] > PressurizedLevel
    ensures Run(7, State([Immediate(g, Toggle)], open), disc, env)
            == State([Immediate(g, CheckPressurize), Immediate(g, LockExteriorDoors)], open)
    ensures Run(8, State([Immediate(g, Toggle)], open), disc, env) == State([], open[g := false])
  {
    var s0 := State([Immediate(g, Toggle)], open);
    var two := [Immediate(g, CheckPressurize), Immediate(g, LockExteriorDoors)];
    CloseSteps(g, open, disc, env);
    RunSingle(6, Immediate(g, Toggle), open, [Timed(g, CloseDelay, 5)], open, disc, env);
    Countdown(5, 1, 5, g, CloseDelay, open, disc, env);
    RunSingle(0, Timed(g, CloseDelay, 0), open, two, open, disc, env);
    RunLast(7, s0, disc, env);
    TickPair(g, open, disc, env);
  }

  /** A pass over `checkPressurize` followed by `lockExteriorDoors` of a
      pressurized group with shut exterior doors empties the list. */
  lemma TickPair(g: GroupId, open: seq<bool>, disc: seq<bool>, env: seq<Readings>)
    requires Fits(open, disc, env)
    requires disc[g] && AllClosed(env[g].exteriorOpenRatios)
    requires |env[g].ventOxygen| > 0 && env[g].ventOxygen[0] > PressurizedLevel
    ensures var p := Tick([Immediate(g, CheckPressurize), Immediate(g, LockExteriorDoors)], open, disc, env);
            p.reqs == [] && p.open == open[g := false]
  {
    var two := [Immediate(g, CheckPressurize), Immediate(g, LockExteriorDoors)];
    var o1 := StepAt(two, 1, open, disc, env);
    assert o1.reqs == [Immediate(g, CheckPressurize)] && !o1.fault;
    ScanStep(two, 2, open, disc, env, [], []);
    ScanStep(o1.reqs, 1, o1.open, disc, env, o1.cmds, [two[1]]);
  }

  // ---------------------------------------------------------------------
  // Start-up and arguments
  // ---------------------------------------------------------------------

  /** With distinct configured names, every configured group gets one
      `lockExteriorDoors` ticket per grid group of that name. */
  lemma {:induction false} InitialTicketsCount(groups: seq<string>, gridGroups: seq<string>, g: GroupId)
    requires |groups| == NumGroups
    requires forall a, b :: 0 <= a < b < |groups| ==> groups[a] != groups[b]
    ensures Count(InitialTickets(groups, gridGroups), Immediate(g, LockExteriorDoors)) == Count(gridGroups, groups[g])
    decreases |gridGroups|
  {
    if gridGroups != [] {
      var init := gridGroups[..|gridGroups| - 1];
      var last := gridGroups[|gridGroups| - 1];
      InitialTicketsCount(groups, init, g);
      var pos := IndexOf(groups, last);
      assert pos == g <==> last == groups[g];
      var rest := InitialTickets(groups, init);
      if pos != -1 {
        var ext := rest + [Immediate(pos, LockExteriorDoors)];
        assert ext[..|ext| - 1] == rest;
      }
    }
  }

  /** The constructor queues nothing but immediate `lockExteriorDoors` tickets. */
  lemma {:induction false} InitialTicketsKind(groups: seq<string>, gridGroups: seq<string>)
    requires |groups| == NumGroups
    ensures forall k :: 0 <= k < |InitialTickets(groups, gridGroups)| ==>
              !InitialTickets(groups, gridGroups)[k].timed && InitialTickets(groups, gridGroups)[k].action == LockExteriorDoors
    decreases |gridGroups|
  {
    if gridGroups != [] {
      InitialTicketsKind(groups, gridGroups[..|gridGroups| - 1]);
    }
  }

  /** An argument that is not a configured group name adds no ticket; one
      that is adds one `toggle` for that group at the end. */
  lemma EnqueueArgument(groups: seq<string>, reqs: seq<Ticket>, argument: string)
    requires |groups| == NumGroups
    ensures argument !in groups ==> Enqueue(groups, reqs, argument) == reqs
    ensures |argument| > 0 && argument in groups ==>
              exists g: GroupId :: groups[g] == argument && Enqueue(groups, reqs, argument) == reqs + [Immediate(g, Toggle)]
  {
    if |argument| > 0 && argument in groups {
      var g := IndexOf(groups, argument);
      assert groups[g] == argument;
    }
  }
}

=== FILE: laser_comm.dfy ===
/** The run dispatch of `LaserComm.cs` (`Main`): each run first re-scans
    the grid, then advances the communication iterator, and only once that
    is over advances the autopilot iterator, which `START` and `STOP`
    arguments switch on and off.

    The script's fields are the fields of `Program`; `Script` is their value
    and `Dispatch` says what one run does to it. Block discovery, the
    parsing of the block's name and the landing-gear scan are done by
    `init`, which is not modelled beyond its effect on these fields: a
    `Scan` is what `init` would find (the configuration from the block's
    name, whether there is landing gear, whether every required block is
    there and how many blocks start with the prefix), and a `World` holds the
    rest of what one run reads. */
module LaserComm {
  import opened Text
  import opened NavWire
  import opened CsInt
  import Bacon
  import A = Autopilot
  import C = Comm

  datatype Scan = Scan(config: Bacon.Config, gears: bool, allFound: bool, count: nat)

  /** `connectorLocked` is the docking connector's lock (false when there is
      none), `blockCount` the number of blocks this run's search finds: every
      block whose name contains the prefix anywhere, since `Main`'s search has
      no prefix filter while `init`'s keeps only names that start with it,
      `renamed` whether the programmable block's name has changed. */
  datatype World = World(connectorLocked: bool, blockCount: nat, renamed: bool, scan: Scan,
                         comm: C.CommSensors, flight: A.Sensors)

  /** What a run gave to the WAN program and receiver panel, to the flight
      devices, whether it ended with an exception, and the spinner glyph it
      echoed, if any. */
  datatype Report = Report(commCmds: seq<C.CommCommand>, flightCmds: seq<A.Command>, threw: bool, glyph: Option<string>)

  datatype Script = Script(config: Bacon.Config, gears: bool, allFound: bool, numFound: nat,
                           destinations: seq<Destination>, comm: Option<C.CommPc>, fly: Option<A.Flight>,
                           autopilotOn: bool, counter: int)

  /** The fields as `init` leaves them: no destinations, a fresh
      communication iterator, no autopilot iterator, autopilot wanted. */
  function Init(scan: Scan): (sc: Script)
    ensures sc.destinations == [] && sc.fly.None? && sc.autopilotOn && sc.counter == 0
    ensures sc.comm == Some(C.StartComm(scan.config.isBase, []).pc)
    ensures sc.config == scan.config && sc.allFound == scan.allFound && sc.numFound == scan.count
  {
    Script(scan.config, scan.gears, scan.allFound, scan.count, [], Some(C.StartComm(scan.config.isBase, []).pc), None, true, 0)
  }

  /** The re-scan at the top of every run: `init` runs again when a required
      block was missing or the number of blocks found changed (both only
      while the connector is not locked, so that a docked grid's blocks are
      not taken in), or when the block was renamed. Because `Main` counts
      every name containing the prefix and `init` only those starting with
      it, one block with the prefix in the middle of its name makes the
      counts differ for good: with the connector unlocked, every run then
      runs `init` again. */
  function Rescan(sc: Script, w: World): (r: bool)
    ensures w.renamed ==> r
    ensures !w.renamed && w.connectorLocked ==> !r
    ensures !w.renamed && !w.connectorLocked ==> (r <==> !sc.allFound || w.blockCount != sc.numFound)
  {
    (!w.connectorLocked && (!sc.allFound || w.blockCount != sc.numFound)) || w.renamed
  }

  /** The spinner of `Turn` for a counter value; nothing is echoed for a
      negative counter that is not a multiple of four. */
  function Glyph(counter: int): Option<string>
  {
    match Rem4(counter)
    case 0 => Some("/")
    case 1 => Some("-")
    case 2 => Some("\\")
    case 3 => Some("|")
    case _ => None
  }

  /** The autopilot switch after the run's argument. */
  function Switch(args: string, on: bool): (r: bool)
    ensures Contains(args, "STOP") ==> !r
    ensures !Contains(args, "STOP") && Contains(args, "START") ==> r
    ensures !Contains(args, "STOP") && !Contains(args, "START") ==> r == on
  {
    if Contains(args, "STOP") then false else if Contains(args, "START") then true else on
  }

  /** The communication part of a run: the fields after resuming the
      iterator, what it sent, and whether it is still working (it yielded
      `true`), in which case the run ends there. */
  function CommStage(sc: Script, w: World): (Script, seq<C.CommCommand>, bool)
  {
    if sc.comm.None? then (sc, [], false)
    else
      var r := C.ResumeComm(C.Comm(sc.comm.value, sc.destinations), w.comm);
      var busy := r.outcome == C.CommYielded(true);
      (sc.(destinations := r.comm.destinations, comm := if busy then Some(r.comm.pc) else None), r.cmds, busy)
  }

  /** The autopilot part of a run, once communication is over and there are
      destinations. */
  function FlightStage(sc: Script, args: string, w: World, commCmds: seq<C.CommCommand>): (Script, Report)
  {
    var on := Switch(args, sc.autopilotOn);
    var fly := if !sc.config.isBase && sc.comm.None? && sc.fly.None? && on then Some(A.Start(sc.destinations, sc.gears)) else sc.fly;
    var sc2 := sc.(autopilotOn := on, fly := fly);
    if fly.None? then (sc2, Report(commCmds, [], false, None))
    else AfterFlight(sc2, A.Resume(fly.value, w.flight), commCmds)
  }

  /** What the outcome of resuming the autopilot does to the fields: an
      exception leaves the iterator in place (ending the run), `true` keeps
      it and turns the spinner, `false` or the end drops it. */
  function AfterFlight(sc: Script, r: A.Resumed, commCmds: seq<C.CommCommand>): (Script, Report)
  {
    if r.outcome == A.Crashed then (sc.(fly := Some(r.flight)), Report(commCmds, r.cmds, true, None))
    else if r.outcome == A.Yielded(true) then
      var n := Inc32(sc.counter);
      (sc.(fly := Some(r.flight), counter := n), Report(commCmds, r.cmds, false, Glyph(n)))
    else (sc.(fly := None), Report(commCmds, r.cmds, false, None))
  }

  /** One run of `Main`. */
  function Dispatch(sc: Script, args: string, w: World): (Script, Report)
  {
    if Rescan(sc, w) then (Init(w.scan), Report([], [], false, None))
    else
      var (sc1, commCmds, busy) := CommStage(sc, w);
      if busy then
        var n := Inc32(sc1.counter);
        (sc1.(counter := n), Report(commCmds, [], false, Glyph(n)))
      else if sc1.destinations == [] then (Init(w.scan), Report(commCmds, [], false, None))
      else FlightStage(sc1, args, w, commCmds)
  }

  class Program {
    var config: Bacon.Config
    var gears: bool
    var allFound: bool
    var numFound: nat
    var destinations: seq<Destination>
    var comm: Option<C.CommPc>
    var fly: Option<A.Flight>
    var autopilotOn: bool
    var counter: int

    function State(): Script
      reads this
    {
      Script(config, gears, allFound, numFound, destinations, comm, fly, autopilotOn, counter)
    }

    /** The constructor runs `init`. */
    constructor(scan: Scan)
      ensures State() == Init(scan)
    {
      config, gears, allFound, numFound := scan.config, scan.gears, scan.allFound, scan.count;
      destinations, comm, fly := [], Some(C.StartComm(scan.config.isBase, []).pc), None;
      autopilotOn, counter := true, 0;
    }

    /** `init` on a later run. */
    method Reinit(scan: Scan)
      modifies this
      ensures State() == Init(scan)
    {
      config, gears, allFound, numFound := scan.config, scan.gears, scan.allFound, scan.count;
      destinations, comm, fly := [], Some(C.StartComm(scan.config.isBase, []).pc), None;
      autopilotOn, counter := true, 0;
    }

    /** `Turn`: advance the spinner and echo its glyph. */
    method Turn() returns (glyph: Option<string>)
      modifies this
      ensures State() == old(State()).(counter := Inc32(old(counter)))
      ensures glyph == Glyph(counter)
    {
      counter := Inc32(counter);
      glyph := Glyph(counter);
    }

    /** The communication part of `Main`. */
    method RunComm(w: World) returns (commCmds: seq<C.CommCommand>, busy: bool)
      modifies this
      ensures (State(), commCmds, busy) == CommStage(old(State()), w)
    {
      commCmds, busy := [], false;
      if comm.Some? {
        var r := C.ResumeComm(C.Comm(comm.value, destinations), w.comm);
        destinations := r.comm.destinations;
        commCmds := r.cmds;
        busy := r.outcome == C.CommYielded(true);
        comm := if busy then Some(r.comm.pc) else None;
      }
    }

    /** The autopilot part of `Main`. */
    method RunFlight(args: string, w: World, commCmds: seq<C.CommCommand>) returns (report: Report)
      modifies this
      ensures (State(), report) == FlightStage(old(State()), args, w, commCmds)
    {
      if Contains(args, "STOP") {
        autopilotOn := false;
      } else if Contains(args, "START") {
        autopilotOn := true;
      }
      if !config.isBase && comm.None? && fly.None? && autopilotOn {
        fly := Some(A.Start(destinations, gears));
      }
      report := Report(commCmds, [], false, None);
      if fly.Some? {
        var r := A.Resume(fly.value, w.flight);
        report := TakeOutcome(r, commCmds);
      }
    }

    /** The outcome of resuming the autopilot. */
    method TakeOutcome(r: A.Resumed, commCmds: seq<C.CommCommand>) returns (report: Report)
      modifies this
      ensures (State(), report) == AfterFlight(old(State()), r, commCmds)
    {
      if r.outcome == A.Crashed {
        fly := Some(r.flight);
        report := Report(commCmds, r.cmds, true, None);
      } else if r.outcome == A.Yielded(true) {
        fly := Some(r.flight);
        var glyph := Turn();
        report := Report(commCmds, r.cmds, false, glyph);
      } else {
        fly := None;
        report := Report(commCmds, r.cmds, false, None);
      }
    }

    /** `Main(args)`. */
    method Run(args: string, w: World) returns (report: Report)
      modifies this
      ensures (State(), report) == Dispatch(old(State()), args, w)
    {
      if (!w.connectorLocked && (!allFound || w.blockCount != numFound)) || w.renamed {
        Reinit(w.scan);
        return Report([], [], false, None);
      }
      var commCmds, busy := RunComm(w);
      if busy {
        var glyph := Turn();
        return Report(commCmds, [], false, glyph);
      }
      if destinations == [] {
        Reinit(w.scan);
        return Report(commCmds, [], false, None);
      }
      report := RunFlight(args, w, commCmds);
    }
  }

  // ---------------------------------------------------------------------
  // Properties of a run
  // ---------------------------------------------------------------------

  /** A script that is missing a required block does nothing but `init`
      on each run until the block is there, unless it is docked. */
  lemma MissingBlockRestarts(sc: Script, args: string, w: World)
    requires !sc.allFound && !w.connectorLocked
    ensures Dispatch(sc, args, w) == (Init(w.scan), Report([], [], false, None))
  {
  }

  /** While the communication iterator is still working, the autopilot is
      neither started nor advanced. */
  lemma CommFirst(sc: Script, args: string, w: World)
    requires !Rescan(sc, w) && sc.comm.Some?
    requires C.ResumeComm(C.Comm(sc.comm.value, sc.destinations), w.comm).outcome == C.CommYielded(true)
    ensures var (next, report) := Dispatch(sc, args, w);
            next.fly == sc.fly && report.flightCmds == [] && next.comm.Some? && next.autopilotOn == sc.autopilotOn
  {
  }

  /** A communication run that stops with `false` (a failed send, the
      response window running out, or a malformed record) drops the
      iterator for good, keeping the destinations it had added. */
  lemma CommDropped(sc: Script, args: string, w: World)
    requires !Rescan(sc, w) && sc.comm.Some?
    requires C.ResumeComm(C.Comm(sc.comm.value, sc.destinations), w.comm).outcome != C.CommYielded(true)
    ensures var (next, _) := Dispatch(sc, args, w);
            var ds := C.ResumeComm(C.Comm(sc.comm.value, sc.destinations), w.comm).comm.destinations;
            (ds != [] ==> next.comm.None? && next.destinations == ds) &&
            (ds == [] ==> next == Init(w.scan))
  {
  }

  /** A run with no destinations at all starts over, as after `init`. */
  lemma NothingKnownStartsOver(sc: Script, args: string, w: World)
    requires !Rescan(sc, w) && sc.comm.None? && sc.destinations == []
    ensures Dispatch(sc, args, w) == (Init(w.scan), Report([], [], false, None))
  {
  }

  /** `STOP` keeps a ship that is not flying on the ground. */
  lemma StopKeepsGrounded(sc: Script, args: string, w: World)
    requires !Rescan(sc, w) && sc.comm.None? && sc.destinations != [] && sc.fly.None?
    requires Contains(args, "STOP")
    ensures var (next, report) := Dispatch(sc, args, w);
            next.fly.None? && !next.autopilotOn && report.flightCmds == []
  {
  }

  /** Once communication is over, a ship with destinations whose autopilot
      is wanted starts its flight in the same run, beginning with the
      prologue. */
  lemma {:induction false} FlightStarts(sc: Script, args: string, w: World)
    requires !Rescan(sc, w) && sc.comm.None? && sc.destinations != [] && sc.fly.None?
    requires !sc.config.isBase && Switch(args, sc.autopilotOn)
    ensures var (_, report) := Dispatch(sc, args, w);
            |report.flightCmds| >= 4 &&
            report.flightCmds[..4] == [A.ClearWaypoints, A.CollisionAvoidanceOff, A.DockingMode(false), A.ResetGyros]
  {
    A.PrologueFirst(sc.destinations, sc.gears, w.flight);
  }

  /** A flight run that yields `false` (no approach point, or the end of the
      route) drops the autopilot iterator; the next run that wants the
      autopilot starts a new one from the first destination. */
  lemma FlightDropped(sc: Script, args: string, w: World)
    requires !Rescan(sc, w) && sc.comm.None? && sc.destinations != [] && sc.fly.Some?
    requires A.Resume(sc.fly.value, w.flight).outcome == A.Yielded(false)
    ensures Dispatch(sc, args, w).0.fly.None?
  {
  }

  /** A base never flies: no run of a base script starts an autopilot. */
  lemma BaseNeverFlies(sc: Script, args: string, w: World)
    requires sc.config.isBase && sc.fly.None? && w.scan.config.isBase
    ensures var (next, report) := Dispatch(sc, args, w);
            next.fly.None? && report.flightCmds == [] && next.config.isBase
  {
  }

  /** The spinner shows `/`, `-`, `\`, `|` in turn while the counter is
      not negative ... */
  lemma SpinnerCycles(counter: int)
    requires counter >= 0
    ensures Glyph(counter).Some? && Glyph(counter + 4) == Glyph(counter)
    ensures Glyph(counter) != Glyph(counter + 1) && Glyph(counter + 1) != Glyph(counter + 2) &&
            Glyph(counter + 2) != Glyph(counter + 3) && Glyph(counter + 3) != Glyph(counter)
  {
  }

  /** ... and falls silent on three runs out of four once `counter++` has
      wrapped around to negative values. */
  lemma SpinnerAfterWrap()
    ensures Inc32(IntMax) == IntMin && Glyph(IntMin).Some?
    ensures Glyph(IntMin + 1).None? && Glyph(IntMin + 2).None? && Glyph(IntMin + 3).None?
  {
  }
}

=== FILE: nav_wire.dfy ===
/** The navigation data exchanged by `LaserComm.cs` between a base and a
    ship, and the ship's reading of it.

    A waypoint travels as a GPS string `GPS:name:x:y:z:`. The base answers a
    request with one record `RESPONSE_NAV|type|id|name|wp|wp|...;`; the ship
    splits what it receives into records at `;`, each record into fields at
    `|`, and keeps one `Destination` per unique id. On the way out it sorts
    the waypoints of a destination by their names into approach points, a
    destination point, departure points and target orientations.

    Coordinates are the formatted numbers as text (`Point`); the vector
    arithmetic that produces them is not part of this model. */
module NavWire {
  import opened Text

  const ResponseNav: string := "RESPONSE_NAV"
  const RequestNav: string := "REQUEST_NAV"

  /** A position as its three formatted coordinates. */
  datatype Point = Point(x: string, y: string, z: string)

  /** Free of the three separators used on the wire. */
  predicate Plain(s: string)
  {
    ':' !in s && '|' !in s && ';' !in s
  }

  predicate PlainPoint(p: Point)
  {
    Plain(p.x) && Plain(p.y) && Plain(p.z)
  }

  // ---------------------------------------------------------------------
  // GPS strings
  // ---------------------------------------------------------------------

  /** `convertToGPS`. */
  function ConvertToGPS(name: string, p: Point): (gps: string)
  {
    "GPS:" + name + ":" + p.x + ":" + p.y + ":" + p.z + ":"
  }

  datatype Waypoint = Waypoint(name: string, point: Point)

  /** `convertToVector`: field 1 is the name, fields 2 to 4 the coordinates;
      a string with fewer than five fields fails. */
  function ConvertToVector(gps: string): (r: Option<Waypoint>)
  {
    var splits := Split(gps, ':');
    if |splits| < 5 then None else Some(Waypoint(splits[1], Point(splits[2], splits[3], splits[4])))
  }

  lemma JoinCons(p: string, rest: seq<string>, d: char)
    requires |rest| >= 1
    ensures Join([p] + rest, d) == p + [d] + Join(rest, d)
  {
    assert ([p] + rest)[1..] == rest;
  }

  /** A name and coordinates without `:` survive a GPS round trip. */
  lemma GpsRoundTrip(name: string, p: Point)
    requires ':' !in name && ':' !in p.x && ':' !in p.y && ':' !in p.z
    ensures ConvertToVector(ConvertToGPS(name, p)) == Some(Waypoint(name, p))
  {
    var parts := ["GPS", name, p.x, p.y, p.z, ""];
    assert Join(parts, ':') == ConvertToGPS(name, p) by {
      JoinCons(p.z, [""], ':');
      JoinCons(p.y, [p.z, ""], ':');
      JoinCons(p.x, [p.y, p.z, ""], ':');
      JoinCons(name, [p.x, p.y, p.z, ""], ':');
      JoinCons("GPS", [name, p.x, p.y, p.z, ""], ':');
    }
    SplitJoin(parts, ':');
  }

  // ---------------------------------------------------------------------
  // Destinations and response records
  // ---------------------------------------------------------------------

  datatype Destination = Destination(waypoints: seq<string>, name: string, uniqueId: string, isPlanet: bool)

  /** The `Destination` constructor: a planet iff the lower-cased type
      mentions "planet". */
  function MakeDestination(waypoints: seq<string>, name: string, uniqueId: string, kind: string): (d: Destination)
    ensures d.isPlanet <==> exists i :: OccursAt(Lower(kind), "planet", i)
    ensures d.waypoints == waypoints && d.name == name && d.uniqueId == uniqueId
  {
    Destination(waypoints, name, uniqueId, Contains(Lower(kind), "planet"))
  }

  /** `Destination.Equals`: equal unique ids. */
  predicate SameDestination(a: Destination, b: Destination)
  {
    a.uniqueId == b.uniqueId
  }

  /** `destinations.Contains(d)`. */
  predicate Known(ds: seq<Destination>, d: Destination)
  {
    exists k :: 0 <= k < |ds| && SameDestination(ds[k], d)
  }

  predicate UniqueIds(ds: seq<Destination>)
  {
    forall i, j :: 0 <= i < j < |ds| ==> ds[i].uniqueId != ds[j].uniqueId
  }

  /** One record: fields 1, 2 and 3 are type, id and name, the rest are
      waypoints; fewer than four fields is malformed. */
  function ParseRecord(record: string): (r: Option<Destination>)
  {
    var f := Split(record, '|');
    if |f| < 4 then None else Some(MakeDestination(f[4..], f[3], f[2], f[1]))
  }

  /** The records of one response added in order, each only if its id is new;
      the first malformed record ends the batch with `false`. */
  function Absorb(ds: seq<Destination>, records: seq<string>): (r: (seq<Destination>, bool))
    decreases |records|
  {
    if records == [] then (ds, true)
    else match ParseRecord(records[0])
      case None => (ds, false)
      case Some(d) => Absorb(if Known(ds, d) then ds else ds + [d], records[1..])
  }

  /** Absorbing never drops or reorders what was there, never lets two
      destinations share an id, and fails exactly when some record is
      malformed; on success every record's destination is known. */
  lemma {:induction false} AbsorbSpec(ds: seq<Destination>, records: seq<string>)
    requires UniqueIds(ds)
    ensures UniqueIds(Absorb(ds, records).0)
    ensures |Absorb(ds, records).0| >= |ds| && Absorb(ds, records).0[..|ds|] == ds
    ensures Absorb(ds, records).1 <==> forall k :: 0 <= k < |records| ==> ParseRecord(records[k]).Some?
    ensures Absorb(ds, records).1 ==>
              forall k :: 0 <= k < |records| ==> Known(Absorb(ds, records).0, ParseRecord(records[k]).value)
    decreases |records|
  {
    if records != [] {
      match ParseRecord(records[0])
      case None =>
      case Some(d) =>
        var next := if Known(ds, d) then ds else ds + [d];
        assert UniqueIds(next) by {
          if !Known(ds, d) {
            forall i, j | 0 <= i < j < |next|
              ensures next[i].uniqueId != next[j].uniqueId
            {
              if j == |ds| {
                assert !SameDestination(ds[i], d);
              }
            }
          }
        }
        assert Known(next, d) by {
          if Known(ds, d) {
          } else {
            assert SameDestination(next[|ds|], d);
          }
        }
        AbsorbSpec(next, records[1..]);
        var r := Absorb(next, records[1..]).0;
        assert r[..|ds|] == ds by { assert r[..|next|][..|ds|] == next[..|ds|]; }
        forall k | 0 <= k < |records[1..]|
          ensures records[1..][k] == records[k + 1]
        {
        }
        if Absorb(ds, records).1 {
          assert Known(r, d) by {
            var k :| 0 <= k < |next| && SameDestination(next[k], d);
            assert r[..|next|][k] == next[k];
            assert SameDestination(r[k], d);
          }
        }
    }
  }

  // ---------------------------------------------------------------------
  // The base's reply
  // ---------------------------------------------------------------------

  /** What the base measures around its connector, or its landing light on a
      planet, as formatted points. */
  datatype Geometry =
    | SpaceGeometry(beginApproach: Point, finalApproach: Point, finalPt: Point, departure: Point, down: Point, shipForward: Point)
    | PlanetGeometry(approach: Point, finalPt: Point, departure: Point, orient: Point)

  predicate PlainGeometry(g: Geometry)
  {
    match g
    case SpaceGeometry(a, b, c, d, e, f) =>
      PlainPoint(a) && PlainPoint(b) && PlainPoint(c) && PlainPoint(d) && PlainPoint(e) && PlainPoint(f)
    case PlanetGeometry(a, b, c, d) => PlainPoint(a) && PlainPoint(b) && PlainPoint(c) && PlainPoint(d)
  }

  /** `getWaypoints`: type, id and name, then the labelled GPS points. */
  function GetWaypoints(uniqueId: string, locationName: string, g: Geometry): (w: seq<string>)
    ensures |w| == if g.SpaceGeometry? then 9 else 7
  {
    match g
    case SpaceGeometry(beginApproach, finalApproach, finalPt, departure, down, shipForward) =>
      ["Space", uniqueId, locationName, ConvertToGPS("Begin Approach", beginApproach),
       ConvertToGPS("Final Approach", finalApproach), ConvertToGPS("Destination", finalPt),
       ConvertToGPS("Departure", departure), ConvertToGPS("Orientation Down", down),
       ConvertToGPS("Orientation Forward", shipForward)]
    case PlanetGeometry(approach, finalPt, departure, orient) =>
      ["Planet", uniqueId, locationName, ConvertToGPS("Approach", approach),
       ConvertToGPS("Destination", finalPt), ConvertToGPS("Departure", departure),
       ConvertToGPS("Orientation Forward", orient)]
  }

  /** `RESPONSE_NAV` followed by `|element` for each element. */
  function ReplyBody(elems: seq<string>): (r: string)
    ensures |r| >= |ResponseNav|
  {
    if elems == [] then ResponseNav else ReplyBody(elems[..|elems| - 1]) + "|" + elems[|elems| - 1]
  }

  /** The reply the base sends: one record closed by `;`. */
  function Reply(elems: seq<string>): string
  {
    ReplyBody(elems) + ";"
  }

  lemma {:induction false} JoinSnoc(parts: seq<string>, x: string, d: char)
    requires |parts| >= 1
    ensures Join(parts + [x], d) == Join(parts, d) + [d] + x
    decreases |parts|
  {
    if |parts| > 1 {
      JoinSnoc(parts[1..], x, d);
      assert (parts + [x])[1..] == parts[1..] + [x];
    }
  }

  lemma {:induction false} ReplyBodyIsJoin(elems: seq<string>)
    ensures ReplyBody(elems) == Join([ResponseNav] + elems, '|')
  {
    if elems != [] {
      var init := elems[..|elems| - 1];
      ReplyBodyIsJoin(init);
      JoinSnoc([ResponseNav] + init, elems[|elems| - 1], '|');
      assert [ResponseNav] + init + [elems[|elems| - 1]] == [ResponseNav] + elems;
    }
  }

  lemma {:induction false} JoinAvoids(parts: seq<string>, d: char, c: char)
    requires |parts| >= 1 && c != d
    requires forall k :: 0 <= k < |parts| ==> c !in parts[k]
    ensures c !in Join(parts, d)
    decreases |parts|
  {
    if |parts| > 1 {
      JoinAvoids(parts[1..], d, c);
    }
  }

  lemma GpsPlain(tag: string, p: Point)
    requires Plain(tag) && PlainPoint(p)
    ensures '|' !in ConvertToGPS(tag, p) && ';' !in ConvertToGPS(tag, p)
  {
  }

  // The labelled GPS strings of `getWaypoints` carry no record separator.

  lemma BeginApproachPlain(p: Point)
    requires PlainPoint(p)
    ensures '|' !in ConvertToGPS("Begin Approach", p) && ';' !in ConvertToGPS("Begin Approach", p)
  {
    assert Plain("Begin Approach");
    GpsPlain("Begin Approach", p);
  }

  lemma FinalApproachPlain(p: Point)
    requires PlainPoint(p)
    ensures '|' !in ConvertToGPS("Final Approach", p) && ';' !in ConvertToGPS("Final Approach", p)
  {
    assert Plain("Final Approach");
    GpsPlain("Final Approach", p);
  }

  lemma ApproachPlain(p: Point)
    requires PlainPoint(p)
    ensures '|' !in ConvertToGPS("Approach", p) && ';' !in ConvertToGPS("Approach", p)
  {
    assert Plain("Approach");
    GpsPlain("Approach", p);
  }

  lemma DestinationPlain(p: Point)
    requires PlainPoint(p)
    ensures '|' !in ConvertToGPS("Destination", p) && ';' !in ConvertToGPS("Destination", p)
  {
    assert Plain("Destination");
    GpsPlain("Destination", p);
  }

  lemma DeparturePlain(p: Point)
    requires PlainPoint(p)
    ensures '|' !in ConvertToGPS("Departure", p) && ';' !in ConvertToGPS("Departure", p)
  {
    assert Plain("Departure");
    GpsPlain("Departure", p);
  }

  lemma OrientationDownPlain(p: Point)
    requires PlainPoint(p)
    ensures '|' !in ConvertToGPS("Orientation Down", p) && ';' !in ConvertToGPS("Orientation Down", p)
  {
    assert Plain("Orientation Down");
    GpsPlain("Orientation Down", p);
  }

  lemma OrientationForwardPlain(p: Point)
    requires PlainPoint(p)
    ensures '|' !in ConvertToGPS("Orientation Forward", p) && ';' !in ConvertToGPS("Orientation Forward", p)
  {
    assert Plain("Orientation Forward");
    GpsPlain("Orientation Forward", p);
  }

  /** Every element of the base's list is free of `|` and `;`. */
  lemma WaypointsPlain(uniqueId: string, locationName: string, g: Geometry)
    requires Plain(uniqueId) && '|' !in locationName && ';' !in locationName && PlainGeometry(g)
    ensures forall k :: 0 <= k < |GetWaypoints(uniqueId, locationName, g)| ==>
              '|' !in GetWaypoints(uniqueId, locationName, g)[k] && ';' !in GetWaypoints(uniqueId, locationName, g)[k]
  {
    match g
    case SpaceGeometry(ba, fa, fp, dp, dn, fw) =>
      BeginApproachPlain(ba);
      FinalApproachPlain(fa);
      DestinationPlain(fp);
      DeparturePlain(dp);
      OrientationDownPlain(dn);
      OrientationForwardPlain(fw);
    case PlanetGeometry(ap, fp, dp, ori) =>
      ApproachPlain(ap);
      DestinationPlain(fp);
      DeparturePlain(dp);
      OrientationForwardPlain(ori);
  }

  lemma SpaceIsNotPlanet()
    ensures !Contains(Lower("Space"), "planet")
    ensures Contains(Lower("Planet"), "planet")
  {
    assert Lower("Space") == "space";
    assert Lower("Planet") == "planet";
    assert OccursAt("planet", "planet", 0);
  }

  lemma TagPlain()
    ensures Plain(ResponseNav)
  {
  }

  /** A reply body without `;` is read back as one record. */
  lemma SingleRecord(body: string)
    requires ';' !in body && body != ""
    ensures SplitNonEmpty(body + ";", ';') == [body]
  {
    assert Join([body, ""], ';') == body + ";";
    SplitJoin([body, ""], ';');
    assert NonEmpty([body, ""]) == [body] by {
      assert [body, ""][1..] == [""];
      assert NonEmpty([""]) == [] by { assert [""][1..] == []; }
    }
  }

  /** Elements free of both separators come back as the fields of the
      record, after the `RESPONSE_NAV` tag. */
  lemma RecordFields(elems: seq<string>)
    requires forall k :: 0 <= k < |elems| ==> '|' !in elems[k] && ';' !in elems[k]
    ensures Split(ReplyBody(elems), '|') == [ResponseNav] + elems
    ensures ';' !in ReplyBody(elems) && ReplyBody(elems) != ""
  {
    var parts := [ResponseNav] + elems;
    TagPlain();
    forall k | 0 <= k < |parts|
      ensures '|' !in parts[k] && ';' !in parts[k]
    {
      if k > 0 { assert parts[k] == elems[k - 1]; }
    }
    ReplyBodyIsJoin(elems);
    JoinAvoids(parts, '|', ';');
    SplitJoin(parts, '|');
  }

  /** The base's reply reads back on the ship as exactly one record, which
      parses into a destination with the base's id and name, of the base's
      kind, holding the six (space) or four (planet) GPS waypoints. */
  lemma ReplyParsesBack(uniqueId: string, locationName: string, g: Geometry)
    requires Plain(uniqueId) && '|' !in locationName && ';' !in locationName && PlainGeometry(g)
    ensures var w := GetWaypoints(uniqueId, locationName, g);
            SplitNonEmpty(Reply(w), ';') == [ReplyBody(w)] &&
            ParseRecord(ReplyBody(w)) == Some(Destination(w[3..], locationName, uniqueId, g.PlanetGeometry?)) &&
            |w[3..]| == (if g.SpaceGeometry? then 6 else 4)
  {
    var w := GetWaypoints(uniqueId, locationName, g);
    WaypointsPlain(uniqueId, locationName, g);
    RecordFields(w);
    SingleRecord(ReplyBody(w));
    var parts := [ResponseNav] + w;
    assert parts[4..] == w[3..];
    SpaceIsNotPlanet();
  }

  // ---------------------------------------------------------------------
  // The ship's reading of a destination's waypoints
  // ---------------------------------------------------------------------

  /** A vector the autopilot keeps: still the zero default, or a point. */
  datatype Vec = Zero | At(p: Point)

  /** What a waypoint is used for. */
  datatype Role = OrientDown | OrientForward | Approach | Target | Departure | Unused

  /** The `if` chain on the lower-cased name. On a planet only a name with
      both "orientation" and "forward" is an orientation; in space any
      "orientation" name is, and "down" wins over "forward". */
  function RoleOf(name: string, planet: bool): (r: Role)
    ensures !planet && Contains(name, "orientation") ==> r in {OrientDown, OrientForward, Unused}
    ensures r == Approach ==> Contains(name, "approach")
    ensures r == Target ==> Contains(name, "destination") && !Contains(name, "approach")
    ensures r == Departure ==> Contains(name, "departure") && !Contains(name, "approach") && !Contains(name, "destination")
  {
    if !planet && Contains(name, "orientation") then
      if Contains(name, "down") then OrientDown
      else if Contains(name, "forward") then OrientForward
      else Unused
    else if planet && Contains(name, "orientation") && Contains(name, "forward") then OrientForward
    else if Contains(name, "approach") then Approach
    else if Contains(name, "destination") then Target
    else if Contains(name, "departure") then Departure
    else Unused
  }

  /** The point lists and vectors the autopilot fills for one destination. */
  datatype Plan = Plan(approach: seq<Point>, destination: Vec, departure: seq<Point>, down: Vec, forward: Vec)

  const EmptyPlan: Plan := Plan([], Zero, [], Zero, Zero)

  /** One waypoint taken into the plan: approach and departure points are
      appended, the others overwrite. */
  function Assign(plan: Plan, role: Role, p: Point): (r: Plan)
  {
    match role
    case OrientDown => plan.(down := At(p))
    case OrientForward => plan.(forward := At(p))
    case Approach => plan.(approach := plan.approach + [p])
    case Target => plan.(destination := At(p))
    case Departure => plan.(departure := plan.departure + [p])
    case Unused => plan
  }

  /** The classification of all waypoints, in order; a waypoint that is not
      a GPS string makes it fail. */
  function Classified(wpts: seq<string>, planet: bool): (r: Option<Plan>)
  {
    if wpts == [] then Some(EmptyPlan)
    else match (Classified(wpts[..|wpts| - 1], planet), ConvertToVector(wpts[|wpts| - 1]))
      case (Some(plan), Some(w)) => Some(Assign(plan, RoleOf(Lower(w.name), planet), w.point))
      case _ => None
  }

  /** The destination point is the last one named so: a later "destination"
      waypoint replaces an earlier one, and nothing but such a waypoint
      changes it. */
  lemma LastDestinationWins(wpts: seq<string>, planet: bool, gps: string)
    requires Classified(wpts, planet).Some? && ConvertToVector(gps).Some?
    requires RoleOf(Lower(ConvertToVector(gps).value.name), planet) == Target
    ensures Classified(wpts + [gps], planet) ==
              Some(Classified(wpts, planet).value.(destination := At(ConvertToVector(gps).value.point)))
  {
    assert (wpts + [gps])[..|wpts|] == wpts;
  }

  // Which role words the lower-cased labels of `getWaypoints` contain.

  lemma BeginApproachWords(n: string)
    requires n == "begin approach"
    ensures !Contains(n, "orientation") && Contains(n, "approach")
  {
    MissingChar(n, "orientation", 't');
    assert OccursAt(n, "approach", 6);
  }

  lemma FinalApproachWords(n: string)
    requires n == "final approach"
    ensures !Contains(n, "orientation") && Contains(n, "approach")
  {
    MissingChar(n, "orientation", 'e');
    assert OccursAt(n, "approach", 6);
  }

  lemma ApproachWords(n: string)
    requires n == "approach"
    ensures !Contains(n, "orientation") && Contains(n, "approach")
  {
    MissingChar(n, "orientation", 't');
    assert OccursAt(n, "approach", 0);
  }

  lemma DestinationWords(n: string)
    requires n == "destination"
    ensures !Contains(n, "orientation") && !Contains(n, "approach") && Contains(n, "destination")
  {
    MissingChar(n, "orientation", 'r');
    MissingChar(n, "approach", 'p');
    assert OccursAt(n, "destination", 0);
  }

  lemma DepartureWords(n: string)
    requires n == "departure"
    ensures !Contains(n, "orientation") && !Contains(n, "approach") && !Contains(n, "destination")
    ensures Contains(n, "departure")
  {
    MissingChar(n, "orientation", 'o');
    MissingChar(n, "approach", 'o');
    MissingChar(n, "destination", 's');
    assert OccursAt(n, "departure", 0);
  }

  lemma OrientationDownWords(n: string)
    requires n == "orientation down"
    ensures Contains(n, "orientation") && Contains(n, "down")
  {
    assert OccursAt(n, "orientation", 0);
    assert OccursAt(n, "down", 12);
  }

  lemma OrientationForwardWords(n: string)
    requires n == "orientation forward"
    ensures Contains(n, "orientation") && Contains(n, "forward") && !Contains(n, "down")
  {
    assert OccursAt(n, "orientation", 0);
    assert OccursAt(n, "forward", 12);
    FirstCharAbsent(n, "down");
  }

  // The role each label of `getWaypoints` gets on the ship.

  lemma BeginApproachRole(planet: bool)
    ensures RoleOf(Lower("Begin Approach"), planet) == Approach
  {
    var n := Lower("Begin Approach");
    assert n == "begin approach";
    BeginApproachWords(n);
  }

  lemma FinalApproachRole(planet: bool)
    ensures RoleOf(Lower("Final Approach"), planet) == Approach
  {
    var n := Lower("Final Approach");
    assert n == "final approach";
    FinalApproachWords(n);
  }

  lemma ApproachRole(planet: bool)
    ensures RoleOf(Lower("Approach"), planet) == Approach
  {
    var n := Lower("Approach");
    assert n == "approach";
    ApproachWords(n);
  }

  lemma DestinationRole(planet: bool)
    ensures RoleOf(Lower("Destination"), planet) == Target
  {
    var n := Lower("Destination");
    assert n == "destination";
    DestinationWords(n);
  }

  lemma DepartureRole(planet: bool)
    ensures RoleOf(Lower("Departure"), planet) == Departure
  {
    var n := Lower("Departure");
    assert n == "departure";
    DepartureWords(n);
  }

  lemma OrientationDownRole(planet: bool)
    requires !planet
    ensures RoleOf(Lower("Orientation Down"), planet) == OrientDown
  {
    var n := Lower("Orientation Down");
    assert n == "orientation down";
    OrientationDownWords(n);
  }

  lemma OrientationForwardRole(planet: bool)
    ensures RoleOf(Lower("Orientation Forward"), planet) == OrientForward
  {
    var n := Lower("Orientation Forward");
    assert n == "orientation forward";
    OrientationForwardWords(n);
  }

  /** Classifying one more waypoint. */
  lemma ClassifiedSnoc(init: seq<string>, gps: string, planet: bool, w: Waypoint, plan: Plan, role: Role)
    requires Classified(init, planet) == Some(plan) && ConvertToVector(gps) == Some(w)
    requires RoleOf(Lower(w.name), planet) == role
    ensures Classified(init + [gps], planet) == Some(Assign(plan, role, w.point))
  {
    assert (init + [gps])[..|init|] == init;
  }

  /** The same inside a longer list. */
  lemma ClassifiedSlice(all: seq<string>, lo: nat, k: nat, planet: bool, w: Waypoint, plan: Plan, role: Role)
    requires lo <= k < |all| && ConvertToVector(all[k]) == Some(w)
    requires Classified(all[lo..k], planet) == Some(plan)
    requires RoleOf(Lower(w.name), planet) == role
    ensures Classified(all[lo..k + 1], planet) == Some(Assign(plan, role, w.point))
  {
    assert all[lo..k + 1] == all[lo..k] + [all[k]];
    ClassifiedSnoc(all[lo..k], all[k], planet, w, plan, role);
  }

  // One labelled waypoint of `getWaypoints` classified after the ones before it.

  lemma BeginApproachStep(all: seq<string>, lo: nat, k: nat, planet: bool, p: Point, plan: Plan)
    requires lo <= k < |all| && all[k] == ConvertToGPS("Begin Approach", p) && PlainPoint(p)
    requires Classified(all[lo..k], planet) == Some(plan)
    ensures Classified(all[lo..k + 1], planet) == Some(Assign(plan, Approach, p))
  {
    assert Plain("Begin Approach");
    BeginApproachRole(planet);
    GpsRoundTrip("Begin Approach", p);
    ClassifiedSlice(all, lo, k, planet, Waypoint("Begin Approach", p), plan, Approach);
  }

  lemma FinalApproachStep(all: seq<string>, lo: nat, k: nat, planet: bool, p: Point, plan: Plan)
    requires lo <= k < |all| && all[k] == ConvertToGPS("Final Approach", p) && PlainPoint(p)
    requires Classified(all[lo..k], planet) == Some(plan)
    ensures Classified(all[lo..k + 1], planet) == Some(Assign(plan, Approach, p))
  {
    assert Plain("Final Approach");
    FinalApproachRole(planet);
    GpsRoundTrip("Final Approach", p);
    ClassifiedSlice(all, lo, k, planet, Waypoint("Final Approach", p), plan, Approach);
  }

  lemma ApproachStep(all: seq<string>, lo: nat, k: nat, planet: bool, p: Point, plan: Plan)
    requires lo <= k < |all| && all[k] == ConvertToGPS("Approach", p) && PlainPoint(p)
    requires Classified(all[lo..k], planet) == Some(plan)
    ensures Classified(all[lo..k + 1], planet) == Some(Assign(plan, Approach, p))
  {
    assert Plain("Approach");
    ApproachRole(planet);
    GpsRoundTrip("Approach", p);
    ClassifiedSlice(all, lo, k, planet, Waypoint("Approach", p), plan, Approach);
  }

  lemma DestinationStep(all: seq<string>, lo: nat, k: nat, planet: bool, p: Point, plan: Plan)
    requires lo <= k < |all| && all[k] == ConvertToGPS("Destination", p) && PlainPoint(p)
    requires Classified(all[lo..k], planet) == Some(plan)
    ensures Classified(all[lo..k + 1], planet) == Some(Assign(plan, Target, p))
  {
    assert Plain("Destination");
    DestinationRole(planet);
    GpsRoundTrip("Destination", p);
    ClassifiedSlice(all, lo, k, planet, Waypoint("Destination", p), plan, Target);
  }

  lemma DepartureStep(all: seq<string>, lo: nat, k: nat, planet: bool, p: Point, plan: Plan)
    requires lo <= k < |all| && all[k] == ConvertToGPS("Departure", p) && PlainPoint(p)
    requires Classified(all[lo..k], planet) == Some(plan)
    ensures Classified(all[lo..k + 1], planet) == Some(Assign(plan, Departure, p))
  {
    assert Plain("Departure");
    DepartureRole(planet);
    GpsRoundTrip("Departure", p);
    ClassifiedSlice(all, lo, k, planet, Waypoint("Departure", p), plan, Departure);
  }

  lemma OrientationDownStep(all: seq<string>, lo: nat, k: nat, planet: bool, p: Point, plan: Plan)
    requires !planet
    requires lo <= k < |all| && all[k] == ConvertToGPS("Orientation Down", p) && PlainPoint(p)
    requires Classified(all[lo..k], planet) == Some(plan)
    ensures Classified(all[lo..k + 1], planet) == Some(Assign(plan, OrientDown, p))
  {
    assert Plain("Orientation Down");
    OrientationDownRole(planet);
    GpsRoundTrip("Orientation Down", p);
    ClassifiedSlice(all, lo, k, planet, Waypoint("Orientation Down", p), plan, OrientDown);
  }

  lemma OrientationForwardStep(all: seq<string>, lo: nat, k: nat, planet: bool, p: Point, plan: Plan)
    requires lo <= k < |all| && all[k] == ConvertToGPS("Orientation Forward", p) && PlainPoint(p)
    requires Classified(all[lo..k], planet) == Some(plan)
    ensures Classified(all[lo..k + 1], planet) == Some(Assign(plan, OrientForward, p))
  {
    assert Plain("Orientation Forward");
    OrientationForwardRole(planet);
    GpsRoundTrip("Orientation Forward", p);
    ClassifiedSlice(all, lo, k, planet, Waypoint("Orientation Forward", p), plan, OrientForward);
  }

  /** The plan a space base's six waypoints build up. */
  lemma SpacePlanShape(ba: Point, fa: Point, fp: Point, dp: Point, dn: Point, fw: Point)
    ensures Assign(Assign(Assign(Assign(Assign(Assign(EmptyPlan, Approach, ba), Approach, fa), Target, fp),
              Departure, dp), OrientDown, dn), OrientForward, fw) == Plan([ba, fa], At(fp), [dp], At(dn), At(fw))
  {
    assert [] + [ba] + [fa] == [ba, fa];
    assert [] + [dp] == [dp];
  }

  /** The plan a planet base's four waypoints build up. */
  lemma PlanetPlanShape(ap: Point, fp: Point, dp: Point, ori: Point)
    ensures Assign(Assign(Assign(Assign(EmptyPlan, Approach, ap), Target, fp), Departure, dp), OrientForward, ori) ==
              Plan([ap], At(fp), [dp], Zero, At(ori))
  {
    assert [] + [ap] == [ap];
    assert [] + [dp] == [dp];
  }

  /** Read on the ship, a space base's waypoints give two approach points
      (begin, then final), the point in front of the connector, one
      departure point and both orientations. */
  lemma SpaceWaypointsClassify(uniqueId: string, locationName: string, ba: Point, fa: Point, fp: Point, dp: Point, dn: Point, fw: Point)
    requires PlainGeometry(SpaceGeometry(ba, fa, fp, dp, dn, fw))
    ensures Classified(GetWaypoints(uniqueId, locationName, SpaceGeometry(ba, fa, fp, dp, dn, fw))[3..], false) ==
              Some(Plan([ba, fa], At(fp), [dp], At(dn), At(fw)))
  {
    var all := GetWaypoints(uniqueId, locationName, SpaceGeometry(ba, fa, fp, dp, dn, fw));
    assert all[3..3] == [];
    BeginApproachStep(all, 3, 3, false, ba, EmptyPlan);
    var p1 := Assign(EmptyPlan, Approach, ba);
    FinalApproachStep(all, 3, 4, false, fa, p1);
    var p2 := Assign(p1, Approach, fa);
    DestinationStep(all, 3, 5, false, fp, p2);
    var p3 := Assign(p2, Target, fp);
    DepartureStep(all, 3, 6, false, dp, p3);
    var p4 := Assign(p3, Departure, dp);
    OrientationDownStep(all, 3, 7, false, dn, p4);
    var p5 := Assign(p4, OrientDown, dn);
    OrientationForwardStep(all, 3, 8, false, fw, p5);
    assert all[3..9] == all[3..];
    SpacePlanShape(ba, fa, fp, dp, dn, fw);
  }

  /** Read on the ship, a planet base's waypoints give one approach point,
      the landing point, one departure point and the forward orientation;
      the down orientation stays zero. */
  lemma PlanetWaypointsClassify(uniqueId: string, locationName: string, ap: Point, fp: Point, dp: Point, ori: Point)
    requires PlainGeometry(PlanetGeometry(ap, fp, dp, ori))
    ensures Classified(GetWaypoints(uniqueId, locationName, PlanetGeometry(ap, fp, dp, ori))[3..], true) ==
              Some(Plan([ap], At(fp), [dp], Zero, At(ori)))
  {
    var all := GetWaypoints(uniqueId, locationName, PlanetGeometry(ap, fp, dp, ori));
    assert all[3..3] == [];
    ApproachStep(all, 3, 3, true, ap, EmptyPlan);
    var p1 := Assign(EmptyPlan, Approach, ap);
    DestinationStep(all, 3, 4, true, fp, p1);
    var p2 := Assign(p1, Target, fp);
    DepartureStep(all, 3, 5, true, dp, p2);
    var p3 := Assign(p2, Departure, dp);
    OrientationForwardStep(all, 3, 6, true, ori, p3);
    assert all[3..7] == all[3..];
    PlanetPlanShape(ap, fp, dp, ori);
  }
}

=== FILE: old_hangar.dfy ===
/** The earlier hangar controller of `Old/Hangar.cs`.

    A `HangarController` keeps a list of delayed requests, each counting down
    in seconds. `ProcessDelayedRequests` is registered to run once per second:
    a request with time left is re-queued with one second less, a request at
    zero runs its action (`open`, `lock`, or the `close` default) and is
    dropped. Closing enqueues the group on a FIFO queue and registers a
    pressure event; when that event fires, `PressurizationComplete` marks the
    oldest queued group closed.

    The source walks the list forwards while removing from it; the model keeps
    that pass as written (`ProcessDelayedRequestsAsWritten`) and uses a
    corrected pass that handles every request once (`ProcessDelayedRequests`). */
module OldHangar {
  import opened Text
  import Hangar2

  type Device = Hangar2.Device
  type Action = Hangar2.Action

  const Groups: seq<string> := ["Hangar", "Garage", "Workshop"]
  const NumGroups: int := 3
  const NumberSecondsBeforeOpen: int := 10
  const NumberSecondsBeforeClose: int := 5

  /** A position in `Groups`: requests and the queue only ever hold these. */
  type GroupId = g: int | 0 <= g < NumGroups

  /** The action names a request is created with. The `switch` sends any
      other name to the `close` case; the script creates no other name. */
  datatype Kind = Lock | Open | Close

  /** The `delayedRequest` struct; compared by value, like a C# struct. */
  datatype Request = Request(groupNum: GroupId, action: Kind, timeRemaining: int)

  datatype Command =
      /** an action applied to every block of one list of the group */
    | Each(group: int, device: Device, action: Action)
      /** the group's sound blocks: loop length set, then `PlaySound` */
    | Alarm(group: int, seconds: int)
      /** an event registered on the group's first air vent: room pressure at least 99 */
    | AwaitPressure(group: int)

  /** The state a pass writes besides the request list: one open flag per
      group, the queue of groups waiting for pressure, and the commands. */
  datatype Outcome = Outcome(open: seq<bool>, queue: seq<GroupId>, cmds: seq<Command>)

  datatype Written = Written(reqs: seq<Request>, out: Outcome)

  function RemoveAt<T>(s: seq<T>, i: nat): seq<T>
    requires i < |s|
  {
    s[..i] + s[i + 1..]
  }

  function InsertAt<T>(s: seq<T>, i: nat, x: T): seq<T>
    requires i <= |s|
  {
    s[..i] + [x] + s[i..]
  }

  /** `list.RemoveAt(i); list.Insert(i, v)`: the list keeps its length and
      only entry `i` changes. */
  function Reinsert<T>(s: seq<T>, i: nat, v: T): (r: seq<T>)
    requires i < |s|
    ensures r == s[i := v]
  {
    var removed := RemoveAt(s, i);
    assert removed[..i] == s[..i] && removed[i..] == s[i + 1..];
    InsertAt(removed, i, v)
  }

  /** The action of a request whose timer reached zero: `open` powers and
      opens the outer doors and marks the hangar open, `lock` closes the
      interior doors, `close` closes the outer doors, queues the group and
      registers the pressure event. */
  function Fire(r: Request, o: Outcome): (p: Outcome)
    requires |o.open| == NumGroups
    ensures |p.open| == NumGroups
    ensures p.open == (if r.action == Open then o.open[r.groupNum := true] else o.open)
    ensures p.queue == (if r.action == Close then o.queue + [r.groupNum] else o.queue)
  {
    var g := r.groupNum;
    match r.action
    case Open =>
      Outcome(Reinsert(o.open, g, true), o.queue,
              o.cmds + [Each(g, Hangar2.InteriorDoors, Hangar2.OnOffOff), Each(g, Hangar2.ExteriorDoors, Hangar2.OnOffOn),
                        Each(g, Hangar2.ExteriorDoors, Hangar2.OpenOn), Each(g, Hangar2.HangarDoors, Hangar2.OpenOn)])
    case Lock =>
      Outcome(o.open, o.queue, o.cmds + [Each(g, Hangar2.InteriorDoors, Hangar2.OpenOff)])
    case Close =>
      Outcome(o.open, o.queue + [g],
              o.cmds + [Each(g, Hangar2.ExteriorDoors, Hangar2.OpenOff), Each(g, Hangar2.HangarDoors, Hangar2.OpenOff), AwaitPressure(g)])
  }

  function Decremented(r: Request): Request
  {
    Request(r.groupNum, r.action, r.timeRemaining - 1)
  }

  // ---------------------------------------------------------------------
  // The pass as written: forward index, `Remove` by value, `Add` at the end
  // ---------------------------------------------------------------------

  /** The loop of `processDelayedRequests` from index `i` on. The list length
      is re-read every iteration: a countdown keeps it, a firing shrinks it. */
  function WrittenFrom(reqs: seq<Request>, i: nat, o: Outcome): (w: Written)
    requires |o.open| == NumGroups
    ensures |w.out.open| == NumGroups
    decreases |reqs| - i
  {
    if i >= |reqs| then Written(reqs, o)
    else
      var req := reqs[i];
      if req.timeRemaining > 0 then
        WrittenFrom(RemoveFirst(reqs, req) + [Decremented(req)], i + 1, o)
      else
        WrittenFrom(RemoveFirst(reqs, req), i + 1, Fire(req, o))
  }

  /** One iteration of the written loop. */
  lemma WrittenStep(reqs: seq<Request>, i: nat, o: Outcome)
    requires |o.open| == NumGroups && i < |reqs|
    ensures WrittenFrom(reqs, i, o) ==
              if reqs[i].timeRemaining > 0 then WrittenFrom(RemoveFirst(reqs, reqs[i]) + [Decremented(reqs[i])], i + 1, o)
              else WrittenFrom(RemoveFirst(reqs, reqs[i]), i + 1, Fire(reqs[i], o))
  {
  }

  // ---------------------------------------------------------------------
  // The pass as intended: every request present at entry handled once
  // ---------------------------------------------------------------------

  /** The requests still waiting after one pass: those with time left, one
      second less, in their original order. */
  function Pending(reqs: seq<Request>): (r: seq<Request>)
    ensures |r| <= |reqs|
  {
    if reqs == [] then []
    else (if reqs[0].timeRemaining > 0 then [Decremented(reqs[0])] else []) + Pending(reqs[1..])
  }

  /** The requests a pass fires, in list order. */
  function Due(reqs: seq<Request>): (r: seq<Request>)
    ensures |r| <= |reqs|
    ensures forall k :: 0 <= k < |r| ==> r[k].timeRemaining <= 0
    ensures forall j :: 0 <= j < |reqs| && reqs[j].timeRemaining <= 0 ==> reqs[j] in r
  {
    if reqs == [] then []
    else
      var r := (if reqs[0].timeRemaining <= 0 then [reqs[0]] else []) + Due(reqs[1..]);
      assert forall j :: 1 <= j < |reqs| ==> reqs[j] == reqs[1..][j - 1];
      r
  }

  /** The requests a pass keeps, as they were before it counted them down. */
  function Waiting(reqs: seq<Request>): (r: seq<Request>)
    ensures |r| <= |reqs|
    ensures forall k :: 0 <= k < |r| ==> r[k].timeRemaining > 0
  {
    if reqs == [] then []
    else (if reqs[0].timeRemaining > 0 then [reqs[0]] else []) + Waiting(reqs[1..])
  }

  /** Firing a list of requests, first to last. */
  function FireAll(due: seq<Request>, o: Outcome): (p: Outcome)
    requires |o.open| == NumGroups
    ensures |p.open| == NumGroups
  {
    if due == [] then o else FireAll(due[1..], Fire(due[0], o))
  }

  /** One corrected pass: the waiting requests counted down, the due ones
      fired in list order. */
  function CorrectedPass(reqs: seq<Request>, o: Outcome): (w: Written)
    requires |o.open| == NumGroups
  {
    Written(Pending(reqs), FireAll(Due(reqs), o))
  }

  /** The corrected loop from index `i` on: a waiting request is overwritten
      in place and the index advances; a due request is fired and removed,
      and the index stays, now pointing at its successor. */
  function CorrectedFrom(reqs: seq<Request>, i: nat, o: Outcome): (w: Written)
    requires |o.open| == NumGroups
    ensures |w.out.open| == NumGroups
    decreases |reqs| - i
  {
    if i >= |reqs| then Written(reqs, o)
    else if reqs[i].timeRemaining > 0 then CorrectedFrom(reqs[i := Decremented(reqs[i])], i + 1, o)
    else CorrectedFrom(RemoveAt(reqs, i), i, Fire(reqs[i], o))
  }

  /** The declarative pass, first request first. */
  lemma PassStep(rest: seq<Request>)
    requires rest != []
    ensures rest[0].timeRemaining > 0 ==>
              Pending(rest) == [Decremented(rest[0])] + Pending(rest[1..]) && Due(rest) == Due(rest[1..])
    ensures rest[0].timeRemaining <= 0 ==>
              Pending(rest) == Pending(rest[1..]) && Due(rest) == [rest[0]] + Due(rest[1..])
  {
  }

  lemma FireAllCons(r: Request, d: seq<Request>, o: Outcome)
    requires |o.open| == NumGroups
    ensures FireAll([r] + d, o) == FireAll(d, Fire(r, o))
  {
    assert ([r] + d)[1..] == d;
  }

  /** The loop agrees with the declarative pass: after the handled prefix
      `done`, the rest is counted down or fired exactly once. */
  lemma {:induction false} CorrectedFromIsPass(done: seq<Request>, rest: seq<Request>, o: Outcome)
    requires |o.open| == NumGroups
    ensures CorrectedFrom(done + rest, |done|, o) == Written(done + Pending(rest), CorrectedPass(rest, o).out)
    decreases |rest|
  {
    var all := done + rest;
    if rest == [] {
      assert all == done + Pending(rest);
    } else {
      var r0 := rest[0];
      assert all[|done|] == r0;
      PassStep(rest);
      if r0.timeRemaining > 0 {
        var done' := done + [Decremented(r0)];
        assert all[|done| := Decremented(r0)] == done' + rest[1..];
        CorrectedFromIsPass(done', rest[1..], o);
        assert done' + Pending(rest[1..]) == done + Pending(rest);
      } else {
        assert RemoveAt(all, |done|) == done + rest[1..];
        CorrectedFromIsPass(done, rest[1..], Fire(r0, o));
        FireAllCons(r0, Due(rest[1..]), o);
      }
    }
  }

  /** Every request is either kept or fired, never both and never lost: the
      waiting requests and the fired ones make up the input. */
  lemma {:induction false} PendingDueSize(reqs: seq<Request>)
    ensures |Pending(reqs)| + |Due(reqs)| == |reqs|
    ensures multiset(Waiting(reqs)) + multiset(Due(reqs)) == multiset(reqs)
    decreases |reqs|
  {
    if reqs != [] {
      PendingDueSize(reqs[1..]);
      assert reqs == [reqs[0]] + reqs[1..];
    }
  }

  /** What a pass keeps is exactly the waiting requests, in order, each one
      second less. */
  lemma {:induction false} PendingIsWaiting(reqs: seq<Request>)
    ensures |Pending(reqs)| == |Waiting(reqs)|
    ensures forall k :: 0 <= k < |Pending(reqs)| ==> Pending(reqs)[k] == Decremented(Waiting(reqs)[k])
    decreases |reqs|
  {
    if reqs != [] {
      PendingIsWaiting(reqs[1..]);
      var n := if reqs[0].timeRemaining > 0 then 1 else 0;
      assert Pending(reqs)[n..] == Pending(reqs[1..]);
      assert Waiting(reqs)[n..] == Waiting(reqs[1..]);
      forall k | n <= k < |Pending(reqs)|
        ensures Pending(reqs)[k] == Decremented(Waiting(reqs)[k])
      {
        assert Pending(reqs)[k] == Pending(reqs[1..])[k - n];
        assert Waiting(reqs)[k] == Waiting(reqs[1..])[k - n];
      }
    }
  }

  /** Requests are only counted down, never invented: every pending request
      is a decremented request of the input. */
  lemma {:induction false} PendingFromInput(reqs: seq<Request>, k: int)
    requires 0 <= k < |Pending(reqs)|
    ensures exists j :: 0 <= j < |reqs| && reqs[j].timeRemaining > 0 && Pending(reqs)[k] == Decremented(reqs[j])
    decreases |reqs|
  {
    var head := if reqs[0].timeRemaining > 0 then [Decremented(reqs[0])] else [];
    assert Pending(reqs) == head + Pending(reqs[1..]);
    if k < |head| {
      assert reqs[0].timeRemaining > 0 && Pending(reqs)[k] == Decremented(reqs[0]);
    } else {
      PendingFromInput(reqs[1..], k - |head|);
      var j :| 0 <= j < |reqs[1..]| && reqs[1..][j].timeRemaining > 0 && Pending(reqs[1..])[k - |head|] == Decremented(reqs[1..][j]);
      assert reqs[j + 1] == reqs[1..][j];
    }
  }

  /** While every request has time left, a pass fires nothing and counts
      every request down by exactly one, in place. */
  lemma {:induction false} PendingAllWaiting(reqs: seq<Request>)
    requires forall k :: 0 <= k < |reqs| ==> reqs[k].timeRemaining > 0
    ensures Pending(reqs) == seq(|reqs|, k requires 0 <= k < |reqs| => Decremented(reqs[k]))
    ensures Due(reqs) == []
    decreases |reqs|
  {
    if reqs != [] {
      PendingAllWaiting(reqs[1..]);
    }
  }

  /** The intended pass fires every request that is due, in list order, and
      keeps none of them. */
  lemma {:induction false} DueAllFire(reqs: seq<Request>)
    requires forall k :: 0 <= k < |reqs| ==> reqs[k].timeRemaining <= 0
    ensures Pending(reqs) == [] && Due(reqs) == reqs
    decreases |reqs|
  {
    if reqs != [] {
      DueAllFire(reqs[1..]);
      assert reqs == [reqs[0]] + reqs[1..];
    }
  }

  // ---------------------------------------------------------------------
  // Scenarios
  // ---------------------------------------------------------------------

  /** The state after `n` corrected passes with no new request. */
  function Passes(n: nat, reqs: seq<Request>, o: Outcome): (w: Written)
    requires |o.open| == NumGroups
    ensures |w.out.open| == NumGroups
    decreases n
  {
    if n == 0 then Written(reqs, o)
    else
      var w := CorrectedPass(reqs, o);
      Passes(n - 1, w.reqs, w.out)
  }

  /** A pass over `lock` and `open`, both with time left. */
  lemma WaitingPass(g: GroupId, a: int, b: int, o: Outcome)
    requires |o.open| == NumGroups && a > 0 && b > 0
    ensures CorrectedPass([Request(g, Lock, a), Request(g, Open, b)], o) == Written([Request(g, Lock, a - 1), Request(g, Open, b - 1)], o)
  {
    PendingAllWaiting([Request(g, Lock, a), Request(g, Open, b)]);
  }

  /** Opening a closed hangar queues `lock` and `open`; the corrected pass
      counts both down together, one second per pass: `t` passes begin with
      `n` countdowns. */
  lemma {:induction false} PassesCountdown(n: nat, t: nat, g: GroupId, a: int, b: int, o: Outcome)
    requires |o.open| == NumGroups && n <= a && n <= b && n <= t
    ensures Passes(t, [Request(g, Lock, a), Request(g, Open, b)], o)
            == Passes(t - n, [Request(g, Lock, a - n), Request(g, Open, b - n)], o)
    decreases n
  {
    if n > 0 {
      WaitingPass(g, a, b, o);
      PassesCountdown(n - 1, t - 1, g, a - 1, b - 1, o);
    }
  }

  /** The passes of the corrected opening schedule after the countdown. */
  lemma ScheduleSteps(g: GroupId, o: Outcome)
    requires |o.open| == NumGroups
    ensures CorrectedPass([Request(g, Lock, 0), Request(g, Open, 2)], o) == Written([Request(g, Open, 1)], Fire(Request(g, Lock, 0), o))
    ensures var o11 := Fire(Request(g, Lock, 0), o);
            CorrectedPass([Request(g, Open, 1)], o11) == Written([Request(g, Open, 0)], o11)
    ensures var o11 := Fire(Request(g, Lock, 0), o);
            CorrectedPass([Request(g, Open, 0)], o11) == Written([], Fire(Request(g, Open, 0), o11))
  {
    var s10 := [Request(g, Lock, 0), Request(g, Open, 2)];
    assert Pending(s10) == [Request(g, Open, 1)];
    assert Due(s10) == [Request(g, Lock, 0)];
    var o11 := Fire(Request(g, Lock, 0), o);
    assert FireAll(Due(s10), o) == o11;
    PendingAllWaiting([Request(g, Open, 1)]);
    DueAllFire([Request(g, Open, 0)]);
    assert FireAll([Request(g, Open, 0)], o11) == Fire(Request(g, Open, 0), o11);
  }

  /** With the corrected pass, opening a closed hangar fires `lock` on the
      11th pass and `open` on the 13th: the interior doors close while the
      12-second alarm sounds, and the hangar is marked open after it. */
  lemma CorrectedOpenSchedule(g: GroupId, o: Outcome)
    requires |o.open| == NumGroups
    ensures Passes(11, [Request(g, Lock, 10), Request(g, Open, 12)], o)
            == Written([Request(g, Open, 1)], Fire(Request(g, Lock, 0), o))
    ensures Passes(13, [Request(g, Lock, 10), Request(g, Open, 12)], o)
            == Written([], Fire(Request(g, Open, 0), Fire(Request(g, Lock, 0), o)))
    ensures Passes(13, [Request(g, Lock, 10), Request(g, Open, 12)], o).out.open == o.open[g := true]
  {
    var o11 := Fire(Request(g, Lock, 0), o);
    ScheduleSteps(g, o);
    PassesCountdown(10, 11, g, 10, 12, o);
    PassesCountdown(10, 13, g, 10, 12, o);
    assert Passes(3, [Request(g, Lock, 0), Request(g, Open, 2)], o) == Passes(2, [Request(g, Open, 1)], o11);
    assert Passes(2, [Request(g, Open, 1)], o11) == Passes(1, [Request(g, Open, 0)], o11);
  }

  /** As written, the first pass after opening is requested counts `lock`
      down twice and `open` not at all: the re-appended copy of `lock` is
      reached again in the same pass, and `open`, moved into the slot just
      visited, is skipped. */
  lemma AsWrittenUnevenCountdown(g: GroupId, o: Outcome)
    requires |o.open| == NumGroups
    ensures WrittenFrom([Request(g, Lock, 10), Request(g, Open, 12)], 0, o).reqs == [Request(g, Open, 12), Request(g, Lock, 8)]
  {
    var l10, o12 := Request(g, Lock, 10), Request(g, Open, 12);
    var start := [l10, o12];
    assert IndexOf(start, l10) == 0;
    assert RemoveFirst(start, l10) == [o12];
    var s1 := [o12, Request(g, Lock, 9)];
    assert [o12] + [Decremented(l10)] == s1;
    assert WrittenFrom(start, 0, o) == WrittenFrom(s1, 1, o);
    assert IndexOf(s1, s1[1]) == 1;
    assert RemoveFirst(s1, s1[1]) == [o12];
    var s2 := [o12, Request(g, Lock, 8)];
    assert [o12] + [Decremented(s1[1])] == s2;
    assert WrittenFrom(s1, 1, o) == WrittenFrom(s2, 2, o);
  }

  /** As written, a request that fires moves its successor into the slot just
      visited, so of two requests due together only the first fires in this
      pass. */
  lemma AsWrittenSkipsAfterFiring(g: GroupId, o: Outcome)
    requires |o.open| == NumGroups
    ensures WrittenFrom([Request(g, Lock, 0), Request(g, Open, 0)], 0, o).reqs == [Request(g, Open, 0)]
    ensures WrittenFrom([Request(g, Lock, 0), Request(g, Open, 0)], 0, o).out.open == o.open
  {
    var l0, o0 := Request(g, Lock, 0), Request(g, Open, 0);
    var start := [l0, o0];
    assert IndexOf(start, l0) == 0;
    assert RemoveFirst(start, l0) == [o0];
    var o1 := Fire(l0, o);
    assert WrittenFrom(start, 0, o) == WrittenFrom([o0], 1, o1);
  }

  // ---------------------------------------------------------------------
  // Pressurization completion
  // ---------------------------------------------------------------------

  /** `pressurizationComplete` as written: whichever group's vent event fired,
      the oldest queued group is the one marked closed. An empty queue makes
      `Dequeue` throw. */
  function CompleteOldest(vent: GroupId, o: Outcome): (r: Option<Outcome>)
    requires |o.open| == NumGroups
    ensures r.None? <==> o.queue == []
    ensures r.Some? ==> r.value.queue == o.queue[1..] && r.value.open == o.open[o.queue[0] := false]
  {
    if o.queue == [] then None
    else
      var g := o.queue[0];
      Some(Outcome(Reinsert(o.open, g, false), o.queue[1..],
                   o.cmds + [Each(g, Hangar2.WarningLights, Hangar2.OnOffOff), Each(g, Hangar2.InteriorDoors, Hangar2.OnOffOn),
                             Each(g, Hangar2.ExteriorDoors, Hangar2.OnOffOff)]))
  }

  /** The completion the pressure event evidently intends: the group whose
      vent reached pressure is taken off the queue and marked closed. */
  function CompleteFor(vent: GroupId, o: Outcome): (r: Option<Outcome>)
    requires |o.open| == NumGroups
    ensures r.None? <==> vent !in o.queue
    ensures r.Some? ==> r.value.open == o.open[vent := false]
                        && multiset(r.value.queue) == multiset(o.queue) - multiset{vent}
  {
    if vent !in o.queue then None
    else
      RemoveFirstMultiset(o.queue, vent);
      Some(Outcome(Reinsert(o.open, vent, false), RemoveFirst(o.queue, vent),
                   o.cmds + [Each(vent, Hangar2.WarningLights, Hangar2.OnOffOff), Each(vent, Hangar2.InteriorDoors, Hangar2.OnOffOn),
                             Each(vent, Hangar2.ExteriorDoors, Hangar2.OnOffOff)]))
  }

  /** Two hangars closing, the second one's vent pressurized first: as
      written, the first hangar, still at vacuum, is marked closed and its
      interior doors are powered; the intended completion marks the second. */
  lemma AsWrittenCompletesWrongGroup(o: Outcome)
    requires |o.open| == NumGroups && o.queue == [0, 1]
    ensures CompleteOldest(1, o).Some? && CompleteOldest(1, o).value.open == o.open[0 := false]
    ensures CompleteOldest(1, o).value.cmds[|o.cmds| + 1] == Each(0, Hangar2.InteriorDoors, Hangar2.OnOffOn)
    ensures CompleteFor(1, o).Some? && CompleteFor(1, o).value.open == o.open[1 := false]
    ensures CompleteFor(1, o).value.queue == [0]
  {
    assert IndexOf(o.queue, 1) == 1;
  }

  // ---------------------------------------------------------------------
  // The controller
  // ---------------------------------------------------------------------

  class HangarController {
    var delayedRequests: seq<Request>
    var pressurizeGroups: seq<GroupId>
    var hangarOpen: seq<bool>

    ghost predicate Valid()
      reads this
    {
      |hangarOpen| == NumGroups
    }

    /** Request, queue and flag initialisation: every configured group starts
        closed. */
    constructor ()
      ensures Valid()
      ensures forall g :: 0 <= g < NumGroups ==> !hangarOpen[g]
      ensures delayedRequests == [] && pressurizeGroups == []
    {
      delayedRequests := [];
      pressurizeGroups := [];
      var flags: seq<bool> := [];
      var i := 0;
      while i < |Groups|
        invariant 0 <= i <= |Groups| && |flags| == i
        invariant forall k :: 0 <= k < i ==> !flags[k]
      {
        flags := flags + [false];
        i := i + 1;
      }
      hangarOpen := flags;
    }

    /** `processRequest`: a configured group name schedules `lock` in 10 s and
        `open` in 12 s on a closed hangar, `close` in 5 s on an open one; any
        other name throws and changes nothing. */
    method ProcessRequest(request: string) returns (cmds: seq<Command>, ok: bool)
      requires Valid()
      modifies this
      ensures Valid()
      ensures ok <==> request in Groups
      ensures pressurizeGroups == old(pressurizeGroups) && hangarOpen == old(hangarOpen)
      ensures !ok ==> delayedRequests == old(delayedRequests) && cmds == []
      ensures ok ==> exists g: GroupId :: (Groups[g] == request &&
                     delayedRequests == old(delayedRequests) +
                       (if !hangarOpen[g] then [Request(g, Lock, NumberSecondsBeforeOpen), Request(g, Open, NumberSecondsBeforeOpen + 2)]
                        else [Request(g, Close, NumberSecondsBeforeClose)]))
    {
      if request !in Groups {
        return [], false;
      }
      var g: GroupId := IndexOf(Groups, request);
      if !hangarOpen[g] {
        cmds := [Each(g, Hangar2.WarningLights, Hangar2.OnOffOn), Alarm(g, NumberSecondsBeforeOpen + 2)];
        delayedRequests := delayedRequests + [Request(g, Lock, NumberSecondsBeforeOpen)];
        delayedRequests := delayedRequests + [Request(g, Open, NumberSecondsBeforeOpen + 2)];
      } else {
        cmds := [Each(g, Hangar2.WarningLights, Hangar2.OnOffOn), Alarm(g, NumberSecondsBeforeClose)];
        delayedRequests := delayedRequests + [Request(g, Close, NumberSecondsBeforeClose)];
      }
      ok := true;
    }

    /** `processDelayedRequests` as written: a forward loop that removes the
        visited request by value and appends its decremented copy. */
    method ProcessDelayedRequestsAsWritten() returns (cmds: seq<Command>)
      requires Valid()
      modifies this
      ensures Valid()
      ensures var w := WrittenFrom(old(delayedRequests), 0, Outcome(old(hangarOpen), old(pressurizeGroups), []));
              delayedRequests == w.reqs && Outcome(hangarOpen, pressurizeGroups, cmds) == w.out
    {
      ghost var goal := WrittenFrom(delayedRequests, 0, Outcome(hangarOpen, pressurizeGroups, []));
      cmds := [];
      var i := 0;
      while i < |delayedRequests|
        invariant Valid()
        invariant WrittenFrom(delayedRequests, i, Outcome(hangarOpen, pressurizeGroups, cmds)) == goal
        decreases |delayedRequests| - i
      {
        cmds := VisitAsWritten(i, cmds);
        i := i + 1;
      }
    }

    /** One iteration of the written loop: the request at `i` is removed by
        value, and either re-appended with one second less or fired. */
    method VisitAsWritten(i: nat, cmds0: seq<Command>) returns (cmds: seq<Command>)
      requires Valid() && i < |delayedRequests|
      modifies this
      ensures Valid() && |delayedRequests| <= |old(delayedRequests)|
      ensures WrittenFrom(delayedRequests, i + 1, Outcome(hangarOpen, pressurizeGroups, cmds))
              == WrittenFrom(old(delayedRequests), i, Outcome(old(hangarOpen), old(pressurizeGroups), cmds0))
    {
      var req := delayedRequests[i];
      ghost var before, o := delayedRequests, Outcome(hangarOpen, pressurizeGroups, cmds0);
      WrittenStep(before, i, o);
      var timeRemain := req.timeRemaining;
      if timeRemain > 0 {
        timeRemain := timeRemain - 1;
        assert Request(req.groupNum, req.action, timeRemain) == Decremented(before[i]);
        delayedRequests := RemoveFirst(delayedRequests, req);
        assert delayedRequests == RemoveFirst(before, before[i]);
        delayedRequests := delayedRequests + [Request(req.groupNum, req.action, timeRemain)];
        cmds := cmds0;
      } else {
        cmds := FireRequest(req, cmds0);
        assert Outcome(hangarOpen, pressurizeGroups, cmds) == Fire(before[i], o);
        delayedRequests := RemoveFirst(delayedRequests, req);
        assert delayedRequests == RemoveFirst(before, before[i]);
      }
    }

    /** The corrected pass: each request present at entry is counted down or
        fired exactly once, in list order. */
    method ProcessDelayedRequests() returns (cmds: seq<Command>)
      requires Valid()
      modifies this
      ensures Valid()
      ensures Written(delayedRequests, Outcome(hangarOpen, pressurizeGroups, cmds))
              == CorrectedPass(old(delayedRequests), Outcome(old(hangarOpen), old(pressurizeGroups), []))
    {
      ghost var goal := CorrectedFrom(delayedRequests, 0, Outcome(hangarOpen, pressurizeGroups, []));
      CorrectedFromIsPass([], delayedRequests, Outcome(hangarOpen, pressurizeGroups, []));
      assert [] + delayedRequests == delayedRequests;
      cmds := [];
      var i := 0;
      while i < |delayedRequests|
        invariant Valid() && i <= |delayedRequests|
        invariant CorrectedFrom(delayedRequests, i, Outcome(hangarOpen, pressurizeGroups, cmds)) == goal
        decreases |delayedRequests| - i
      {
        var req := delayedRequests[i];
        if req.timeRemaining > 0 {
          delayedRequests := delayedRequests[i := Decremented(req)];
          i := i + 1;
        } else {
          cmds := FireRequest(req, cmds);
          delayedRequests := RemoveAt(delayedRequests, i);
        }
      }
    }

    /** The switch on a request at zero; writes the flags and the queue. */
    method FireRequest(req: Request, cmds0: seq<Command>) returns (cmds: seq<Command>)
      requires Valid()
      modifies this
      ensures Valid() && delayedRequests == old(delayedRequests)
      ensures Outcome(hangarOpen, pressurizeGroups, cmds) == Fire(req, Outcome(old(hangarOpen), old(pressurizeGroups), cmds0))
    {
      var g := req.groupNum;
      match req.action {
        case Open =>
          cmds := cmds0 + [Each(g, Hangar2.InteriorDoors, Hangar2.OnOffOff), Each(g, Hangar2.ExteriorDoors, Hangar2.OnOffOn),
                           Each(g, Hangar2.ExteriorDoors, Hangar2.OpenOn), Each(g, Hangar2.HangarDoors, Hangar2.OpenOn)];
          hangarOpen := RemoveAt(hangarOpen, g);
          hangarOpen := InsertAt(hangarOpen, g, true);
        case Lock =>
          cmds := cmds0 + [Each(g, Hangar2.InteriorDoors, Hangar2.OpenOff)];
        case Close =>
          cmds := cmds0 + [Each(g, Hangar2.ExteriorDoors, Hangar2.OpenOff), Each(g, Hangar2.HangarDoors, Hangar2.OpenOff)];
          pressurizeGroups := pressurizeGroups + [g];
          cmds := cmds + [AwaitPressure(g)];
      }
    }

    /** `pressurizationComplete`, run when the event on `vent`'s air vent
        fires; as written it ignores `vent`. */
    method PressurizationComplete(vent: GroupId) returns (cmds: seq<Command>, ok: bool)
      requires Valid()
      modifies this
      ensures Valid() && delayedRequests == old(delayedRequests)
      ensures var r := CompleteOldest(vent, Outcome(old(hangarOpen), old(pressurizeGroups), []));
              && (ok <==> r.Some?)
              && (ok ==> Outcome(hangarOpen, pressurizeGroups, cmds) == r.value)
              && (!ok ==> hangarOpen == old(hangarOpen) && pressurizeGroups == old(pressurizeGroups) && cmds == [])
    {
      if pressurizeGroups == [] {
        return [], false;
      }
      var g := pressurizeGroups[0];
      pressurizeGroups := pressurizeGroups[1..];
      cmds := [Each(g, Hangar2.WarningLights, Hangar2.OnOffOff), Each(g, Hangar2.InteriorDoors, Hangar2.OnOffOn),
               Each(g, Hangar2.ExteriorDoors, Hangar2.OnOffOff)];
      hangarOpen := RemoveAt(hangarOpen, g);
      hangarOpen := InsertAt(hangarOpen, g, false);
      ok := true;
    }

    /** The completion as evidently intended: the event on `vent`'s air vent
        closes that group, wherever it stands in the queue. */
    method PressurizationCompleteFor(vent: GroupId) returns (cmds: seq<Command>, ok: bool)
      requires Valid()
      modifies this
      ensures Valid() && delayedRequests == old(delayedRequests)
      ensures var r := CompleteFor(vent, Outcome(old(hangarOpen), old(pressurizeGroups), []));
              && (ok <==> r.Some?)
              && (ok ==> Outcome(hangarOpen, pressurizeGroups, cmds) == r.value)
              && (!ok ==> hangarOpen == old(hangarOpen) && pressurizeGroups == old(pressurizeGroups) && cmds == [])
    {
      if vent !in pressurizeGroups {
        return [], false;
      }
      pressurizeGroups := RemoveFirst(pressurizeGroups, vent);
      cmds := [Each(vent, Hangar2.WarningLights, Hangar2.OnOffOff), Each(vent, Hangar2.InteriorDoors, Hangar2.OnOffOn),
               Each(vent, Hangar2.ExteriorDoors, Hangar2.OnOffOff)];
      hangarOpen := RemoveAt(hangarOpen, vent);
      hangarOpen := InsertAt(hangarOpen, vent, false);
      ok := true;
    }

    /** `Main`: a non-empty argument is a request; the scheduler tick that
        follows is the EasyAPI `Tick`. */
    method HandleArgument(argument: string) returns (cmds: seq<Command>, ok: bool)
      requires Valid()
      modifies this
      ensures Valid()
      ensures |argument| == 0 ==> ok && cmds == [] && delayedRequests == old(delayedRequests)
      ensures |argument| > 0 ==> (ok <==> argument in Groups)
      ensures |argument| > 0 && !ok ==> delayedRequests == old(delayedRequests) && cmds == []
      ensures |argument| > 0 && ok ==> exists g: GroupId :: (Groups[g] == argument &&
                delayedRequests == old(delayedRequests) +
                  (if !hangarOpen[g] then [Request(g, Lock, NumberSecondsBeforeOpen), Request(g, Open, NumberSecondsBeforeOpen + 2)]
                   else [Request(g, Close, NumberSecondsBeforeClose)]))
      ensures hangarOpen == old(hangarOpen) && pressurizeGroups == old(pressurizeGroups)
    {
      cmds, ok := [], true;
      if |argument| > 0 {
        cmds, ok := ProcessRequest(argument);
      }
    }
  }
}

=== FILE: text.dfy ===
/** String and list helpers shared by the scripts: the .NET `String.Contains`,
    ASCII `ToLower`, `String.Split(char)` (with and without empty entries),
    `List.IndexOf` and `List.Remove` (first occurrence), stated over Dafny
    sequences. */
module Text {

  datatype Option<T> = None | Some(value: T)

  /** `sub` occurs in `s` starting at offset `i`. */
  predicate OccursAt(s: string, sub: string, i: int)
  {
    0 <= i <= |s| - |sub| && s[i..i + |sub|] == sub
  }

  /** `s.Contains(sub)`: `sub` occurs in `s` at some offset. */
  function Contains(s: string, sub: string): (r: bool)
    ensures r <==> exists i :: OccursAt(s, sub, i)
    decreases |s|
  {
    if sub <= s then
      assert OccursAt(s, sub, 0);
      true
    else if |s| <= |sub| then
      assert forall i :: OccursAt(s, sub, i) ==> i == 0;
      false
    else
      var r := Contains(s[1..], sub);
      if r then
        var i :| OccursAt(s[1..], sub, i);
        assert s[i + 1..i + 1 + |sub|] == s[1..][i..i + |sub|];
        assert OccursAt(s, sub, i + 1);
        true
      else
        forall i | 0 <= i <= |s| - |sub|
          ensures !OccursAt(s, sub, i)
        {
          if i > 0 {
            OccursAtTail(s, sub, i);
          }
        }
        false
  }

  lemma OccursAtTail(s: string, sub: string, i: int)
    requires 0 < i && |s| > 0
    ensures OccursAt(s, sub, i) <==> OccursAt(s[1..], sub, i - 1)
  {
    if 0 <= i <= |s| - |sub| {
      var t := s[1..];
      assert forall k {:trigger t[k]} :: 0 <= k < |t| ==> t[k] == s[k + 1];
      assert s[i..i + |sub|] == t[i - 1..i - 1 + |sub|];
    }
  }

  lemma ContainsAppendLeft(a: string, b: string, sub: string)
    requires Contains(b, sub)
    ensures Contains(a + b, sub)
  {
    var i :| OccursAt(b, sub, i);
    assert (a + b)[|a| + i..|a| + i + |sub|] == b[i..i + |sub|];
    assert OccursAt(a + b, sub, |a| + i);
  }

  lemma ContainsAppendRight(a: string, b: string, sub: string)
    requires Contains(a, sub)
    ensures Contains(a + b, sub)
  {
    var i :| OccursAt(a, sub, i);
    assert (a + b)[i..i + |sub|] == a[i..i + |sub|];
    assert OccursAt(a + b, sub, i);
  }

  /** A string that lacks one of the characters of `sub` cannot contain it. */
  lemma MissingChar(s: string, sub: string, c: char)
    requires c in sub && c !in s
    ensures !Contains(s, sub)
  {
    forall i | 0 <= i <= |s| - |sub|
      ensures !OccursAt(s, sub, i)
    {
      var k :| 0 <= k < |sub| && sub[k] == c;
      assert s[i..i + |sub|][k] == s[i + k];
    }
  }

  /** No occurrence can start where the first character of `sub` is absent. */
  lemma FirstCharAbsent(s: string, sub: string)
    requires |sub| > 0
    requires forall i :: 0 <= i <= |s| - |sub| ==> s[i] != sub[0]
    ensures !Contains(s, sub)
  {
    if i :| OccursAt(s, sub, i) {
      assert s[i..i + |sub|][0] == sub[0];
    }
  }

  /** ASCII lower-casing of one character. */
  function LowerChar(c: char): (r: char)
    ensures 'A' <= c <= 'Z' ==> 'a' <= r <= 'z' && r as int - c as int == 32
    ensures !('A' <= c <= 'Z') ==> r == c
  {
    if 'A' <= c <= 'Z' then (c as int + 32) as char else c
  }

  /** `s.ToLower()` restricted to ASCII letters. */
  function Lower(s: string): (r: string)
    ensures |r| == |s|
    ensures forall i :: 0 <= i < |s| ==> r[i] == LowerChar(s[i])
  {
    seq(|s|, i requires 0 <= i < |s| => LowerChar(s[i]))
  }

  /** A string with no upper-case ASCII letter is its own lower-case form. */
  lemma LowerOfLower(s: string)
    requires forall i :: 0 <= i < |s| ==> !('A' <= s[i] <= 'Z')
    ensures Lower(s) == s
  {
  }

  /** `s.Split(d)`: the maximal pieces between occurrences of `d`; never empty. */
  function Split(s: string, d: char): (r: seq<string>)
    ensures |r| >= 1
    ensures forall k :: 0 <= k < |r| ==> d !in r[k]
    decreases |s|
  {
    if |s| == 0 then [""]
    else if s[0] == d then [""] + Split(s[1..], d)
    else
      var t := Split(s[1..], d);
      [[s[0]] + t[0]] + t[1..]
  }

  /** `String.Join(d, parts)`. */
  function Join(parts: seq<string>, d: char): (r: string)
    requires |parts| >= 1
    decreases |parts|
  {
    if |parts| == 1 then parts[0] else parts[0] + [d] + Join(parts[1..], d)
  }

  /** Pieces that do not contain the separator survive joining and splitting. */
  lemma {:induction false} SplitJoin(parts: seq<string>, d: char)
    requires |parts| >= 1
    requires forall k :: 0 <= k < |parts| ==> d !in parts[k]
    ensures Split(Join(parts, d), d) == parts
    decreases |parts|, |parts[0]|
  {
    if |parts| == 1 {
      SplitNoSeparator(parts[0], d);
    } else if parts[0] == "" {
      var rest := Join(parts[1..], d);
      assert Join(parts, d) == [d] + rest;
      assert ([d] + rest)[1..] == rest;
      SplitJoin(parts[1..], d);
      assert parts == [""] + parts[1..];
    } else {
      var p0 := parts[0];
      var tail := [p0[1..]] + parts[1..];
      forall k | 0 <= k < |tail| ensures d !in tail[k] {
        if k > 0 { assert tail[k] == parts[k]; }
      }
      SplitJoin(tail, d);
      JoinHead(parts, d);
      SplitCons(p0[0], Join(tail, d), d);
      assert parts == [[p0[0]] + tail[0]] + tail[1..] by {
        assert [p0[0]] + tail[0] == p0;
        assert parts == [p0] + parts[1..];
      }
    }
  }

  lemma JoinHead(parts: seq<string>, d: char)
    requires |parts| >= 1 && parts[0] != ""
    ensures Join(parts, d) == [parts[0][0]] + Join([parts[0][1..]] + parts[1..], d)
  {
    var p0 := parts[0];
    var tail := [p0[1..]] + parts[1..];
    assert tail[1..] == parts[1..];
    assert p0 == [p0[0]] + p0[1..];
  }

  lemma SplitCons(c: char, s: string, d: char)
    requires c != d
    ensures Split([c] + s, d) == [[c] + Split(s, d)[0]] + Split(s, d)[1..]
  {
    assert ([c] + s)[1..] == s;
  }

  lemma {:induction false} SplitNoSeparator(s: string, d: char)
    requires d !in s
    ensures Split(s, d) == [s]
    decreases |s|
  {
    if |s| > 0 {
      assert d !in s[1..];
      SplitNoSeparator(s[1..], d);
      assert s == [s[0]] + s[1..];
    }
  }

  /** Splitting and joining again restores the input. */
  lemma {:induction false} JoinSplit(s: string, d: char)
    ensures Join(Split(s, d), d) == s
    decreases |s|
  {
    if |s| > 0 {
      JoinSplit(s[1..], d);
      var t := Split(s[1..], d);
      if s[0] == d {
        assert Split(s, d)[1..] == t;
        assert s == [d] + s[1..];
      } else {
        var r := Split(s, d);
        if |t| > 1 {
          assert r[1..] == t[1..];
          assert Join(t, d) == t[0] + [d] + Join(t[1..], d);
        }
        assert s == [s[0]] + s[1..];
      }
    }
  }

  /** The non-empty pieces, in order: `Split(new[]{d}, RemoveEmptyEntries)`. */
  function NonEmpty(parts: seq<string>): (r: seq<string>)
    ensures forall k :: 0 <= k < |r| ==> r[k] != "" && r[k] in parts
    ensures |r| <= |parts|
  {
    if parts == [] then []
    else if parts[0] == "" then NonEmpty(parts[1..])
    else [parts[0]] + NonEmpty(parts[1..])
  }

  /** `RemoveEmptyEntries` loses no non-empty piece: every piece but the
      empty one is kept as often as it occurs. */
  lemma {:induction false} NonEmptyKeepsAll(parts: seq<string>)
    ensures multiset(NonEmpty(parts))[""] == 0
    ensures forall x :: x != "" ==> multiset(NonEmpty(parts))[x] == multiset(parts)[x]
    decreases |parts|
  {
    if parts != [] {
      NonEmptyKeepsAll(parts[1..]);
      assert parts == [parts[0]] + parts[1..];
    }
  }

  /** Dropping the empty pieces keeps the order: it works piece by piece. */
  lemma {:induction false} NonEmptyAppend(a: seq<string>, b: seq<string>)
    ensures NonEmpty(a + b) == NonEmpty(a) + NonEmpty(b)
    decreases |a|
  {
    if a == [] {
      assert a + b == b;
    } else {
      NonEmptyAppend(a[1..], b);
      assert (a + b)[1..] == a[1..] + b;
    }
  }

  function SplitNonEmpty(s: string, d: char): (r: seq<string>)
    ensures forall k :: 0 <= k < |r| ==> r[k] != "" && d !in r[k]
  {
    NonEmpty(Split(s, d))
  }

  /** `list.IndexOf(x)`: the first position of `x`, or -1. */
  function IndexOf<T(==)>(xs: seq<T>, x: T): (r: int)
    ensures -1 <= r < |xs|
    ensures r == -1 <==> x !in xs
    ensures r >= 0 ==> xs[r] == x && x !in xs[..r]
  {
    if |xs| == 0 then -1
    else if xs[0] == x then 0
    else
      var k := IndexOf(xs[1..], x);
      assert xs[1..][..(if k < 0 then 0 else k)] == xs[1..1 + (if k < 0 then 0 else k)];
      if k == -1 then -1 else k + 1
  }

  /** `list.Remove(x)`: drops the first element equal to `x`, if any. */
  function RemoveFirst<T(==)>(xs: seq<T>, x: T): seq<T>
  {
    var k := IndexOf(xs, x);
    if k == -1 then xs else xs[..k] + xs[k + 1..]
  }

  /** Removing leaves a list without `x` alone and otherwise drops exactly
      the first `x`: the elements before it and after it keep their order. */
  lemma RemoveFirstSpec<T>(xs: seq<T>, x: T)
    ensures x !in xs ==> RemoveFirst(xs, x) == xs
    ensures x in xs ==> |RemoveFirst(xs, x)| == |xs| - 1
    ensures x in xs ==> exists a, b :: xs == a + [x] + b && x !in a && RemoveFirst(xs, x) == a + b
  {
    if x in xs {
      var k := IndexOf(xs, x);
      assert xs == xs[..k] + [x] + xs[k + 1..];
    }
  }

  /** Removing drops exactly one copy of `x`, when there is one. */
  lemma RemoveFirstMultiset<T>(xs: seq<T>, x: T)
    ensures multiset(RemoveFirst(xs, x)) == multiset(xs) - multiset{x}
  {
    var k := IndexOf(xs, x);
    if k != -1 {
      assert xs == xs[..k] + [xs[k]] + xs[k + 1..];
    }
  }

  /** Number of occurrences of `x`. */
  function Count<T(==)>(xs: seq<T>, x: T): (n: nat)
    ensures n <= |xs|
  {
    if xs == [] then 0
    else Count(xs[..|xs| - 1], x) + (if xs[|xs| - 1] == x then 1 else 0)
  }
}
